=== FILE: README.md ===
# prisma-schema-dsl in Dafny

A model of prisma-schema-dsl, a TypeScript library with two parts:

- **Builders** create the AST of a Prisma schema. They check every name, every default value and every modifier combination as they go.
- **A printer** turns an AST into Prisma schema text.

The model covers two versions of the library:

- **The current version** (`packages/main`, with its types in `packages/types`). It has preview features, relation modes, referential actions, MongoDB ids, `@@map`, `@@index` and `@@fulltext`.
- **The legacy version** (`src`). It has free-text field and model attributes. Its printer recognises url environment references and call expressions with `instanceof`.

Every builder is a pure function that returns a `Result`: a thrown `Error` becomes an `Err` carrying the same message. The printers are pure functions of the node, plus the data-source provider for models and fields. `print` is modelled up to the text it hands to the external formatter.

Modules:

| module | models |
|---|---|
| `Wrappers` | `Option`, `Result` and `Outcome` |
| `Strings` | the JavaScript string and array operations the source relies on: `join`, `split`, `filter(Boolean)`, `trim`, `String(n)`, `JSON.stringify` |
| `Validation` | the name pattern, the modifier check, the error messages |
| `Types`, `Builders`, `Printer` | the current version |
| `PrinterExamples` | the current version's printer test cases |
| `LegacyTypes`, `LegacyBuilders`, `LegacyPrinter` | the legacy version |
| `LegacyExamples` | legacy behaviour across builders and printer |

Each `LegacyPrinter` operation is also proved equal to the current printer, applied to the node converted into the current version's AST, on every input where the two versions agree. Where they differ, the difference is stated exactly.

Where the legacy tests and the legacy code disagree, the model follows the code:

- `src/print.ts` imports `CallExpression` and `DataSourceURLEnv` from its own `./types`. Its `instanceof` tests therefore reject plain `{ callee }` and `{ name }` records, even though the builders accept them:
  - a plain call record as a default throws `Invalid value: [object Object]`;
  - a plain url record prints as `"[object Object]"`.
- The legacy printer never prints a field's or model's prepared `attributes`, which the tests of `src/print.spec.ts` expect to appear.
- The legacy `print` prints models only when the schema has a data source, which its "Simple model" test does not expect.

The name check uses the unanchored regular expression of the source. A name is accepted exactly when it contains an ASCII letter, so `1a` and `a-b` pass (`Validation.NamePatternIffLetter`).

## Model

| member | source | states |
|---|---|---|
| Strings.NonEmpty | packages/main/src/print.ts:211 | `filter(Boolean)` keeps exactly the non-empty strings and never adds any |
| Strings.NonEmptyCons | packages/main/src/print.ts:211 | filtering keeps the order: the first string is kept exactly when it is non-empty, ahead of the filtered rest |
| Strings.JoinOfNonEmptyParts | packages/main/src/print.ts:49 | joining non-empty statements gives the empty text exactly when there are no statements |
| Strings.JoinSplit | packages/main/src/print.ts:49 | splitting a text at a separator and joining the pieces back gives the text again |
| Strings.SplitJoin | packages/main/src/print.ts:49 | splitting a join of pieces at a one-character separator gives back the pieces, each split further at the separator |
| Strings.Find | src/builders.ts:262 | the search returns the first occurrence of the separator, or none when it never occurs |
| Strings.SplitPiecesAvoidSeparator | src/builders.ts:262 | no piece of a split contains the separator |
| Strings.LinesOfJoin | packages/main/src/print.ts:124 | lines without newlines joined by newlines split back into exactly those lines |
| Strings.JoinIndented | packages/main/src/print.ts:87-88 | joining settings with newline-and-indent after one leading indent equals indenting each setting and joining with newlines |
| Strings.Trim | src/builders.ts:267 | the trimmed text is no longer than the input, has no whitespace at either end, and is empty exactly when the input is all whitespace |
| Strings.TrimIsMiddle | src/builders.ts:267 | the trimmed text is the input with an all-whitespace prefix and an all-whitespace suffix dropped; the prefix is exactly what `trimStart` drops |
| Strings.TrimStart | src/builders.ts:267 | the result is a suffix of the input whose dropped prefix is all whitespace and which starts with non-whitespace |
| Strings.TrimEnd | src/builders.ts:267 | the result is a prefix of the input whose dropped suffix is all whitespace and which ends with non-whitespace |
| Strings.TrimIdempotent | src/builders.ts:266-272 | trimming an already trimmed attribute again changes nothing |
| Strings.NewlinesToSpaces | src/builders.ts:260 | each newline becomes a space and every other character stays in its place, so the length is kept and no newline is left |
| Strings.NatToString | packages/main/src/print.ts:221-223 | the decimal text of a natural number is all digits, has no leading zero, and has the number as its value |
| Strings.IntToString | packages/main/src/print.ts:221-223 | `String(n)` of an integer parses back to the integer and is canonical: a minus sign exactly for a negative number, digits without a leading zero, never `-0` |
| Strings.CanonicalIntUnique | packages/main/src/print.ts:221-223 | any canonical integer text that parses back to `n` is exactly `String(n)`, so the canonical form pins the printed text |
| Strings.DigitsUnique | packages/main/src/print.ts:221-223 | two digit strings without leading zeros that have the same value are the same string |
| Strings.JsonEscape | packages/main/src/print.ts:80 | the escaped text of a string has no control characters |
| Strings.JsonEscapePlain | packages/main/src/print.ts:80 | a string without quotes, backslashes or control characters is its own escape |
| Strings.JsonEscapeRoundTrip | packages/main/src/print.ts:80 | unescaping the `JSON.stringify` escape of any string gives the string back |
| Strings.JsonStringArray | packages/main/src/print.ts:80 | a stringified array of strings contains no newline, so it stays on its setting's line |
| Validation.NamePatternIffLetter | packages/main/src/builders.ts:25 | the unanchored name pattern matches exactly the names that contain an ASCII letter |
| Validation.ValidateName | packages/main/src/builders.ts:276-282 | a name passes exactly when the pattern matches somewhere in it; otherwise the error names it |
| Validation.ValidateModifiers | packages/main/src/builders.ts:284-288 | the check fails exactly for an optional list, with the optional-list message |
| Validation.NameExamples | packages/main/src/builders.ts:276-282 | `1a`, `a-b` and `ExampleModelName` pass; the empty name and `123` fail with their own name in the error |
| Types.ScalarTypeFromName | packages/types/src/types.ts:66-79 | a type tag resolves to the scalar type with that name, or to none when no type has it |
| Types.ScalarTypeNamesRoundTrip | packages/types/src/types.ts:66-79 | every scalar type's name resolves back to the type |
| Builders.ValidateScalarDefault | packages/main/src/builders.ts:162-229 | a default passes exactly when it is null or its shape is allowed for the type; an unknown type fails with `Unknown type`, a known type with its own message |
| Builders.AcceptsIffRule | packages/main/src/builders.ts:166-224 | the per-type branches accept a non-null default exactly when the rule table lists its type and shape |
| Builders.UnknownTypeHasNoRule | packages/main/src/builders.ts:225-227 | no default shape is allowed for a tag that names no scalar type |
| Builders.RejectedDefaultExamples | packages/main/src/builders.ts:206-227 | the DateTime and Json messages for wrong shapes; `BigInt` is an unknown type, yet a null default for it passes |
| Builders.CallDefaultExamples | packages/main/src/builders.ts:167-179 | `uuid()` is a valid String default and `now()` is not |
| Builders.NumericCallDefaultExamples | packages/main/src/builders.ts:187-205 | `autoincrement()` is a valid Int default and not a valid Float default |
| Builders.CreateScalarField | packages/main/src/builders.ts:121-160 | succeeds exactly when the name, the default and the modifiers are valid; the name, default and optional-list errors come in that order, each returned when every earlier check passes; the field keeps every argument |
| Builders.CreateObjectField | packages/main/src/builders.ts:235-274 | succeeds exactly when the name and the modifiers are valid, with the name checked first; the field keeps every argument and has both actions set |
| Builders.ScalarFieldDefaults | packages/main/src/builders.ts:121-131 | with only a name and a type, the field is optional, not a list, without flags and with a null default |
| Builders.ObjectFieldDefaults | packages/main/src/builders.ts:235-245 | with only a name and a type, the object field has no relation and both actions are `NONE` |
| Builders.CreateEnum | packages/main/src/builders.ts:50-65 | succeeds exactly when the name is valid and keeps the values and documentation |
| Builders.CreateModel | packages/main/src/builders.ts:68-92 | succeeds exactly when the name is valid and keeps every argument |
| Builders.CreateView | packages/main/src/builders.ts:95-115 | like a model, but the indexes and full-text indexes it is given are dropped |
| Builders.CreateSchema | packages/main/src/builders.ts:30-47 | the schema holds exactly the given parts; generators default to none |
| Builders.CreateDataSource | packages/main/src/builders.ts:291-308 | the data source holds exactly the given parts |
| Builders.CreateGenerator | packages/main/src/builders.ts:311-331 | the generator holds exactly the given parts, with the source's defaults |
| Printer.PrintDocumentation | packages/main/src/print.ts:97-99 | a comment is `/// ` followed by the documentation |
| Printer.WithDocumentation | packages/main/src/print.ts:107-115 | truthy documentation goes on its own line above the code; otherwise the code is unchanged |
| Printer.DocumentedLines | packages/main/src/print.ts:107-115 | the lines of documented code are the comment line, if any, followed by the code's lines |
| Printer.PrintDataSourceUrl | packages/main/src/print.ts:70-72 | an environment reference prints as `env("…")` and a literal as a quoted string, and the printed url parses back to the url |
| Printer.DataSourceLines | packages/main/src/print.ts:59-68 | a data source prints as its header, provider and url lines, a relation-mode line when the mode is truthy, and a closing brace |
| Printer.FeatureNames | packages/main/src/print.ts:82-85 | each preview feature becomes its name, in order |
| Printer.GeneratorSettings | packages/main/src/print.ts:75-86 | the provider setting comes first, and there is one setting for it plus one for each truthy output or non-empty list |
| Printer.GeneratorSettingsOrdered | packages/main/src/print.ts:75-86 | the settings are ordered by key (provider, output, binaryTargets, previewFeatures), each key at most once, with provider first |
| Printer.GeneratorSettingsPresence | packages/main/src/print.ts:76-86 | an output setting is present exactly when the output is truthy, and a binaryTargets or previewFeatures setting exactly when that list is non-empty; each holds its value after the key, with lists as JSON arrays |
| Printer.GeneratorLines | packages/main/src/print.ts:74-90 | a generator prints as its header, each setting on its own line indented by two spaces, and a closing brace |
| Printer.EnumLines | packages/main/src/print.ts:123-129 | an enum prints as its comment, if any, its header, one line per value (or one empty line when it has none) and a closing brace |
| Printer.ModifiersRoundTrip | packages/main/src/print.ts:251-260 | the type text of a plain type name with its modifiers parses back to the name, the list flag and the required flag |
| Printer.PrintScalarDefault | packages/main/src/print.ts:213-228 | strings print as themselves, booleans as `true`/`false`, numbers as the canonical decimal text of `String(n)` (parses back, minus sign exactly when negative, no leading zero), and calls as the callee followed by `()` |
| Printer.AttributeTexts | packages/main/src/print.ts:179-210 | each attribute prints as one non-empty text, in order |
| Printer.ScalarAttributesPresence | packages/main/src/print.ts:182-207 | each attribute is present exactly when its flag is set; on MongoDB an id takes `auto()` in place of its default and a foreign key takes `@mongo.ObjectId` |
| Printer.ScalarAttributesOrdered | packages/main/src/print.ts:182-207 | the attributes come in the order id, ObjectId, unique, updatedAt, default, each at most once |
| Printer.DefaultAttributesRank | packages/main/src/print.ts:200-207 | a field carries at most one default attribute |
| Printer.ObjectAttributes | packages/main/src/print.ts:230-245 | an object field has one attribute, an `@relation(…)` text, exactly when it has a truthy relation name or a non-empty fields or references list, and none otherwise |
| Printer.RelationArguments | packages/main/src/print.ts:262-287 | the relation arguments are the truthy name, the non-empty columns and references, and every action other than `NONE`, in that order |
| Printer.NonEmptyFive | packages/main/src/print.ts:278-286 | filtering the five argument texts keeps exactly the non-empty ones, in order |
| Printer.FieldLineWords | packages/main/src/print.ts:209-211 | splitting a field line at spaces gives back the name, the type text and each attribute's words |
| Printer.FieldWords | packages/main/src/print.ts:162-172 | the printed scalar or object field splits at spaces into its name, its type text and its attributes' words |
| Printer.IndexFieldText | packages/main/src/print.ts:303-314 | an index field is its name, followed by a capitalised `sort` argument when it has a sort order |
| Printer.FullTextAttribute | packages/main/src/print.ts:330-336 | a full-text index prints as `@@fulltext(fields: [...])` with its field names joined by a comma and a space |
| Printer.IndexAttributes | packages/main/src/print.ts:295-322 | one `@@index` attribute per index, in order |
| Printer.FullTextAttributes | packages/main/src/print.ts:324-338 | one `@@fulltext` attribute per full-text index, in order |
| Printer.FieldTexts | packages/main/src/print.ts:141-143 | each field prints as one text, in order, for the model's provider |
| Printer.SectionPieces | packages/main/src/print.ts:289-293 | splitting each attribute prefixed by two newlines at its newlines gives two empty lines, then the attribute |
| Printer.SectionTailLines | packages/main/src/print.ts:299-321 | a non-empty section of one-line attributes splits into two empty lines before each attribute; after a text, the first of them closes the text's last line |
| Printer.SectionAfter | packages/main/src/print.ts:144-152 | appending a section adds its lines after the text's own lines |
| Printer.ModelSections | packages/main/src/print.ts:144-148 | the map, indexes and full-text indexes each print as a section of their attributes, or as nothing when absent |
| Printer.ModelBodySections | packages/main/src/print.ts:141-152 | the model body is the joined fields followed by the map, index and full-text sections |
| Printer.ModelBodyLines | packages/main/src/print.ts:141-152 | the body's lines are the field lines followed by each section's lines |
| Printer.ModelLines | packages/main/src/print.ts:137-154 | a model prints as its comment, if any, its header, its field lines, then the map, index and full-text attributes, with one blank line before the first attribute of each kind and two between consecutive attributes of the same kind, and a closing brace |
| Printer.BlockLines | packages/main/src/print.ts:150-153 | a documented block's lines are the comment, the header, the body's lines and the closing brace |
| Printer.StatementTextNonEmpty | packages/main/src/print.ts:36-48 | every printed block is non-empty |
| Printer.StatementsOrder | packages/main/src/print.ts:36-48 | the blocks are the data source when there is one, every generator, every model and every enum, in that order and nothing else |
| Printer.Statements | packages/main/src/print.ts:36-48 | each statement is its block printed for the data source's provider, or for PostgreSQL without a data source |
| Printer.BlockTextsConcat | packages/main/src/print.ts:41-48 | printing blocks one after another prints each group in turn |
| Printer.PrintLines | packages/main/src/print.ts:49 | the schema text splits back into the statements' lines, and it is empty exactly when the schema has no data source, generator, model or enum |
| Printer.StatementsNonEmpty | packages/main/src/print.ts:36-48 | no statement is empty |
| PrinterExamples.EnumExample | packages/main/src/print.spec.ts:92-99 | the two-value enum test case prints as expected |
| PrinterExamples.DocumentedEnumExample | packages/main/src/print.spec.ts:81-91 | the documented enum test case prints its comment above the enum |
| PrinterExamples.OptionalFieldExample | packages/main/src/print.spec.ts:140-149 | an optional String field prints `String?` |
| PrinterExamples.ListFieldExample | packages/main/src/print.spec.ts:150-159 | a String list field prints `String[]` |
| PrinterExamples.NumberDefaultExample | packages/main/src/print.spec.ts:173-186 | an Int field with default 42 prints `@default(42)` |
| PrinterExamples.CallDefaultExample | packages/main/src/print.spec.ts:187-200 | an Int field with `autoincrement()` prints `@default(autoincrement())` |
| PrinterExamples.SimpleObjectExample | packages/main/src/print.spec.ts:257-266 | an object field without a relation prints its name and model only |
| PrinterExamples.FullRelationExample | packages/main/src/print.spec.ts:303-315 | an object field with a name, fields and references prints the three relation arguments |
| PrinterExamples.MongoIdExample | packages/main/src/print.ts:182-207 | a MongoDB id with a `uuid()` default prints the id mapping and `@default(auto())` |
| PrinterExamples.MappedModelExample | packages/main/src/print.spec.ts:357-370 | a model with a map prints the map after a blank line; empty documentation prints no comment |
| PrinterExamples.GeneratorExample | packages/main/src/print.spec.ts:389-400 | a generator with an output prints the provider and output settings |
| PrinterExamples.BinaryTargetsExample | packages/main/src/print.spec.ts:401-413 | a generator with one binary target prints it as a JSON array |
| PrinterExamples.DataSourceExample | packages/main/src/print.spec.ts:449-464 | a data source with a literal url prints its provider and quoted url |
| LegacyTypes.CurrentDefault | src/types.ts:92-97 | the conversion of a legacy default into the current AST keeps its kind and its truthiness |
| LegacyBuilders.ValidateScalarDefault | src/builders.ts:123-192 | a default passes exactly when it is null or its shape is allowed for the type, with BigInt like Int and Decimal like Float; otherwise the source's messages |
| LegacyBuilders.AcceptsIffRule | src/builders.ts:127-186 | the per-type branches accept a non-null default exactly when the legacy rule table lists its type and shape |
| LegacyBuilders.UnknownTagHasNoRule | src/builders.ts:187-190 | no default shape is allowed for a tag outside the legacy types |
| LegacyBuilders.ValidateAsCurrent | src/builders.ts:123-192 | apart from BigInt and Decimal, the legacy check agrees with the current one on the default converted into the current AST |
| LegacyBuilders.KnownTags | src/builders.ts:126-186 | apart from BigInt and Decimal, the legacy types are exactly the current scalar types |
| LegacyBuilders.WideTypesFollowNarrow | src/builders.ts:153-178 | BigInt defaults are checked exactly like Int defaults, and Decimal exactly like Float |
| LegacyBuilders.PrefixesAreAttributePrefixes | src/builders.ts:294-316 | `@` and `@@` both qualify as attribute prefixes |
| LegacyBuilders.AttributePieces | src/builders.ts:258-264 | the pieces of an attribute text are non-empty and contain no newline |
| LegacyBuilders.NormalizeAttributes | src/builders.ts:266-272 | each prepared attribute is the prefix followed by its trimmed piece, one per piece |
| LegacyBuilders.NormalizeCleanPieces | src/builders.ts:266-268 | replacing newlines in a piece that has none leaves the trim unchanged |
| LegacyBuilders.PrepareAttributes | src/builders.ts:248-292 | no attributes give null; a list is kept exactly when every element starts with the prefix after trimming and is longer than it; otherwise the error |
| LegacyBuilders.PreparedPieceValid | src/builders.ts:280-289 | a prepared piece is accepted exactly when the piece is not all whitespace |
| LegacyBuilders.TextAttributesAccepted | src/builders.ts:248-292 | an attribute text is accepted exactly when none of its pieces is all whitespace |
| LegacyBuilders.TextAttributesPrefixed | src/builders.ts:270-272 | every attribute prepared from a text starts with the prefix |
| LegacyBuilders.LeadingWhitespaceRejected | src/builders.ts:258-289 | a text that starts with a space before the prefix is rejected |
| LegacyBuilders.ThreeAttributesText | src/builders.ts:258-272 | three prefixed attributes separated by spaces are split into the three attributes |
| LegacyBuilders.UnprefixedTextAccepted | src/builders.ts:258-272 | a text without the prefix is accepted and given the prefix |
| LegacyBuilders.PrepareModelAttributes | src/builders.ts:294-304 | model attributes start with `@@`, or the error names the model |
| LegacyBuilders.PrepareFieldAttributes | src/builders.ts:306-316 | field attributes start with `@`, or the error names the field |
| LegacyBuilders.CreateScalarField | src/builders.ts:87-121 | succeeds exactly when the name, default, modifiers and attributes are valid; the name, default, optional-list and attribute errors come in that order, each returned when every earlier check passes; the field keeps every argument |
| LegacyBuilders.CreateObjectField | src/builders.ts:198-232 | succeeds exactly when the name, modifiers and attributes are valid; the name, optional-list and attribute errors come in that order, each returned when every earlier check passes; the field keeps every argument |
| LegacyBuilders.CreateModel | src/builders.ts:62-81 | succeeds exactly when the name and the model attributes are valid, with the name checked first; the model keeps every argument |
| LegacyBuilders.CreateEnum | src/builders.ts:48-59 | succeeds exactly when the name is valid and keeps the values and documentation |
| LegacyBuilders.CreateSchema | src/builders.ts:33-45 | the schema holds exactly the given parts; the legacy function has the same definition as `Builders.CreateSchema`, and both are modelled because both exist in the source |
| LegacyBuilders.CreateDataSource | src/builders.ts:319-329 | the data source holds exactly the given parts |
| LegacyBuilders.CreateGenerator | src/builders.ts:332-344 | the generator holds exactly the given parts, with the source's defaults |
| LegacyBuilders.FieldDefaults | src/builders.spec.ts:12-30 | fields built with only a name and a type are accepted exactly for valid names; optional lists are rejected |
| LegacyBuilders.FieldAttributeTextRejected | src/print.spec.ts:509-527 | the test's field attribute text with a leading space is rejected with the field error |
| LegacyBuilders.ModelAttributeTextRejected | src/print.spec.ts:598-613 | the test's model attribute text with a leading space is rejected with the model error |
| LegacyBuilders.ModelAttributeTextPrepared | src/print.spec.ts:577-595 | the test's three model attributes are split into `@@id(...)`, `@@createdAt` and `@@updatedAt` |
| LegacyBuilders.UnprefixedModelAttributeAccepted | src/builders.ts:258-272 | a model attribute text without `@@` is accepted and given the prefix |
| LegacyBuilders.PaddedElementKept | src/builders.ts:275-289 | a list element with a leading space is kept untrimmed, because the trim result is discarded |
| LegacyBuilders.PaddedListElementKept | src/builders.ts:275-289 | the field attribute list `[" @id"]` is kept as it is |
| LegacyBuilders.BareElementRejected | src/builders.ts:280-289 | a list element that is just the prefix is rejected |
| LegacyBuilders.BareListElementRejected | src/builders.ts:280-289 | `["@"]` is rejected for a field, and an empty list is kept |
| LegacyPrinter.PrintDataSourceUrl | src/print.ts:63-65 | an instance prints as `env("…")`; a literal and a plain record print quoted, the record as `[object Object]`; the text parses back |
| LegacyPrinter.RecordUrlLosesName | src/print.ts:63-65 | every plain url record prints the same literal, whatever its name |
| LegacyPrinter.PrintDataSource | src/print.ts:55-61 | the legacy data source prints as the current one with no relation mode |
| LegacyPrinter.DataSourceLines | src/print.ts:55-61 | a data source prints as header, provider line, url line and closing brace |
| LegacyPrinter.GeneratorSettings | src/print.ts:67-78 | the legacy settings equal the current settings of the generator without preview features |
| LegacyPrinter.PrintGenerator | src/print.ts:67-78 | the legacy generator prints as the current one without preview features |
| LegacyPrinter.GeneratorLines | src/print.ts:67-78 | a generator prints as its header, its indented settings and a closing brace; with binary targets they are the last setting |
| LegacyPrinter.PrintScalarDefault | src/print.ts:179-194 | a default fails exactly when it is null or a plain call record, with the source's message; otherwise it prints as the current version's default |
| LegacyPrinter.ScalarAttributes | src/print.ts:153-177 | the attributes fail exactly for a plain call record as default |
| LegacyPrinter.ScalarAttributesTexts | src/print.ts:158-170 | otherwise they are the texts of id, unique, updatedAt and default, each when set |
| LegacyPrinter.AttributeListPresence | src/print.ts:158-170 | each attribute is present exactly when its flag is set; there is never an ObjectId or `auto()` |
| LegacyPrinter.AttributeListOrdered | src/print.ts:158-170 | the attributes come in the order id, unique, updatedAt, default |
| LegacyPrinter.AttributeListAsCurrent | src/print.ts:158-170 | apart from a MongoDB id with a default, the attributes equal the current ones of the field without a foreign-key flag |
| LegacyPrinter.MongoIdKeepsDefault | src/print.ts:166-168 | a MongoDB id keeps its own default where the current version prints `auto()` |
| LegacyPrinter.PrintScalarField | src/print.ts:153-177 | a scalar field fails to print exactly when its default is a plain call record |
| LegacyPrinter.ScalarFieldAsCurrent | src/print.ts:153-177 | apart from a MongoDB id with a default, the scalar field prints as the current one |
| LegacyPrinter.RelationArguments | src/print.ts:231-255 | the arguments are the truthy name, the non-empty columns and references, then on MongoDB with references both `NoAction` arguments |
| LegacyPrinter.RelationArgumentsAsCurrent | src/print.ts:231-255 | the arguments equal the current ones for actions `NONE`, plus the two MongoDB arguments when those apply |
| LegacyPrinter.ObjectFieldAsCurrent | src/print.ts:196-218 | outside MongoDB relations with references, the object field prints as the current one |
| LegacyPrinter.PrintField | src/print.ts:141-151 | a field fails to print exactly when it is unprintable, with the source's message |
| LegacyPrinter.FieldAsCurrent | src/print.ts:141-151 | a field outside the legacy-only cases prints as the current one |
| LegacyPrinter.FieldTexts | src/print.ts:126-128 | the fields print exactly when every one is printable; each prints in order; otherwise the invalid-value error |
| LegacyPrinter.PrintModel | src/print.ts:125-133 | a model fails to print exactly when one of its fields is unprintable |
| LegacyPrinter.ModelLines | src/print.ts:125-133 | a model prints as its comment, if any, its header, its field lines and a closing brace |
| LegacyPrinter.FieldTextsAsCurrent | src/print.ts:126-128 | fields outside the legacy-only cases print as the current ones |
| LegacyPrinter.ModelAsCurrent | src/print.ts:125-133 | a model whose fields print as current prints as the current model with no map or indexes |
| LegacyPrinter.ModelTexts | src/print.ts:39-43 | the models print exactly when every one is printable, each in order |
| LegacyPrinter.GeneratorTexts | src/print.ts:36-38 | each generator prints in order |
| LegacyPrinter.EnumTexts | src/print.ts:44 | each enum prints in order, as in the current version |
| LegacyPrinter.Statements | src/print.ts:31-47 | printing fails exactly when there is a data source and one of the models is not printable |
| LegacyPrinter.Print | src/print.ts:31-47 | the schema fails to print exactly in that case, with the source's message |
| LegacyPrinter.PrintAsCurrent | src/print.ts:31-47 | a schema whose models print as current prints as the current schema, with its models dropped when there is no data source |
| LegacyPrinter.StatementsAsCurrent | src/print.ts:31-47 | the legacy statements equal the current statements of the schema converted into the current AST |
| LegacyPrinter.ModelTextsAsCurrent | src/print.ts:39-43 | with a data source, the legacy model texts equal the current ones for that provider |
| LegacyPrinter.CurrentStatements | packages/main/src/print.ts:36-48 | the current statements are the data source, generator, model and enum texts, group by group |
| LegacyExamples.BuilderAcceptsPrinterRejects | src/print.ts:179-194 | a `uuid()` default as a plain record is accepted by the builder and rejected by the printer; as an instance it prints |
| LegacyExamples.ModelsOnlyPrintNothing | src/print.ts:39-43 | a schema of models only prints as the empty text |
| LegacyExamples.MongoRelationArguments | src/print.ts:231-255 | on MongoDB a relation with references gets both `NoAction` arguments after its columns |
| LegacyExamples.MongoRelationText | src/print.ts:246-254 | that relation prints as its four arguments joined by a comma and a space |

## Left out

- `formatSchema` (`@prisma/internals`) and `src/format.ts`: this is an external formatter. `print` is modelled up to the text handed to it, and the promise is left out.
- `parseArgs` (`src/utils.ts`): it only shapes arguments. The builders take the arguments directly.
- Floating-point numbers: numeric defaults are integers, and `String(n)` is modelled for integers only. Neither `NaN`, `Infinity`, exponent notation nor `MAX_SAFE_INTEGER` is modelled.
- `printView` and the view tests: `packages/main/src/__tests__/printView.spec.ts` tests a printer that `print.ts` does not define.
- `getDMMF` and every other call into Prisma's engines are not part of this model.
- `lodash.isempty`: it is modelled as "the relation has a truthy name or a non-empty column list", which is exactly the set of keys `printObjectField` can add.
- `isCallExpression` of the current types package: it is modelled as the datatype case. A value is never an object with an undefined `callee`.
- LegacyBuilders.ValidateScalarDefault: the BigInt and Decimal types come from the `prisma-schema-dsl-types` package that `src/builders.ts` imports. That package is not part of this model, so the two types are taken from the branches of `src/builders.ts` that name them.
- LegacyBuilders.PrepareAttributes: requires a non-empty prefix. The source only ever calls it with `@` or `@@`.
- Printer.PrintScalarDefault: requires a non-null default. `printScalarField` calls it only after a truthiness test. The legacy null case is modelled in LegacyPrinter.PrintScalarDefault.
- The legacy printer's handling of the prepared `attributes` of fields and models: the legacy printer never reads them, so they are stored and not printed.
- Thrown errors and `async`: a thrown error becomes an `Err` with the same message, and `print`'s promise becomes its value.
- JavaScript strings are UTF-16 and Dafny's `char` is a Unicode scalar value: `JSON.stringify` of lone surrogates is not modelled.

=== FILE: builders.dfy ===
/** The validating builders of the current version. Each builder takes the
    properties of its options object (a datatype with the source's defaults),
    runs its checks in the source's order and either returns the node or the
    error the first failing check throws. */
module Builders {
  import opened Wrappers
  import opened Validation
  import opened Types

  /** The shape of a default as the per-type rules speak of it: the `typeof`
      of a literal, or the function a call expression calls. */
  datatype Shape = NullShape | BooleanShape | NumberShape | StringShape | CallShape(callee: string)

  function DefaultShape(v: ScalarDefault): Shape {
    match v
    case NullDefault => NullShape
    case BoolDefault(_) => BooleanShape
    case NumberDefault(_) => NumberShape
    case StringDefault(_) => StringShape
    case CallDefault(callee) => CallShape(callee)
  }

  /** The non-null defaults each scalar type accepts, as (type, shape) pairs. */
  const DEFAULT_RULES: set<(string, Shape)> := {
    ("String", StringShape), ("String", CallShape(UUID)), ("String", CallShape(CUID)),
    ("Boolean", BooleanShape),
    ("Int", NumberShape), ("Int", CallShape(AUTO_INCREMENT)),
    ("Float", NumberShape),
    ("DateTime", StringShape), ("DateTime", CallShape(NOW)),
    ("Json", StringShape)
  }

  /** `validateScalarDefault`: `null` is always accepted; any other default
      must suit the field's type, and a type tag outside `ScalarType` is an error. */
  function ValidateScalarDefault(tag: string, v: ScalarDefault): (r: Outcome<BuildError>)
    ensures r == Pass <==> v.NullDefault? || (tag, DefaultShape(v)) in DEFAULT_RULES
    ensures r.Fail? && ScalarTypeFromName(tag).None? ==> r.error == UnknownType(tag)
    ensures r.Fail? && ScalarTypeFromName(tag).Some? ==> r.error == InvalidDefault(DefaultMismatchReason(tag))
  {
    if v.NullDefault? then Pass
    else
      match ScalarTypeFromName(tag)
      case None =>
        UnknownTypeHasNoRule(tag, v);
        Fail(UnknownType(tag))
      case Some(t) =>
        AcceptsIffRule(t, v);
        if Accepts(t, v) then Pass else Fail(InvalidDefault(DefaultMismatchReason(tag)))
  }

  /** The branch of the type switch for `t`: whether it accepts the non-null default `v`. */
  predicate Accepts(t: ScalarType, v: ScalarDefault) {
    match t
    case String => v.StringDefault? || (IsCallExpression(v) && (v.callee == UUID || v.callee == CUID))
    case Boolean => v.BoolDefault?
    case Int => v.NumberDefault? || (IsCallExpression(v) && v.callee == AUTO_INCREMENT)
    case Float => v.NumberDefault?
    case DateTime => v.StringDefault? || (IsCallExpression(v) && v.callee == NOW)
    case Json => v.StringDefault?
  }

  lemma AcceptsIffRule(t: ScalarType, v: ScalarDefault)
    requires !v.NullDefault?
    ensures Accepts(t, v) <==> (t.Name(), DefaultShape(v)) in DEFAULT_RULES
  {
  }

  lemma UnknownTypeHasNoRule(tag: string, v: ScalarDefault)
    requires ScalarTypeFromName(tag).None?
    ensures (tag, DefaultShape(v)) !in DEFAULT_RULES
  {
    assert String.Name() == "String" && Boolean.Name() == "Boolean" && Int.Name() == "Int";
    assert Float.Name() == "Float" && DateTime.Name() == "DateTime" && Json.Name() == "Json";
  }

  /** The options of `createScalarField`, with its defaults. */
  datatype ScalarFieldConfig = ScalarFieldConfig(
    name: string,
    fieldType: string,
    isList: bool := false,
    isRequired: bool := false,
    isUnique: bool := false,
    isId: bool := false,
    isUpdatedAt: bool := false,
    defaultValue: ScalarDefault := NullDefault,
    documentation: Option<string> := None,
    isForeignKey: bool := false)

  /** The options a scalar field node was built from. */
  function ScalarConfigOf(f: Field): ScalarFieldConfig
    requires f.ScalarField?
  {
    ScalarFieldConfig(f.name, f.fieldType, f.isList, f.isRequired, f.isUnique, f.isId,
      f.isUpdatedAt, f.defaultValue, f.documentation, f.isForeignKey)
  }

  /** `createScalarField`: checks the name, then the default, then the
      modifiers; the node keeps every option it was given. */
  function CreateScalarField(c: ScalarFieldConfig): (r: Result<Field, BuildError>)
    ensures r.Ok? <==>
      && NamePatternMatches(c.name)
      && (c.defaultValue.NullDefault? || (c.fieldType, DefaultShape(c.defaultValue)) in DEFAULT_RULES)
      && (c.isRequired || !c.isList)
    ensures !NamePatternMatches(c.name) ==> r == Err(InvalidName(c.name))
    ensures NamePatternMatches(c.name) && ValidateScalarDefault(c.fieldType, c.defaultValue).Fail? ==>
      r == Err(ValidateScalarDefault(c.fieldType, c.defaultValue).error)
    ensures (NamePatternMatches(c.name) && ValidateScalarDefault(c.fieldType, c.defaultValue) == Pass
             && !c.isRequired && c.isList) ==> r == Err(OptionalList)
    ensures r.Err? && r.error == OptionalList ==> !c.isRequired && c.isList
    ensures r.Ok? ==> r.value.ScalarField? && r.value.Kind() == Scalar && ScalarConfigOf(r.value) == c
  {
    var _ :- ToResult(ValidateName(c.name));
    var _ :- ToResult(ValidateScalarDefault(c.fieldType, c.defaultValue));
    var _ :- ToResult(ValidateModifiers(c.isRequired, c.isList));
    Ok(ScalarField(c.name, c.isList, c.isRequired, c.documentation, c.fieldType,
      c.isId, c.isUnique, c.isUpdatedAt, c.defaultValue, c.isForeignKey))
  }

  /** A passed check as a value, a failed one as the error it throws. */
  function ToResult(o: Outcome<BuildError>): (r: Result<(), BuildError>)
    ensures r.Ok? <==> o.Pass?
    ensures r.Err? ==> r.error == o.error
  {
    match o
    case Pass => Ok(())
    case Fail(e) => Err(e)
  }

  /** The options of `createObjectField`, with its defaults. */
  datatype ObjectFieldConfig = ObjectFieldConfig(
    name: string,
    fieldType: string,
    isList: bool := false,
    isRequired: bool := false,
    relationName: Option<string> := None,
    relationFields: seq<string> := [],
    relationReferences: seq<string> := [],
    relationOnDelete: ReferentialAction := NONE,
    relationOnUpdate: ReferentialAction := NONE,
    documentation: Option<string> := None)

  /** The options an object field node was built from; a builder always sets
      both referential actions. */
  function ObjectConfigOf(f: Field): ObjectFieldConfig
    requires f.ObjectField? && f.relationOnDelete.Some? && f.relationOnUpdate.Some?
  {
    ObjectFieldConfig(f.name, f.fieldType, f.isList, f.isRequired, f.relationName,
      f.relationToFields, f.relationToReferences, f.relationOnDelete.value,
      f.relationOnUpdate.value, f.documentation)
  }

  /** `createObjectField`: checks the name, then the modifiers; the node keeps
      every option, the column lists under `relationToFields`/`relationToReferences`. */
  function CreateObjectField(c: ObjectFieldConfig): (r: Result<Field, BuildError>)
    ensures r.Ok? <==> NamePatternMatches(c.name) && (c.isRequired || !c.isList)
    ensures !NamePatternMatches(c.name) ==> r == Err(InvalidName(c.name))
    ensures NamePatternMatches(c.name) && !c.isRequired && c.isList ==> r == Err(OptionalList)
    ensures r.Ok? ==>
      && r.value.ObjectField? && r.value.Kind() == Object
      && r.value.relationOnDelete.Some? && r.value.relationOnUpdate.Some?
      && ObjectConfigOf(r.value) == c
  {
    var _ :- ToResult(ValidateName(c.name));
    var _ :- ToResult(ValidateModifiers(c.isRequired, c.isList));
    Ok(ObjectField(c.name, c.isList, c.isRequired, c.documentation, c.fieldType,
      c.relationName, c.relationFields, c.relationReferences,
      Some(c.relationOnDelete), Some(c.relationOnUpdate)))
  }

  /** `createEnum`: only the name is checked. */
  function CreateEnum(name: string, values: seq<string>, documentation: Option<string> := None): (r: Result<Enum, BuildError>)
    ensures r.Ok? <==> NamePatternMatches(name)
    ensures r.Err? ==> r.error == InvalidName(name)
    ensures r.Ok? ==> r.value.name == name && r.value.values == values && r.value.documentation == documentation
  {
    var _ :- ToResult(ValidateName(name));
    Ok(Enum(name, values, documentation))
  }

  /** The options of `createModel` and `createView`. */
  datatype ModelConfig = ModelConfig(
    name: string,
    fields: seq<Field>,
    documentation: Option<string> := None,
    mappedName: Option<string> := None,
    indexes: Option<seq<Index>> := None,
    fullTextIndexes: Option<seq<FullTextIndex>> := None)

  /** `createModel`: only the name is checked; the node keeps every option. */
  function CreateModel(c: ModelConfig): (r: Result<Model, BuildError>)
    ensures r.Ok? <==> NamePatternMatches(c.name)
    ensures r.Err? ==> r.error == InvalidName(c.name)
    ensures r.Ok? ==>
      ModelConfig(r.value.name, r.value.fields, r.value.documentation, r.value.mappedName,
        r.value.indexes, r.value.fullTextIndexes) == c
  {
    var _ :- ToResult(ValidateName(c.name));
    Ok(Model(c.name, c.fields, c.mappedName, c.documentation, c.indexes, c.fullTextIndexes))
  }

  /** `createView`: like `createModel`, but the index options are accepted and dropped. */
  function CreateView(c: ModelConfig): (r: Result<Model, BuildError>)
    ensures r.Ok? <==> NamePatternMatches(c.name)
    ensures r.Err? ==> r.error == InvalidName(c.name)
    ensures r.Ok? ==>
      && r.value.indexes.None? && r.value.fullTextIndexes.None?
      && ModelConfig(r.value.name, r.value.fields, r.value.documentation, r.value.mappedName) ==
         c.(indexes := None, fullTextIndexes := None)
  {
    var _ :- ToResult(ValidateName(c.name));
    Ok(Model(c.name, c.fields, c.mappedName, c.documentation, None, None))
  }

  /** `createSchema`: no check; generators default to none. */
  function CreateSchema(models: seq<Model>, enums: seq<Enum>, dataSource: Option<DataSource> := None,
                        generators: seq<Generator> := []): (r: Schema)
    ensures r.models == models && r.enums == enums
    ensures r.dataSource == dataSource && r.generators == generators
  {
    Schema(models, enums, dataSource, generators)
  }

  /** `createDataSource`: no check. */
  function CreateDataSource(name: string, provider: DataSourceProvider, url: DataSourceUrl,
                            relationMode: Option<string> := None): (r: DataSource)
    ensures r.name == name && r.provider == provider && r.url == url && r.relationMode == relationMode
  {
    DataSource(name, provider, url, relationMode)
  }

  /** `createGenerator`: no check; output defaults to null, the lists to empty. */
  function CreateGenerator(name: string, provider: string, output: Option<string> := None,
                           binaryTargets: seq<string> := [], previewFeatures: seq<PreviewFeature> := []): (r: Generator)
    ensures r.name == name && r.provider == provider && r.output == output
    ensures r.binaryTargets == binaryTargets && r.previewFeatures == previewFeatures
  {
    Generator(name, provider, output, binaryTargets, previewFeatures)
  }

  /** A scalar field built with only a name and a type is optional, not a list,
      carries no flag and a null default, and is rejected only for its name,
      whatever the type tag is. */
  lemma ScalarFieldDefaults(name: string, tag: string)
    ensures var r := CreateScalarField(ScalarFieldConfig(name, tag));
      && (r.Ok? <==> NamePatternMatches(name))
      && (r.Ok? ==> r.value == ScalarField(name, false, false, None, tag, false, false, false, NullDefault, false))
  {
  }

  /** An object field built with only a name and a type has no relation and
      both referential actions set to `NONE`. */
  lemma ObjectFieldDefaults(name: string, model: string)
    ensures var r := CreateObjectField(ObjectFieldConfig(name, model));
      && (r.Ok? <==> NamePatternMatches(name))
      && (r.Ok? ==> r.value == ObjectField(name, false, false, None, model, None, [], [], Some(NONE), Some(NONE)))
  {
  }

  /** Calls accepted as defaults of a String field: `uuid()` is, `now()` is not. */
  lemma CallDefaultExamples()
    ensures ValidateScalarDefault("String", CallDefault(UUID)) == Pass
    ensures ValidateScalarDefault("String", CallDefault(NOW)).Fail?
  {
    assert ValidateScalarDefault("String", CallDefault(UUID)) == Pass by {
      CallDefaultExample("String", String, UUID);
    }
    assert ValidateScalarDefault("String", CallDefault(NOW)).Fail? by {
      CallDefaultExample("String", String, NOW);
    }
  }

  /** `autoincrement()` is accepted for an Int field and not for a Float field. */
  lemma NumericCallDefaultExamples()
    ensures ValidateScalarDefault("Int", CallDefault(AUTO_INCREMENT)) == Pass
    ensures ValidateScalarDefault("Float", CallDefault(AUTO_INCREMENT)).Fail?
  {
    assert ValidateScalarDefault("Int", CallDefault(AUTO_INCREMENT)) == Pass by {
      CallDefaultExample("Int", Int, AUTO_INCREMENT);
    }
    assert ValidateScalarDefault("Float", CallDefault(AUTO_INCREMENT)).Fail? by {
      CallDefaultExample("Float", Float, AUTO_INCREMENT);
    }
  }

  lemma CallDefaultExample(tag: string, t: ScalarType, callee: string)
    requires ScalarTypeFromName(tag) == Some(t)
    ensures ValidateScalarDefault(tag, CallDefault(callee)) == if Accepts(t, CallDefault(callee)) then Pass
      else Fail(InvalidDefault(DefaultMismatchReason(tag)))
  {
  }

  /** Rejected defaults and the message each one throws; `BigInt` is not a
      type of this version, yet a null default never reaches the type switch. */
  lemma RejectedDefaultExamples()
    ensures ValidateScalarDefault("DateTime", NumberDefault(0)) ==
      Fail(InvalidDefault("Default must be a date-time string or a call expression to now()"))
    ensures ValidateScalarDefault("Json", BoolDefault(true)) == Fail(InvalidDefault("Default must a JSON string"))
    ensures ValidateScalarDefault("BigInt", NumberDefault(1)) == Fail(UnknownType("BigInt"))
    ensures ValidateScalarDefault("BigInt", NullDefault) == Pass
  {
  }
}

=== FILE: legacy_builders.dfy ===
/** The validating builders of the legacy version. They take positional
    arguments with the source's defaults, add the BigInt and Decimal default
    rules, and accept raw attributes, either one text or a list, which they
    normalise and check against the `@` (field) or `@@` (model) prefix. */
module LegacyBuilders {
  import opened Wrappers
  import opened Strings
  import opened Validation
  import opened LegacyTypes
  import Types
  import Builders

  // ---------------------------------------------------------------------------
  // defaults
  // ---------------------------------------------------------------------------

  /** The type tags the default check switches over. */
  const LEGACY_SCALAR_TYPES: set<string> :=
    {"String", "Boolean", "Int", "BigInt", "Float", "Decimal", "DateTime", "Json"}

  /** The current rules, plus BigInt ruled like Int and Decimal like Float. */
  const LEGACY_DEFAULT_RULES: set<(string, Builders.Shape)> :=
    Builders.DEFAULT_RULES + {
      ("BigInt", Builders.NumberShape), ("BigInt", Builders.CallShape(Types.AUTO_INCREMENT)),
      ("Decimal", Builders.NumberShape)
    }

  /** The shape of a default; the builders' call test is structural, so a
      plain `{ callee }` record counts as a call like an instance does. */
  function Shape(v: Default): Builders.Shape {
    Builders.DefaultShape(CurrentDefault(v))
  }

  /** The branch of the type switch for a known tag: whether it accepts the
      non-null default `v`. */
  predicate Accepts(tag: string, v: Default) {
    if tag == "String" then
      v.StringDefault? || (IsCallExpression(v) && (v.callee == Types.UUID || v.callee == Types.CUID))
    else if tag == "Boolean" then v.BoolDefault?
    else if tag == "Int" || tag == "BigInt" then
      v.NumberDefault? || (IsCallExpression(v) && v.callee == Types.AUTO_INCREMENT)
    else if tag == "Float" || tag == "Decimal" then v.NumberDefault?
    else if tag == "DateTime" then v.StringDefault? || (IsCallExpression(v) && v.callee == Types.NOW)
    else v.StringDefault?
  }

  lemma AcceptsIffRule(tag: string, v: Default)
    requires tag in LEGACY_SCALAR_TYPES && !v.NullDefault?
    ensures Accepts(tag, v) <==> (tag, Shape(v)) in LEGACY_DEFAULT_RULES
  {
  }

  lemma UnknownTagHasNoRule(tag: string, v: Default)
    requires tag !in LEGACY_SCALAR_TYPES
    ensures (tag, Shape(v)) !in LEGACY_DEFAULT_RULES
  {
  }

  /** `validateScalarDefault`: `null` is always accepted; any other default
      must suit the field's type, and a tag outside the switch is an error. */
  function ValidateScalarDefault(tag: string, v: Default): (r: Outcome<BuildError>)
    ensures r == Pass <==> v.NullDefault? || (tag, Shape(v)) in LEGACY_DEFAULT_RULES
    ensures r.Fail? && tag !in LEGACY_SCALAR_TYPES ==> r.error == UnknownType(tag)
    ensures r.Fail? && tag in LEGACY_SCALAR_TYPES ==> r.error == InvalidDefault(DefaultMismatchReason(tag))
  {
    if v.NullDefault? then Pass
    else if tag !in LEGACY_SCALAR_TYPES then
      UnknownTagHasNoRule(tag, v);
      Fail(UnknownType(tag))
    else
      AcceptsIffRule(tag, v);
      if Accepts(tag, v) then Pass else Fail(InvalidDefault(DefaultMismatchReason(tag)))
  }

  /** On the six tags both versions know, the legacy check decides and fails
      exactly like the current one; so does any tag neither knows. */
  lemma ValidateAsCurrent(tag: string, v: Default)
    requires tag != "BigInt" && tag != "Decimal"
    ensures ValidateScalarDefault(tag, v) == Builders.ValidateScalarDefault(tag, CurrentDefault(v))
  {
    assert Types.ScalarTypeFromName(tag).None? <==> tag !in LEGACY_SCALAR_TYPES by {
      KnownTags(tag);
    }
    assert (tag, Shape(v)) in LEGACY_DEFAULT_RULES <==>
      (tag, Builders.DefaultShape(CurrentDefault(v))) in Builders.DEFAULT_RULES;
  }

  lemma KnownTags(tag: string)
    requires tag != "BigInt" && tag != "Decimal"
    ensures Types.ScalarTypeFromName(tag).Some? <==> tag in LEGACY_SCALAR_TYPES
  {
    if tag in LEGACY_SCALAR_TYPES {
      assert tag in {"String", "Boolean", "Int", "Float", "DateTime", "Json"};
    }
  }

  /** BigInt accepts and rejects what Int does, and Decimal what Float does,
      with the same message. */
  lemma WideTypesFollowNarrow(v: Default)
    ensures ValidateScalarDefault("BigInt", v) == ValidateScalarDefault("Int", v)
    ensures ValidateScalarDefault("Decimal", v) == ValidateScalarDefault("Float", v)
  {
    assert Accepts("BigInt", v) == Accepts("Int", v);
    assert Accepts("Decimal", v) == Accepts("Float", v);
  }

  // ---------------------------------------------------------------------------
  // raw attributes
  // ---------------------------------------------------------------------------

  /** The `attributes` argument: absent, one text, or a list of texts. */
  datatype AttributesInput = NoAttributes | AttributeText(text: string) | AttributeList(items: seq<string>)

  /** A prefix whose ends are not whitespace, as `@` and `@@` are. */
  predicate AttributePrefix(prefix: string) {
    |prefix| > 0 && !IsJsWhitespace(prefix[0]) && !IsJsWhitespace(prefix[|prefix| - 1]) && '\n' !in prefix
  }

  lemma PrefixesAreAttributePrefixes()
    ensures AttributePrefix("@") && AttributePrefix("@@")
  {
  }

  /** The pieces of an attribute text: newlines turned into spaces, split on
      the prefix, empty pieces dropped. */
  function AttributePieces(text: string, prefix: string): (r: seq<string>)
    requires |prefix| > 0
    ensures forall i :: 0 <= i < |r| ==> r[i] != "" && '\n' !in r[i]
  {
    var parts := Split(NewlinesToSpaces(text), prefix);
    SplitAvoids(NewlinesToSpaces(text), prefix, '\n');
    var r := NonEmpty(parts);
    assert forall i :: 0 <= i < |r| ==> r[i] in parts && r[i] != "" by {
      assert forall i :: 0 <= i < |r| ==> r[i] in r;
    }
    r
  }

  /** One piece as the source prepares it: newlines replaced, trimmed, then
      trimmed again behind the prefix. */
  function NormalizePiece(piece: string, prefix: string): string {
    prefix + Trim(Trim(NewlinesToSpaces(piece)))
  }

  /** A piece without newlines is prepared as the prefix and the trimmed piece. */
  lemma NormalizeCleanPieces(pieces: seq<string>, prefix: string)
    requires forall i :: 0 <= i < |pieces| ==> '\n' !in pieces[i]
    ensures forall i :: 0 <= i < |pieces| ==> NormalizePiece(pieces[i], prefix) == prefix + Trim(pieces[i])
  {
    forall i | 0 <= i < |pieces| ensures NormalizePiece(pieces[i], prefix) == prefix + Trim(pieces[i]) {
      NewlinesToSpacesFixed(pieces[i]);
      TrimIdempotent(pieces[i]);
    }
  }

  /** The normalised attribute list of a text: each piece prepared. Since the
      pieces hold no newline, each is just the prefix and the trimmed piece. */
  function NormalizeAttributes(text: string, prefix: string): (r: seq<string>)
    requires |prefix| > 0
    ensures |r| == |AttributePieces(text, prefix)|
    ensures forall i :: 0 <= i < |r| ==> r[i] == prefix + Trim(AttributePieces(text, prefix)[i])
  {
    var pieces := AttributePieces(text, prefix);
    NormalizeCleanPieces(pieces, prefix);
    seq(|pieces|, i requires 0 <= i < |pieces| => NormalizePiece(pieces[i], prefix))
  }

  /** The final check on one attribute: it starts with the prefix once
      trimmed, and is longer than the prefix as it stands. */
  predicate ValidAttribute(attribute: string, prefix: string) {
    StartsWith(Trim(attribute), prefix) && |attribute| > |prefix|
  }

  predicate AllValid(attributes: seq<string>, prefix: string) {
    forall i :: 0 <= i < |attributes| ==> ValidAttribute(attributes[i], prefix)
  }

  /** `validateAndPrepareAttributesPrefix`: absent or empty attributes give
      `null`; a text is normalised, a list kept as it is (its elements are not
      trimmed), and the result is rejected with `error` unless every element
      passes the check. */
  function PrepareAttributes(prefix: string, error: BuildError, attributes: AttributesInput): (r: Result<Option<seq<string>>, BuildError>)
    requires |prefix| > 0
    ensures attributes.NoAttributes? || attributes == AttributeText("") ==> r == Ok(None)
    ensures r.Err? ==> r.error == error
    ensures r.Ok? && r.value.Some? ==>
      forall i :: 0 <= i < |r.value.value| ==> StartsWith(Trim(r.value.value[i]), prefix) && |r.value.value[i]| > |prefix|
    ensures attributes.AttributeList? ==> r == if AllValid(attributes.items, prefix) then Ok(Some(attributes.items)) else Err(error)
    ensures attributes.AttributeText? && attributes.text != "" && r.Ok? ==>
      r.value == Some(NormalizeAttributes(attributes.text, prefix))
  {
    match attributes
    case NoAttributes => Ok(None)
    case AttributeText(text) =>
      if text == "" then Ok(None)
      else
        var prepared := NormalizeAttributes(text, prefix);
        if AllValid(prepared, prefix) then Ok(Some(prepared)) else Err(error)
    case AttributeList(items) =>
      if AllValid(items, prefix) then Ok(Some(items)) else Err(error)
  }

  /** A normalised attribute passes the check exactly when its piece was not
      all whitespace. */
  lemma PreparedPieceValid(prefix: string, piece: string)
    requires AttributePrefix(prefix)
    ensures ValidAttribute(prefix + Trim(piece), prefix) <==> !AllWhitespace(piece)
  {
    var t := Trim(piece);
    var a := prefix + t;
    assert a[0] == prefix[0];
    assert a[|a| - 1] == if t == "" then prefix[|prefix| - 1] else t[|t| - 1];
    TrimFixed(a);
    assert a[..|prefix|] == prefix;
  }

  /** A non-empty attribute text is rejected exactly when one of its pieces
      is all whitespace; no other text fails, whatever follows the prefixes. */
  lemma TextAttributesAccepted(prefix: string, error: BuildError, text: string)
    requires AttributePrefix(prefix) && text != ""
    ensures var pieces := AttributePieces(text, prefix);
      PrepareAttributes(prefix, error, AttributeText(text)).Ok? <==>
      forall i :: 0 <= i < |pieces| ==> !AllWhitespace(pieces[i])
  {
    var pieces := AttributePieces(text, prefix);
    var prepared := NormalizeAttributes(text, prefix);
    forall i | 0 <= i < |pieces|
      ensures ValidAttribute(prepared[i], prefix) <==> !AllWhitespace(pieces[i])
    {
      PreparedPieceValid(prefix, pieces[i]);
    }
  }

  /** Every element of a normalised text starts with the prefix itself, not
      only after trimming. */
  lemma TextAttributesPrefixed(prefix: string, error: BuildError, text: string)
    requires |prefix| > 0 && text != ""
    requires PrepareAttributes(prefix, error, AttributeText(text)).Ok?
    ensures var r := PrepareAttributes(prefix, error, AttributeText(text)).value;
      r.Some? && forall i :: 0 <= i < |r.value| ==> StartsWith(r.value[i], prefix)
  {
    var prepared := NormalizeAttributes(text, prefix);
    forall i | 0 <= i < |prepared| ensures StartsWith(prepared[i], prefix) {
      assert prepared[i][..|prefix|] == prefix;
    }
  }

  /** A text that starts with whitespace before its first prefix has an
      all-whitespace first piece and is rejected. */
  lemma LeadingWhitespaceRejected(prefix: string, error: BuildError, rest: string)
    requires AttributePrefix(prefix)
    ensures PrepareAttributes(prefix, error, AttributeText(" " + prefix + rest)) == Err(error)
  {
    var text := " " + prefix + rest;
    var s := NewlinesToSpaces(text);
    assert s[0] == ' ';
    assert s[1..1 + |prefix|] == prefix by {
      assert text[1..1 + |prefix|] == prefix;
    }
    assert Find(s, prefix) == Some(1) by {
      assert s[..|prefix|] != prefix by {
        assert s[..|prefix|][0] == ' ' && prefix[0] != ' ';
      }
      assert s[1..][..|prefix|] == prefix;
    }
    var parts := Split(s, prefix);
    assert parts == [" "] + Split(s[1 + |prefix|..], prefix) by {
      assert s[..1] == " ";
    }
    NonEmptyCons(" ", Split(s[1 + |prefix|..], prefix));
    var pieces := AttributePieces(text, prefix);
    assert pieces[0] == " ";
    assert AllWhitespace(pieces[0]);
    TextAttributesAccepted(prefix, error, text);
  }

  /** A non-empty text that neither starts nor ends with whitespace. */
  predicate TrimmedText(s: string) {
    s != "" && !IsJsWhitespace(s[0]) && !IsJsWhitespace(s[|s| - 1])
  }

  /** A piece that holds neither the prefix's first character nor a newline
      and neither starts nor ends with whitespace. */
  predicate CleanPiece(piece: string, prefix: string)
    requires |prefix| > 0
  {
    TrimmedText(piece) && prefix[0] !in piece && '\n' !in piece
  }

  /** Splitting at the first separator when the text before it is free of the
      separator's first character. */
  lemma SplitAtFree(x: string, sep: string, rest: string)
    requires |sep| > 0 && sep[0] !in x
    ensures Split(x + sep + rest, sep) == [x] + Split(rest, sep)
  {
    var s := x + sep + rest;
    assert OccursAt(s, sep, |x|) by {
      assert s[|x|..|x| + |sep|] == sep;
    }
    forall k: nat | k < |x| ensures !OccursAt(s, sep, k) {
      if k + |sep| <= |s| {
        assert s[k..k + |sep|][0] == x[k];
        assert x[k] in x;
      }
    }
    var v := Find(s, sep);
    assert v == Some(|x|);
    assert s[..|x|] == x;
    assert s[|x| + |sep|..] == rest;
  }

  /** Three clean attributes written one after the other, separated by
      single spaces, come back as three prefixed attributes. */
  lemma ThreeAttributesText(prefix: string, error: BuildError, a: string, b: string, c: string)
    requires AttributePrefix(prefix)
    requires CleanPiece(a, prefix) && CleanPiece(b, prefix) && CleanPiece(c, prefix)
    ensures PrepareAttributes(prefix, error, AttributeText(prefix + a + " " + prefix + b + " " + prefix + c)) ==
      Ok(Some([prefix + a, prefix + b, prefix + c]))
  {
    var text := prefix + a + " " + prefix + b + " " + prefix + c;
    var pieces := [a + " ", b + " ", c];
    ThreePieces(prefix, a, b, c);
    assert pieces[0][0] == a[0] && pieces[1][0] == b[0];
    PreparedText(prefix, error, text, pieces);
    TrimmedThree(prefix, a, b, c);
  }

  lemma ThreePieces(prefix: string, a: string, b: string, c: string)
    requires AttributePrefix(prefix)
    requires CleanPiece(a, prefix) && CleanPiece(b, prefix) && CleanPiece(c, prefix)
    ensures AttributePieces(prefix + a + " " + prefix + b + " " + prefix + c, prefix) == [a + " ", b + " ", c]
  {
    var text := prefix + a + " " + prefix + b + " " + prefix + c;
    var a', b' := a + " ", b + " ";
    assert '\n' !in text by {
      assert forall x :: x in text ==> x in prefix || x in a || x == ' ' || x in b || x in c;
    }
    NewlinesToSpacesFixed(text);
    assert prefix[0] !in a' && prefix[0] !in b' by {
      assert prefix[0] != ' ';
    }
    assert Split(text, prefix) == ["", a', b', c] by {
      RegroupThree(prefix, a, b, c);
      ThreeSplit(prefix, a', b', c);
    }
    NonEmptyFour("", a', b', c);
  }

  lemma RegroupThree(p: string, a: string, b: string, c: string)
    ensures p + a + " " + p + b + " " + p + c == "" + p + ((a + " ") + p + ((b + " ") + p + c))
  {
  }

  lemma ThreeSplit(sep: string, a: string, b: string, c: string)
    requires |sep| > 0 && sep[0] !in a && sep[0] !in b && sep[0] !in c
    ensures Split("" + sep + (a + sep + (b + sep + c)), sep) == ["", a, b, c]
  {
    assert Split(b + sep + c, sep) == [b] + [c] by {
      SplitAtFree(b, sep, c);
      SplitWithoutSeparator(c, sep);
    }
    assert Split(a + sep + (b + sep + c), sep) == [a] + ([b] + [c]) by {
      SplitAtFree(a, sep, b + sep + c);
    }
    SplitAtFree("", sep, a + sep + (b + sep + c));
    ConsFour("", a, b, c);
  }

  lemma ConsFour<T>(w: T, x: T, y: T, z: T)
    ensures [w] + ([x] + ([y] + [z])) == [w, x, y, z]
  {
  }

  /** Each piece trimmed behind the prefix. */
  function TrimmedPrefixed(prefix: string, pieces: seq<string>): (r: seq<string>)
    ensures |r| == |pieces| && forall i :: 0 <= i < |r| ==> r[i] == prefix + Trim(pieces[i])
  {
    seq(|pieces|, i requires 0 <= i < |pieces| => prefix + Trim(pieces[i]))
  }

  /** A text whose pieces all start with a non-whitespace character is
      accepted, each piece trimmed behind the prefix. */
  lemma PreparedText(prefix: string, error: BuildError, text: string, pieces: seq<string>)
    requires AttributePrefix(prefix) && text != "" && AttributePieces(text, prefix) == pieces
    requires forall i :: 0 <= i < |pieces| ==> !IsJsWhitespace(pieces[i][0])
    ensures PrepareAttributes(prefix, error, AttributeText(text)) == Ok(Some(TrimmedPrefixed(prefix, pieces)))
  {
    TextAttributesAccepted(prefix, error, text);
    assert NormalizeAttributes(text, prefix) == TrimmedPrefixed(prefix, pieces);
  }

  lemma TrimmedThree(prefix: string, a: string, b: string, c: string)
    requires TrimmedText(a) && TrimmedText(b) && TrimmedText(c)
    ensures TrimmedPrefixed(prefix, [a + " ", b + " ", c]) == [prefix + a, prefix + b, prefix + c]
  {
    var r := TrimmedPrefixed(prefix, [a + " ", b + " ", c]);
    assert r[0] == prefix + a by {
      TrimSpaceAfter(a);
    }
    assert r[1] == prefix + b by {
      TrimSpaceAfter(b);
    }
    assert r[2] == prefix + c by {
      TrimFixed(c);
    }
    SeqOfThree(r, prefix + a, prefix + b, prefix + c);
  }

  lemma SeqOfThree<T>(r: seq<T>, x: T, y: T, z: T)
    requires |r| == 3 && r[0] == x && r[1] == y && r[2] == z
    ensures r == [x, y, z]
  {
  }

  lemma NonEmptyFour(w: string, x: string, y: string, z: string)
    requires w == "" && x != "" && y != "" && z != ""
    ensures NonEmpty([w, x, y, z]) == [x, y, z]
  {
    NonEmptyCons(w, [x, y, z]);
    NonEmptyCons(x, [y, z]);
    NonEmptyCons(y, [z]);
    NonEmptyCons(z, []);
  }

  /** A trailing space is trimmed off a text that is otherwise trimmed. */
  lemma TrimSpaceAfter(s: string)
    requires TrimmedText(s)
    ensures Trim(s + " ") == s
  {
    var t := s + " ";
    assert TrimStart(t) == t;
    assert TrimEnd(t) == TrimEnd(s) by {
      assert t[..|t| - 1] == s;
    }
    assert TrimEnd(s) == s;
  }

  /** A text without the prefix at all is accepted: the prefix is added in front. */
  lemma UnprefixedTextAccepted(prefix: string, error: BuildError, a: string)
    requires AttributePrefix(prefix) && CleanPiece(a, prefix)
    ensures PrepareAttributes(prefix, error, AttributeText(a)) == Ok(Some([prefix + a]))
  {
    SinglePiece(prefix, a);
    PreparedText(prefix, error, a, [a]);
    TrimFixed(a);
    assert TrimmedPrefixed(prefix, [a]) == [prefix + a];
  }

  lemma SinglePiece(prefix: string, a: string)
    requires AttributePrefix(prefix) && CleanPiece(a, prefix)
    ensures AttributePieces(a, prefix) == [a]
  {
    NewlinesToSpacesFixed(a);
    SplitWithoutSeparator(a, prefix);
    assert [a] == [a] + [];
    NonEmptyCons(a, []);
  }

  /** The two wrappers: `@@` with the model message, `@` with the field message. */
  function PrepareModelAttributes(name: string, attributes: AttributesInput): (r: Result<Option<seq<string>>, BuildError>)
    ensures r.Err? ==> r.error == InvalidModelAttributes(name)
    ensures r.Ok? && r.value.Some? ==> forall i :: 0 <= i < |r.value.value| ==> StartsWith(Trim(r.value.value[i]), "@@")
  {
    PrepareAttributes("@@", InvalidModelAttributes(name), attributes)
  }

  function PrepareFieldAttributes(name: string, attributes: AttributesInput): (r: Result<Option<seq<string>>, BuildError>)
    ensures r.Err? ==> r.error == InvalidFieldAttributes(name)
    ensures r.Ok? && r.value.Some? ==> forall i :: 0 <= i < |r.value.value| ==> StartsWith(Trim(r.value.value[i]), "@")
  {
    PrepareAttributes("@", InvalidFieldAttributes(name), attributes)
  }

  // ---------------------------------------------------------------------------
  // builders
  // ---------------------------------------------------------------------------

  /** A passed check as a value, a failed one as the error it throws. */
  function Check(o: Outcome<BuildError>): (r: Result<(), BuildError>)
    ensures r.Ok? <==> o.Pass?
    ensures r.Err? ==> r.error == o.error
  {
    if o.Pass? then Ok(()) else Err(o.error)
  }

  /** `createScalarField`: checks the name, the default, the modifiers, then
      the attributes; the node keeps every argument, the attributes prepared. */
  function CreateScalarField(
    name: string, fieldType: string, isList: bool := false, isRequired: bool := false,
    isUnique: bool := false, isId: bool := false, isUpdatedAt: bool := false,
    defaultValue: Default := NullDefault, documentation: Option<string> := None,
    isForeignKey: bool := false, attributes: AttributesInput := NoAttributes): (r: Result<Field, BuildError>)
    ensures r.Ok? <==>
      && NamePatternMatches(name)
      && ValidateScalarDefault(fieldType, defaultValue) == Pass
      && (isRequired || !isList)
      && PrepareFieldAttributes(name, attributes).Ok?
    ensures !NamePatternMatches(name) ==> r == Err(InvalidName(name))
    ensures NamePatternMatches(name) && ValidateScalarDefault(fieldType, defaultValue).Fail? ==>
      r == Err(ValidateScalarDefault(fieldType, defaultValue).error)
    ensures NamePatternMatches(name) && ValidateScalarDefault(fieldType, defaultValue) == Pass && !isRequired && isList ==>
      r == Err(OptionalList)
    ensures (NamePatternMatches(name) && ValidateScalarDefault(fieldType, defaultValue) == Pass && (isRequired || !isList)
             && PrepareFieldAttributes(name, attributes).Err?) ==> r == Err(InvalidFieldAttributes(name))
    ensures r.Err? && r.error.InvalidFieldAttributes? ==> r.error.fieldName == name && (isRequired || !isList)
    ensures r.Ok? ==>
      && r.value.ScalarField? && r.value.Kind() == Types.Scalar
      && r.value.name == name && r.value.fieldType == fieldType
      && r.value.isList == isList && r.value.isRequired == isRequired
      && r.value.isUnique == isUnique && r.value.isId == isId && r.value.isUpdatedAt == isUpdatedAt
      && r.value.defaultValue == defaultValue && r.value.documentation == documentation
      && r.value.isForeignKey == isForeignKey
      && r.value.attributes == PrepareFieldAttributes(name, attributes).value
  {
    var _ :- Check(ValidateName(name));
    var _ :- Check(ValidateScalarDefault(fieldType, defaultValue));
    var _ :- Check(ValidateModifiers(isRequired, isList));
    var prepared :- PrepareFieldAttributes(name, attributes);
    Ok(ScalarField(name, isList, isRequired, documentation, fieldType, isId, isUnique,
      isUpdatedAt, defaultValue, isForeignKey, prepared))
  }

  /** `createObjectField`: checks the name, the modifiers, then the
      attributes; no relation column is checked. */
  function CreateObjectField(
    name: string, fieldType: string, isList: bool := false, isRequired: bool := false,
    relationName: Option<string> := None, relationFields: seq<string> := [],
    relationReferences: seq<string> := [],
    relationOnDelete: Types.ReferentialAction := Types.NONE,
    relationOnUpdate: Types.ReferentialAction := Types.NONE,
    documentation: Option<string> := None, attributes: AttributesInput := NoAttributes): (r: Result<Field, BuildError>)
    ensures r.Ok? <==>
      NamePatternMatches(name) && (isRequired || !isList) && PrepareFieldAttributes(name, attributes).Ok?
    ensures !NamePatternMatches(name) ==> r == Err(InvalidName(name))
    ensures NamePatternMatches(name) && !isRequired && isList ==> r == Err(OptionalList)
    ensures NamePatternMatches(name) && (isRequired || !isList) && PrepareFieldAttributes(name, attributes).Err? ==>
      r == Err(InvalidFieldAttributes(name))
    ensures r.Err? && r.error.InvalidFieldAttributes? ==> r.error.fieldName == name && (isRequired || !isList)
    ensures r.Ok? ==>
      && r.value.ObjectField? && r.value.Kind() == Types.Object
      && r.value.name == name && r.value.fieldType == fieldType
      && r.value.isList == isList && r.value.isRequired == isRequired
      && r.value.relationName == relationName
      && r.value.relationToFields == relationFields && r.value.relationToReferences == relationReferences
      && r.value.relationOnDelete == relationOnDelete && r.value.relationOnUpdate == relationOnUpdate
      && r.value.documentation == documentation
      && r.value.attributes == PrepareFieldAttributes(name, attributes).value
  {
    var _ :- Check(ValidateName(name));
    var _ :- Check(ValidateModifiers(isRequired, isList));
    var prepared :- PrepareFieldAttributes(name, attributes);
    Ok(ObjectField(name, isList, isRequired, documentation, fieldType, relationName,
      relationFields, relationReferences, relationOnDelete, relationOnUpdate, prepared))
  }

  /** `createModel`: checks the name, then the `@@` attributes. */
  function CreateModel(name: string, fields: seq<Field>, documentation: Option<string> := None,
                       mappedName: Option<string> := None, attributes: AttributesInput := NoAttributes): (r: Result<Model, BuildError>)
    ensures r.Ok? <==> NamePatternMatches(name) && PrepareModelAttributes(name, attributes).Ok?
    ensures !NamePatternMatches(name) ==> r == Err(InvalidName(name))
    ensures r.Err? && NamePatternMatches(name) ==> r.error == InvalidModelAttributes(name)
    ensures r.Ok? ==>
      && r.value.name == name && r.value.fields == fields && r.value.documentation == documentation
      && r.value.mappedName == mappedName && r.value.attributes == PrepareModelAttributes(name, attributes).value
  {
    var _ :- Check(ValidateName(name));
    var prepared :- PrepareModelAttributes(name, attributes);
    Ok(Model(name, fields, documentation, mappedName, prepared))
  }

  /** `createEnum`: only the name is checked. */
  function CreateEnum(name: string, values: seq<string>, documentation: Option<string> := None): (r: Result<Types.Enum, BuildError>)
    ensures r.Ok? <==> NamePatternMatches(name)
    ensures r.Err? ==> r.error == InvalidName(name)
    ensures r.Ok? ==> r.value.name == name && r.value.values == values && r.value.documentation == documentation
  {
    var _ :- Check(ValidateName(name));
    Ok(Types.Enum(name, values, documentation))
  }

  /** `createSchema`: no check; generators default to none. */
  function CreateSchema(models: seq<Model>, enums: seq<Types.Enum>, dataSource: Option<DataSource> := None,
                        generators: seq<Generator> := []): (r: Schema)
    ensures r.models == models && r.enums == enums
    ensures r.dataSource == dataSource && r.generators == generators
  {
    Schema(models, enums, dataSource, generators)
  }

  /** `createDataSource`: no check. */
  function CreateDataSource(name: string, provider: Types.DataSourceProvider, url: Url): (r: DataSource)
    ensures r.name == name && r.provider == provider && r.url == url
  {
    DataSource(name, provider, url)
  }

  /** `createGenerator`: no check; output defaults to null, the targets to none. */
  function CreateGenerator(name: string, provider: string, output: Option<string> := None,
                           binaryTargets: seq<string> := []): (r: Generator)
    ensures r.name == name && r.provider == provider && r.output == output && r.binaryTargets == binaryTargets
  {
    Generator(name, provider, output, binaryTargets)
  }

  // ---------------------------------------------------------------------------
  // examples
  // ---------------------------------------------------------------------------

  /** A field built with only a name and a type is rejected only for its
      name, and an optional list with the fixed message, for both builders. */
  lemma FieldDefaults(name: string, tag: string, model: string)
    ensures CreateScalarField(name, tag).Ok? <==> NamePatternMatches(name)
    ensures CreateObjectField(name, model).Ok? <==> NamePatternMatches(name)
    ensures NamePatternMatches(name) ==>
      && CreateScalarField(name, tag, true, false) == Err(OptionalList)
      && CreateObjectField(name, model, true, false) == Err(OptionalList)
    ensures CreateObjectField(name, model).Ok? ==>
      var f := CreateObjectField(name, model).value;
      f.relationName.None? && f.relationToFields == [] && f.relationToReferences == []
      && f.relationOnDelete == Types.NONE && f.relationOnUpdate == Types.NONE && f.attributes.None?
  {
  }

  /** The attribute text of the field test, which starts with a space, is
      rejected with the field message. */
  lemma FieldAttributeTextRejected(name: string)
    requires NamePatternMatches(name)
    ensures CreateScalarField(name, "String", false, true, false, false, false, NullDefault, None, false,
      AttributeText(" " + "@" + "attr1 @attr2\n\nattr3\n\nattr4")) == Err(InvalidFieldAttributes(name))
  {
    PrefixesAreAttributePrefixes();
    LeadingWhitespaceRejected("@", InvalidFieldAttributes(name), "attr1 @attr2\n\nattr3\n\nattr4");
  }

  /** The attribute text of the model test, which starts with a space, is
      rejected with the model message. */
  lemma ModelAttributeTextRejected(name: string, fields: seq<Field>)
    requires NamePatternMatches(name)
    ensures CreateModel(name, fields, Some(""), None,
      AttributeText(" " + "@@" + "id(fields: [title, author]) @@createdAt @updatedAt invalid\n\ninvalid2"))
      == Err(InvalidModelAttributes(name))
  {
    PrefixesAreAttributePrefixes();
    LeadingWhitespaceRejected("@@", InvalidModelAttributes(name),
      "id(fields: [title, author]) @@createdAt @updatedAt invalid\n\ninvalid2");
  }

  lemma IdAttributePieceClean()
    ensures CleanPiece("id(fields: [title, author])", "@@")
  {
  }

  lemma TimestampPiecesClean()
    ensures CleanPiece("createdAt", "@@") && CleanPiece("updatedAt", "@@")
  {
  }

  /** The model attributes of the printer test split into three attributes. */
  lemma ModelAttributeTextPrepared(name: string, fields: seq<Field>)
    requires NamePatternMatches(name)
    ensures var r := CreateModel(name, fields, Some(""), None,
      AttributeText("@@" + "id(fields: [title, author])" + " " + "@@" + "createdAt" + " " + "@@" + "updatedAt"));
      r.Ok? && r.value.attributes ==
        Some(["@@" + "id(fields: [title, author])", "@@" + "createdAt", "@@" + "updatedAt"])
  {
    PrefixesAreAttributePrefixes();
    IdAttributePieceClean();
    TimestampPiecesClean();
    ThreeAttributesText("@@", InvalidModelAttributes(name), "id(fields: [title, author])", "createdAt", "updatedAt");
  }

  /** Any text without the prefix passes the check: `invalid` becomes `@@invalid`. */
  lemma UnprefixedModelAttributeAccepted(name: string)
    requires NamePatternMatches(name)
    ensures var r := CreateModel(name, [], None, None, AttributeText("invalid"));
      r.Ok? && r.value.attributes == Some(["@@" + "invalid"])
  {
    PrefixesAreAttributePrefixes();
    assert CleanPiece("invalid", "@@");
    UnprefixedTextAccepted("@@", InvalidModelAttributes(name), "invalid");
  }

  /** A leading space is trimmed off a text that is otherwise trimmed. */
  lemma TrimSpaceBefore(s: string)
    requires TrimmedText(s)
    ensures Trim(" " + s) == s
  {
    var t := " " + s;
    assert TrimStart(t) == TrimStart(s) by {
      assert t[1..] == s;
    }
    TrimFixed(s);
  }

  /** A list element with a space before the prefix passes the check and is
      kept with its space. */
  lemma PaddedElementKept(prefix: string, error: BuildError, s: string)
    requires |prefix| > 0 && TrimmedText(s) && StartsWith(s, prefix) && |s| >= |prefix|
    ensures PrepareAttributes(prefix, error, AttributeList([" " + s])) == Ok(Some([" " + s]))
  {
    TrimSpaceBefore(s);
    assert ValidAttribute([" " + s][0], prefix);
  }

  /** The element ` @id` is checked as `@id` but kept untrimmed. */
  lemma PaddedListElementKept(name: string)
    ensures PrepareFieldAttributes(name, AttributeList([" " + "@id"])) == Ok(Some([" " + "@id"]))
  {
    assert TrimmedText("@id") && StartsWith("@id", "@");
    PaddedElementKept("@", InvalidFieldAttributes(name), "@id");
  }

  /** A list element that is only the prefix is rejected. */
  lemma BareElementRejected(prefix: string, error: BuildError)
    requires |prefix| > 0
    ensures PrepareAttributes(prefix, error, AttributeList([prefix])) == Err(error)
  {
    assert !ValidAttribute([prefix][0], prefix);
  }

  /** The element `@` is rejected with the field message; an empty list is kept. */
  lemma BareListElementRejected(name: string)
    ensures PrepareFieldAttributes(name, AttributeList(["@"])) == Err(InvalidFieldAttributes(name))
    ensures PrepareFieldAttributes(name, AttributeList([])) == Ok(Some([]))
  {
    BareElementRejected("@", InvalidFieldAttributes(name));
  }
}

=== FILE: legacy_examples.dfy ===
/** Behaviour of the legacy version across its builders and its printer. */
module LegacyExamples {
  import opened Wrappers
  import opened Strings
  import opened Validation
  import opened LegacyTypes
  import Types
  import Printer
  import Builders
  import LegacyBuilders
  import LegacyPrinter

  /** The builders test a default for a call by its shape, the printer by
      its class: a `uuid` call written as a plain record is accepted for a
      String field and then thrown by the printer, while the same call as an
      instance prints. */
  lemma BuilderAcceptsPrinterRejects(name: string, provider: Types.DataSourceProvider)
    requires NamePatternMatches(name)
    ensures var built := LegacyBuilders.CreateScalarField(name, "String", defaultValue := CallDefault(Types.UUID, false));
      built.Ok? && LegacyPrinter.PrintField(built.value, provider) == Err(LegacyPrinter.InvalidValueMessage(LegacyPrinter.OBJECT_TEXT))
    ensures var built := LegacyBuilders.CreateScalarField(name, "String", defaultValue := CallDefault(Types.UUID, true));
      built.Ok? && LegacyPrinter.PrintField(built.value, provider).Ok?
  {
    UuidAccepted(false);
    UuidAccepted(true);
  }

  lemma UuidAccepted(isInstance: bool)
    ensures LegacyBuilders.ValidateScalarDefault("String", CallDefault(Types.UUID, isInstance)) == Pass
  {
    assert LegacyBuilders.Shape(CallDefault(Types.UUID, isInstance)) == Builders.CallShape(Types.UUID);
    assert ("String", Builders.CallShape(Types.UUID)) in Builders.DEFAULT_RULES;
  }

  /** Without a data source no model is printed, so a schema of models only
      prints as nothing, even when a model could not be printed. */
  lemma ModelsOnlyPrintNothing(models: seq<Model>)
    ensures LegacyPrinter.Print(Schema(models, [], None, [])) == Ok("")
  {
    var schema := Schema(models, [], None, []);
    assert LegacyPrinter.Statements(schema) == Ok([]) by {
      assert LegacyPrinter.DataSourceTexts(schema) == [];
      assert LegacyPrinter.GeneratorTexts([]) == [] && LegacyPrinter.EnumTexts([]) == [];
      assert LegacyPrinter.DataSourceTexts(schema) + LegacyPrinter.GeneratorTexts([]) + [] + LegacyPrinter.EnumTexts([]) == [];
    }
  }

  /** On MongoDB a relation with references gets both `NoAction` arguments
      after its columns, whatever actions the field was built with. */
  lemma MongoRelationArguments(field: Field, column: string, reference: string)
    requires field.ObjectField? && !Types.Truthy(field.relationName)
    requires field.relationToFields == [column] && field.relationToReferences == [reference]
    ensures LegacyPrinter.RelationArguments(field, Types.MongoDB) ==
      [Printer.ColumnsArgument("fields", [column]), Printer.ColumnsArgument("references", [reference]),
       LegacyPrinter.MONGO_ON_DELETE, LegacyPrinter.MONGO_ON_UPDATE]
    ensures Printer.ColumnsArgument("fields", [column]) == "fields" + ": [" + column + "]"
  {
    assert Join([column], ",") == column;
  }

  /** The printed relation of that field: the four arguments joined by comma and space. */
  lemma MongoRelationText(field: Field, column: string, reference: string)
    requires field.ObjectField? && !Types.Truthy(field.relationName)
    requires field.relationToFields == [column] && field.relationToReferences == [reference]
    ensures LegacyPrinter.PrintRelation(field, Types.MongoDB) ==
      "@relation(" + Printer.ColumnsArgument("fields", [column]) + ", " + Printer.ColumnsArgument("references", [reference])
      + ", " + LegacyPrinter.MONGO_ON_DELETE + ", " + LegacyPrinter.MONGO_ON_UPDATE + ")"
  {
    MongoRelationArguments(field, column, reference);
    Wrapped(Printer.ColumnsArgument("fields", [column]), Printer.ColumnsArgument("references", [reference]),
      LegacyPrinter.MONGO_ON_DELETE, LegacyPrinter.MONGO_ON_UPDATE);
  }

  lemma Wrapped(a: string, b: string, c: string, d: string)
    ensures "@relation(" + Join([a, b, c, d], ", ") + ")" == "@relation(" + a + ", " + b + ", " + c + ", " + d + ")"
  {
    JoinFour(a, b, c, d, ", ");
  }

  lemma JoinFour(a: string, b: string, c: string, d: string, sep: string)
    ensures Join([a, b, c, d], sep) == a + sep + b + sep + c + sep + d
  {
    assert [a, b, c, d][1..] == [b, c, d];
    assert [b, c, d][1..] == [c, d];
    JoinPair(c, d, sep);
  }
}

=== FILE: legacy_printer.dfy ===
/** The printer of the legacy version. It prints data sources without a
    relation mode, generators without preview features, and fields without
    referential actions or raw attributes. It recognises url environment
    references and call expressions with `instanceof`, and throws when a
    default cannot be printed; a throw is an `Err` carrying the message.
    Where a legacy node prints like a current one, the lemmas here say so
    through the current printer. */
module LegacyPrinter {
  import opened Wrappers
  import opened Strings
  import opened LegacyTypes
  import Types
  import Printer

  /** What template interpolation makes of a plain object. */
  const OBJECT_TEXT: string := "[object Object]"

  // ---------------------------------------------------------------------------
  // data source
  // ---------------------------------------------------------------------------

  /** The current version's url a legacy url prints like: a plain `{ name }`
      record is not an instance of `DataSourceURLEnv` and is interpolated as
      an object. */
  function CurrentUrl(url: Url): Types.DataSourceUrl {
    match url
    case UrlLiteral(v) => Types.UrlLiteral(v)
    case UrlEnvInstance(name) => Types.UrlEnv(name)
    case UrlEnvRecord(_) => Types.UrlLiteral(OBJECT_TEXT)
  }

  /** `printDataSourceURL`: `env("NAME")` for an instance of the environment
      class, the quoted interpolation otherwise. It prints like the current
      version's url, and so reads back as that url. */
  function PrintDataSourceUrl(url: Url): (r: string)
    ensures r == Printer.PrintDataSourceUrl(CurrentUrl(url))
    ensures Printer.ParseDataSourceUrl(r) == Some(CurrentUrl(url))
  {
    match url
    case UrlEnvInstance(name) => "env(\"" + name + "\")"
    case UrlLiteral(v) => "\"" + v + "\""
    case UrlEnvRecord(_) => "\"" + OBJECT_TEXT + "\""
  }

  /** A plain environment record loses its variable name: every one prints
      as the same quoted literal, never as an `env(...)` reference. */
  lemma RecordUrlLosesName(a: string, b: string)
    ensures PrintDataSourceUrl(UrlEnvRecord(a)) == PrintDataSourceUrl(UrlEnvRecord(b))
    ensures Printer.ParseDataSourceUrl(PrintDataSourceUrl(UrlEnvRecord(a))).value.UrlLiteral?
  {
  }

  /** The current data source that prints like a legacy one: same name,
      provider and url, no relation mode. */
  function CurrentDataSource(dataSource: DataSource): Types.DataSource {
    Types.DataSource(dataSource.name, dataSource.provider, CurrentUrl(dataSource.url), None)
  }

  /** `printDataSource`: the template with its line breaks written out. */
  function PrintDataSource(dataSource: DataSource): (r: string)
    ensures r == Printer.PrintDataSource(CurrentDataSource(dataSource))
  {
    var header := "datasource " + dataSource.name + " {";
    var provider := "  provider = \"" + dataSource.provider.Text() + "\"";
    var url := "  url      = " + PrintDataSourceUrl(dataSource.url);
    assert Printer.RelationModeText(None) == "";
    Regroup(header, provider, url);
    header + "\n" + provider + "\n" + url + "\n" + "}"
  }

  lemma Regroup(header: string, provider: string, url: string)
    ensures header + "\n" + provider + "\n" + url + "\n" + "}" == header + "\n" + (provider + "\n" + url + "") + "\n" + "}"
  {
  }

  /** The lines of a data source block: header, provider, url, closing brace. */
  lemma DataSourceLines(dataSource: DataSource)
    requires Printer.OneLine(dataSource.name)
    requires dataSource.url.UrlLiteral? ==> Printer.OneLine(dataSource.url.value)
    requires dataSource.url.UrlEnvInstance? ==> Printer.OneLine(dataSource.url.name)
    ensures Lines(PrintDataSource(dataSource)) ==
      ["datasource " + dataSource.name + " {", "  provider = \"" + dataSource.provider.Text() + "\"",
       "  url      = " + PrintDataSourceUrl(dataSource.url), "}"]
  {
    var current := CurrentDataSource(dataSource);
    assert Printer.OneLine(PrintDataSourceUrl(dataSource.url)) by {
      UrlOneLine(dataSource.url);
    }
    Printer.DataSourceLines(current);
  }

  lemma UrlOneLine(url: Url)
    requires url.UrlLiteral? ==> Printer.OneLine(url.value)
    requires url.UrlEnvInstance? ==> Printer.OneLine(url.name)
    ensures Printer.OneLine(PrintDataSourceUrl(url))
  {
    match url
    case UrlLiteral(v) => Printer.OneLineAround("\"", v, "\"");
    case UrlEnvInstance(name) => Printer.OneLineAround("env(\"", name, "\")");
    case UrlEnvRecord(_) => Printer.OneLineAround("\"", OBJECT_TEXT, "\"");
  }

  // ---------------------------------------------------------------------------
  // generator
  // ---------------------------------------------------------------------------

  /** The current generator that prints like a legacy one: no preview features. */
  function CurrentGenerator(generator: Generator): Types.Generator {
    Types.Generator(generator.name, generator.provider, generator.output, generator.binaryTargets, [])
  }

  /** The settings of a generator block: the provider always, the output when
      truthy, the binary targets as a JSON array when there are any. */
  function GeneratorSettings(generator: Generator): (r: seq<string>)
    ensures r == Printer.GeneratorSettings(CurrentGenerator(generator))
  {
    ["provider = \"" + generator.provider + "\""]
    + (if Types.Truthy(generator.output) then ["output = \"" + generator.output.value + "\""] else [])
    + (if |generator.binaryTargets| > 0 then ["binaryTargets = " + JsonStringArray(generator.binaryTargets)] else [])
  }

  /** `printGenerator`: the template with its line breaks written out. */
  function PrintGenerator(generator: Generator): (r: string)
    ensures r == Printer.PrintGenerator(CurrentGenerator(generator))
  {
    "generator " + generator.name + " {" + "\n" + ("  " + Join(GeneratorSettings(generator), "\n" + "  ")) + "\n" + "}"
  }

  /** The lines of a generator block: header, each setting indented by two
      spaces, closing brace; the binary targets line is the last setting. */
  lemma GeneratorLines(generator: Generator)
    requires Printer.OneLine(generator.name) && Printer.OneLine(generator.provider)
    requires generator.output.Some? ==> Printer.OneLine(generator.output.value)
    ensures Lines(PrintGenerator(generator)) ==
      ["generator " + generator.name + " {"] + Indent(GeneratorSettings(generator), "  ") + ["}"]
    ensures |generator.binaryTargets| > 0 ==>
      Last(GeneratorSettings(generator)) == "binaryTargets = " + JsonStringArray(generator.binaryTargets)
  {
    Printer.GeneratorLines(CurrentGenerator(generator));
  }

  function Last(xs: seq<string>): string
    requires |xs| > 0
  {
    xs[|xs| - 1]
  }

  // ---------------------------------------------------------------------------
  // scalar field
  // ---------------------------------------------------------------------------

  /** A call default that is a plain `{ callee }` record rather than an
      instance of `CallExpression`. */
  predicate CallRecord(value: Default) {
    value.CallDefault? && !value.isInstance
  }

  /** The message `printScalarDefault` throws, with the value interpolated. */
  function InvalidValueMessage(valueText: string): string {
    "Invalid value: " + valueText
  }

  /** `printScalarDefault`: a string as it is, a boolean or number through
      `String`, an instance of `CallExpression` as `callee()`; null and a
      plain call record are thrown. What it prints is what the current
      version prints for the same default. */
  function PrintScalarDefault(value: Default): (r: Result<string, string>)
    ensures r.Err? <==> value.NullDefault? || CallRecord(value)
    ensures value.NullDefault? ==> r == Err(InvalidValueMessage("null"))
    ensures CallRecord(value) ==> r == Err(InvalidValueMessage(OBJECT_TEXT))
    ensures r.Ok? ==> r.value == Printer.PrintScalarDefault(CurrentDefault(value))
  {
    match value
    case StringDefault(s) => Ok(s)
    case BoolDefault(b) => Ok(if b then "true" else "false")
    case NumberDefault(n) => Ok(IntToString(n))
    case CallDefault(callee, isInstance) =>
      if isInstance then Ok(callee + "()") else Err(InvalidValueMessage(OBJECT_TEXT))
    case NullDefault => Err(InvalidValueMessage("null"))
  }

  /** The attributes of a scalar field, in the printed order: id, unique,
      updatedAt, and the default when it is truthy. The id is the MongoDB
      form for MongoDB; there is no ObjectId marker for foreign keys and no
      `auto()` default. */
  function AttributeList(field: Field): (r: seq<Printer.ScalarAttribute>)
    requires field.ScalarField?
    ensures forall i :: 0 <= i < |r| ==> r[i].Printable()
  {
    Printer.Optional(field.isId, Printer.IdAttr)
    + Printer.Optional(field.isUnique, Printer.UniqueAttr)
    + Printer.Optional(field.isUpdatedAt, Printer.UpdatedAtAttr)
    + Printer.Optional(DefaultIsTruthy(field.defaultValue), Printer.DefaultAttr(CurrentDefault(field.defaultValue)))
  }

  /** The attribute texts `printScalarField` pushes, or the message of the
      default it cannot print. */
  function ScalarAttributes(field: Field, provider: Types.DataSourceProvider): (r: Result<seq<string>, string>)
    requires field.ScalarField?
    ensures r.Err? <==> CallRecord(field.defaultValue)
    ensures r.Err? ==> r.error == InvalidValueMessage(OBJECT_TEXT)
  {
    var fixed := Printer.Optional(field.isId, Printer.IdAttribute(provider))
      + Printer.Optional(field.isUnique, Printer.UNIQUE_ATTRIBUTE)
      + Printer.Optional(field.isUpdatedAt, Printer.UPDATED_AT_ATTRIBUTE);
    if DefaultIsTruthy(field.defaultValue) then
      var d :- PrintScalarDefault(field.defaultValue);
      Ok(fixed + ["@default(" + d + ")"])
    else Ok(fixed)
  }

  /** The printed attributes are the texts of the attribute list, one each,
      in order. */
  lemma ScalarAttributesTexts(field: Field, provider: Types.DataSourceProvider)
    requires field.ScalarField? && !CallRecord(field.defaultValue)
    ensures ScalarAttributes(field, provider) == Ok(Printer.AttributeTexts(AttributeList(field), provider))
  {
    var v := field.defaultValue;
    var flags := FlagList(field.isId, field.isUnique, field.isUpdatedAt);
    var last := Printer.Optional(DefaultIsTruthy(v), Printer.DefaultAttr(CurrentDefault(v)));
    assert AttributeList(field) == flags + last;
    TextsOfConcat(flags, last, provider);
    FlagTexts(field.isId, field.isUnique, field.isUpdatedAt, provider);
    if DefaultIsTruthy(v) {
      TextsOfOptional(true, Printer.DefaultAttr(CurrentDefault(v)), provider);
    } else {
      var texts := Printer.AttributeTexts(flags, provider);
      assert last == [] && AttributeList(field) == flags;
      assert ScalarAttributes(field, provider) == Ok(texts);
    }
  }

  /** The id, unique and updatedAt part of an attribute list. */
  function FlagList(isId: bool, isUnique: bool, isUpdatedAt: bool): seq<Printer.ScalarAttribute> {
    Printer.Optional(isId, Printer.IdAttr) + Printer.Optional(isUnique, Printer.UniqueAttr)
    + Printer.Optional(isUpdatedAt, Printer.UpdatedAtAttr)
  }

  lemma FlagTexts(isId: bool, isUnique: bool, isUpdatedAt: bool, provider: Types.DataSourceProvider)
    ensures Printer.AttributeTexts(FlagList(isId, isUnique, isUpdatedAt), provider) ==
      Printer.Optional(isId, Printer.IdAttribute(provider)) + Printer.Optional(isUnique, Printer.UNIQUE_ATTRIBUTE)
      + Printer.Optional(isUpdatedAt, Printer.UPDATED_AT_ATTRIBUTE)
  {
    TextsOfThree(isId, Printer.IdAttr, isUnique, Printer.UniqueAttr, isUpdatedAt, Printer.UpdatedAtAttr, provider);
  }

  lemma TextsOfThree(p: bool, x: Printer.ScalarAttribute, q: bool, y: Printer.ScalarAttribute, s: bool, z: Printer.ScalarAttribute,
    provider: Types.DataSourceProvider)
    requires x.Printable() && y.Printable() && z.Printable()
    ensures Printer.AttributeTexts(Printer.Optional(p, x) + Printer.Optional(q, y) + Printer.Optional(s, z), provider) ==
      Printer.Optional(p, x.Text(provider)) + Printer.Optional(q, y.Text(provider)) + Printer.Optional(s, z.Text(provider))
  {
    var l0, l1, l2 := Printer.Optional(p, x), Printer.Optional(q, y), Printer.Optional(s, z);
    TextsOfOptional(p, x, provider);
    TextsOfOptional(q, y, provider);
    TextsOfOptional(s, z, provider);
    TextsOfConcat(l0, l1, provider);
    TextsOfConcat(l0 + l1, l2, provider);
  }

  lemma TextsOfOptional(present: bool, x: Printer.ScalarAttribute, provider: Types.DataSourceProvider)
    requires x.Printable()
    ensures Printer.AttributeTexts(Printer.Optional(present, x), provider) == Printer.Optional(present, x.Text(provider))
  {
  }

  lemma TextsOfConcat(a: seq<Printer.ScalarAttribute>, b: seq<Printer.ScalarAttribute>, provider: Types.DataSourceProvider)
    requires forall i :: 0 <= i < |a| ==> a[i].Printable()
    requires forall i :: 0 <= i < |b| ==> b[i].Printable()
    ensures forall i :: 0 <= i < |a + b| ==> (a + b)[i].Printable()
    ensures Printer.AttributeTexts(a + b, provider) == Printer.AttributeTexts(a, provider) + Printer.AttributeTexts(b, provider)
  {
    assert forall i :: 0 <= i < |a + b| ==> (a + b)[i] == if i < |a| then a[i] else b[i - |a|];
  }

  /** Each attribute is in the list exactly when its flag is set, the default
      exactly when it is truthy, whatever the provider; there is never an
      ObjectId marker or an `auto()` default. */
  lemma AttributeListPresence(field: Field)
    requires field.ScalarField?
    ensures var l := AttributeList(field);
      && (Printer.IdAttr in l <==> field.isId)
      && (Printer.UniqueAttr in l <==> field.isUnique)
      && (Printer.UpdatedAtAttr in l <==> field.isUpdatedAt)
      && (Printer.DefaultAttr(CurrentDefault(field.defaultValue)) in l <==> DefaultIsTruthy(field.defaultValue))
      && Printer.ObjectIdAttr !in l && Printer.AutoDefaultAttr !in l
  {
    var d := Printer.DefaultAttr(CurrentDefault(field.defaultValue));
    forall a ensures a in AttributeList(field) <==>
      (field.isId && a == Printer.IdAttr) || (field.isUnique && a == Printer.UniqueAttr)
      || (field.isUpdatedAt && a == Printer.UpdatedAtAttr) || (DefaultIsTruthy(field.defaultValue) && a == d)
    {
      Printer.OptionalMember(field.isId, Printer.IdAttr, a);
      Printer.OptionalMember(field.isUnique, Printer.UniqueAttr, a);
      Printer.OptionalMember(field.isUpdatedAt, Printer.UpdatedAtAttr, a);
      Printer.OptionalMember(DefaultIsTruthy(field.defaultValue), d, a);
    }
  }

  /** The attributes come in the fixed order id, unique, updatedAt, default,
      each at most once. */
  lemma {:induction false} AttributeListOrdered(field: Field)
    requires field.ScalarField?
    ensures Printer.Ranked(AttributeList(field))
  {
    var a0 := Printer.Optional(field.isId, Printer.IdAttr);
    var a2 := Printer.Optional(field.isUnique, Printer.UniqueAttr);
    var a3 := Printer.Optional(field.isUpdatedAt, Printer.UpdatedAtAttr);
    var a4 := Printer.Optional(DefaultIsTruthy(field.defaultValue), Printer.DefaultAttr(CurrentDefault(field.defaultValue)));
    Printer.RankedAppend([], a0, 0);
    assert [] + a0 == a0;
    Printer.RankedAppend(a0, [], 1);
    assert a0 + [] == a0;
    Printer.RankedAppend(a0, a2, 2);
    Printer.RankedAppend(a0 + a2, a3, 3);
    Printer.RankedAppend(a0 + a2 + a3, a4, 4);
  }

  /** The printed type of a field: its type followed by its modifiers. */
  function TypeText(field: Field): string {
    field.fieldType + Printer.PrintFieldModifiers(field.isList, field.isRequired)
  }

  /** `printScalarField`: name, type and attributes, the empty ones left out. */
  function PrintScalarField(field: Field, provider: Types.DataSourceProvider): (r: Result<string, string>)
    requires field.ScalarField?
    ensures r.Err? <==> CallRecord(field.defaultValue)
  {
    var attributes :- ScalarAttributes(field, provider);
    Ok(Printer.FieldLine(field.name, TypeText(field), attributes))
  }

  /** The current field that prints like a legacy one: no foreign-key flag
      (the legacy printer ignores it), and for an object field actions of
      `NONE`, which the current printer leaves out. */
  function CurrentField(field: Field): (r: Types.Field)
    ensures r.Kind() == field.Kind()
  {
    match field
    case ScalarField(name, isList, isRequired, documentation, fieldType, isId, isUnique, isUpdatedAt, v, _, _) =>
      Types.ScalarField(name, isList, isRequired, documentation, fieldType, isId, isUnique, isUpdatedAt, CurrentDefault(v), false)
    case ObjectField(name, isList, isRequired, documentation, fieldType, relationName, toFields, toReferences, _, _, _) =>
      Types.ObjectField(name, isList, isRequired, documentation, fieldType, relationName, toFields, toReferences,
        Some(Types.NONE), Some(Types.NONE))
  }

  /** Away from an id with a default on MongoDB, the attribute list is the
      current version's for the same field without a foreign-key flag. */
  lemma AttributeListAsCurrent(field: Field, provider: Types.DataSourceProvider)
    requires field.ScalarField?
    requires provider == Types.MongoDB ==> !(field.isId && DefaultIsTruthy(field.defaultValue))
    ensures AttributeList(field) == Printer.ScalarAttributeList(CurrentField(field), provider)
  {
    var current := CurrentField(field);
    Printer.AttributeParts(current, provider);
    var d := Printer.DefaultAttr(CurrentDefault(field.defaultValue));
    assert Printer.DefaultAttributes(current, provider) == Printer.Optional(DefaultIsTruthy(field.defaultValue), d);
  }

  /** On MongoDB an id with a printable default keeps its default where the
      current version prints `auto()`. */
  lemma MongoIdKeepsDefault(field: Field)
    requires field.ScalarField? && field.isId && DefaultIsTruthy(field.defaultValue) && !CallRecord(field.defaultValue)
    ensures Printer.DefaultAttr(CurrentDefault(field.defaultValue)) in AttributeList(field)
    ensures Printer.AutoDefaultAttr in Printer.ScalarAttributeList(CurrentField(field), Types.MongoDB)
  {
    AttributeListPresence(field);
    Printer.ScalarAttributesPresence(CurrentField(field), Types.MongoDB);
  }

  /** A printable scalar field, away from an id with a default on MongoDB,
      prints as the current version prints it. */
  lemma ScalarFieldAsCurrent(field: Field, provider: Types.DataSourceProvider)
    requires field.ScalarField? && !CallRecord(field.defaultValue)
    requires provider == Types.MongoDB ==> !(field.isId && DefaultIsTruthy(field.defaultValue))
    ensures PrintScalarField(field, provider) == Ok(Printer.PrintScalarField(CurrentField(field), provider))
  {
    ScalarAttributesTexts(field, provider);
    AttributeListAsCurrent(field, provider);
  }

  // ---------------------------------------------------------------------------
  // object field
  // ---------------------------------------------------------------------------

  /** The relation of an object field is printed when it has a truthy name or
      a non-empty column list: the relation record is then not empty. */
  predicate HasRelation(field: Field)
    requires field.ObjectField?
  {
    Types.Truthy(field.relationName) || |field.relationToFields| > 0 || |field.relationToReferences| > 0
  }

  /** The referential action MongoDB gets in place of the field's own, with
      no space after the colon. */
  const MONGO_ON_DELETE: string := "onDelete:NoAction"
  const MONGO_ON_UPDATE: string := "onUpdate:NoAction"

  /** The arguments of `@relation(...)`: name, fields, references, and on
      MongoDB, when there are references, `NoAction` for both actions. The
      field's own actions are never printed. */
  function RelationArguments(field: Field, provider: Types.DataSourceProvider): (r: seq<string>)
    requires field.ObjectField?
    ensures var mongoActions := provider == Types.MongoDB && |field.relationToReferences| > 0;
      r == (if Types.Truthy(field.relationName) then [Printer.NameArgument(field.relationName.value)] else [])
        + Printer.Optional(|field.relationToFields| > 0, Printer.ColumnsArgument("fields", field.relationToFields))
        + Printer.Optional(|field.relationToReferences| > 0, Printer.ColumnsArgument("references", field.relationToReferences))
        + Printer.Optional(mongoActions, MONGO_ON_DELETE)
        + Printer.Optional(mongoActions, MONGO_ON_UPDATE)
  {
    var mongoActions := provider == Types.MongoDB && |field.relationToReferences| > 0;
    var parts := [
      if Types.Truthy(field.relationName) then Printer.NameArgument(field.relationName.value) else "",
      if |field.relationToFields| > 0 then Printer.ColumnsArgument("fields", field.relationToFields) else "",
      if |field.relationToReferences| > 0 then Printer.ColumnsArgument("references", field.relationToReferences) else "",
      if mongoActions then MONGO_ON_DELETE else "",
      if mongoActions then MONGO_ON_UPDATE else ""];
    Printer.NonEmptyFive(parts);
    NonEmpty(parts)
  }

  /** Off MongoDB, or without references, the arguments are the current
      version's for the same field with `NONE` actions; on MongoDB with
      references the two `NoAction` arguments follow them. */
  lemma RelationArgumentsAsCurrent(field: Field, provider: Types.DataSourceProvider)
    requires field.ObjectField?
    ensures var current := Printer.RelationArguments(CurrentField(field));
      if provider == Types.MongoDB && |field.relationToReferences| > 0
      then RelationArguments(field, provider) == current + [MONGO_ON_DELETE, MONGO_ON_UPDATE]
      else RelationArguments(field, provider) == current
  {
    var current := CurrentField(field);
    assert Printer.ActionArgument("onDelete", current.relationOnDelete) == "";
  }

  function PrintRelation(field: Field, provider: Types.DataSourceProvider): string
    requires field.ObjectField?
  {
    "@relation(" + Join(RelationArguments(field, provider), ", ") + ")"
  }

  function ObjectAttributes(field: Field, provider: Types.DataSourceProvider): seq<string>
    requires field.ObjectField?
  {
    if HasRelation(field) then [PrintRelation(field, provider)] else []
  }

  /** `printObjectField`: name, type and relation, the empty ones left out. */
  function PrintObjectField(field: Field, provider: Types.DataSourceProvider): string
    requires field.ObjectField?
  {
    Printer.FieldLine(field.name, TypeText(field), ObjectAttributes(field, provider))
  }

  /** Off MongoDB, or without references, an object field prints as the
      current version prints it with `NONE` actions. */
  lemma ObjectFieldAsCurrent(field: Field, provider: Types.DataSourceProvider)
    requires field.ObjectField?
    requires provider == Types.MongoDB ==> |field.relationToReferences| == 0
    ensures PrintObjectField(field, provider) == Printer.PrintObjectField(CurrentField(field))
  {
    RelationArgumentsAsCurrent(field, provider);
  }

  // ---------------------------------------------------------------------------
  // field and model
  // ---------------------------------------------------------------------------

  /** A field the printer throws on: a scalar field whose default is a plain
      call record. */
  predicate Unprintable(field: Field) {
    field.ScalarField? && CallRecord(field.defaultValue)
  }

  /** `printField`: the documentation line, then the field line. */
  function PrintField(field: Field, provider: Types.DataSourceProvider): (r: Result<string, string>)
    ensures r.Err? <==> Unprintable(field)
    ensures r.Err? ==> r.error == InvalidValueMessage(OBJECT_TEXT)
  {
    if field.ScalarField? then
      var line :- PrintScalarField(field, provider);
      assert line == Printer.FieldLine(field.name, TypeText(field), ScalarAttributes(field, provider).value);
      Ok(Printer.WithDocumentation(field.documentation, line))
    else
      Ok(Printer.WithDocumentation(field.documentation, PrintObjectField(field, provider)))
  }

  /** Where the two versions agree on a field's line they agree on the field. */
  predicate PrintsAsCurrent(field: Field, provider: Types.DataSourceProvider) {
    && !Unprintable(field)
    && (provider == Types.MongoDB && field.ScalarField? ==> !(field.isId && DefaultIsTruthy(field.defaultValue)))
    && (provider == Types.MongoDB && field.ObjectField? ==> |field.relationToReferences| == 0)
  }

  /** A field printable by both versions in the same way prints the same,
      documentation included. */
  lemma FieldAsCurrent(field: Field, provider: Types.DataSourceProvider)
    requires PrintsAsCurrent(field, provider)
    ensures PrintField(field, provider) == Ok(Printer.PrintField(CurrentField(field), provider))
  {
    if field.ScalarField? {
      ScalarFieldAsCurrent(field, provider);
    } else {
      ObjectFieldAsCurrent(field, provider);
    }
  }

  /** The printed fields of a model, in order, or the first field's error. */
  function FieldTexts(fields: seq<Field>, provider: Types.DataSourceProvider): (r: Result<seq<string>, string>)
    ensures r.Ok? <==> forall i :: 0 <= i < |fields| ==> !Unprintable(fields[i])
    ensures r.Ok? ==> |r.value| == |fields| && forall i :: 0 <= i < |fields| ==> r.value[i] == PrintField(fields[i], provider).value
    ensures r.Err? ==> r.error == InvalidValueMessage(OBJECT_TEXT)
    decreases |fields|
  {
    if |fields| == 0 then Ok([])
    else
      var first :- PrintField(fields[0], provider);
      var rest :- FieldTexts(fields[1..], provider);
      assert forall i :: 1 <= i < |fields| ==> fields[i] == fields[1..][i - 1];
      Ok([first] + rest)
  }

  function ModelHeader(model: Model): string {
    "model " + model.name + " {"
  }

  /** `printModel`: the header, the fields joined by newlines, the closing
      brace, with the documentation above. The mapped name and the raw
      attributes are not printed. */
  function PrintModel(model: Model, provider: Types.DataSourceProvider): (r: Result<string, string>)
    ensures r.Err? <==> exists i :: 0 <= i < |model.fields| && Unprintable(model.fields[i])
    ensures r.Err? ==> r.error == InvalidValueMessage(OBJECT_TEXT)
  {
    var texts :- FieldTexts(model.fields, provider);
    Ok(Printer.WithDocumentation(model.documentation, ModelHeader(model) + "\n" + Join(texts, "\n") + "\n" + "}"))
  }

  /** The lines of a printed model: its documentation line, the header, the
      lines of its fields (one empty line when there is none), the closing
      brace. */
  lemma ModelLines(model: Model, provider: Types.DataSourceProvider)
    requires Printer.OneLine(model.name)
    requires model.documentation.Some? ==> Printer.OneLine(model.documentation.value)
    requires PrintModel(model, provider).Ok?
    ensures Lines(PrintModel(model, provider).value) ==
      Printer.DocLines(model.documentation) + [ModelHeader(model)]
      + Printer.FieldLines(FieldTexts(model.fields, provider).value) + ["}"]
  {
    var texts := FieldTexts(model.fields, provider).value;
    Printer.OneLineAround("model ", model.name, " {");
    Printer.BlockLines(model.documentation, ModelHeader(model), Join(texts, "\n"));
    if |texts| == 0 {
      LinesSingle("");
    } else {
      SplitJoin(texts, "\n");
    }
  }

  /** The current model that prints like a legacy one: its fields as the
      current version's, without a mapped name or indexes. */
  function CurrentModel(model: Model): Types.Model {
    Types.Model(model.name, CurrentFields(model.fields), None, model.documentation, None, None)
  }

  function CurrentFields(fields: seq<Field>): (r: seq<Types.Field>)
    ensures |r| == |fields| && forall i :: 0 <= i < |fields| ==> r[i] == CurrentField(fields[i])
  {
    seq(|fields|, i requires 0 <= i < |fields| => CurrentField(fields[i]))
  }

  /** A model whose every field prints as in the current version prints as
      the current version prints it without its mapped name. */
  lemma ModelAsCurrent(model: Model, provider: Types.DataSourceProvider)
    requires forall i :: 0 <= i < |model.fields| ==> PrintsAsCurrent(model.fields[i], provider)
    ensures PrintModel(model, provider) == Ok(Printer.PrintModel(CurrentModel(model), provider))
  {
    var current := CurrentModel(model);
    var texts := FieldTexts(model.fields, provider).value;
    assert texts == Printer.FieldTexts(current.fields, provider) by {
      FieldTextsAsCurrent(model.fields, provider);
    }
    Printer.ModelBodySections(current, provider);
    assert Printer.ModelBody(current, provider) == Join(texts, "\n") by {
      assert Printer.Section([]) == "";
    }
  }

  lemma FieldTextsAsCurrent(fields: seq<Field>, provider: Types.DataSourceProvider)
    requires forall i :: 0 <= i < |fields| ==> PrintsAsCurrent(fields[i], provider)
    ensures FieldTexts(fields, provider) == Ok(Printer.FieldTexts(CurrentFields(fields), provider))
  {
    var texts := FieldTexts(fields, provider).value;
    var theirs := Printer.FieldTexts(CurrentFields(fields), provider);
    forall i | 0 <= i < |fields| ensures texts[i] == theirs[i] {
      FieldAsCurrent(fields[i], provider);
    }
    assert texts == theirs;
  }

  // ---------------------------------------------------------------------------
  // schema
  // ---------------------------------------------------------------------------

  /** A model the printer prints: none of its fields throws. */
  predicate ModelPrintable(model: Model) {
    forall j :: 0 <= j < |model.fields| ==> !Unprintable(model.fields[j])
  }

  /** The printed models, in order, or the first model's error. */
  function ModelTexts(models: seq<Model>, provider: Types.DataSourceProvider): (r: Result<seq<string>, string>)
    ensures r.Ok? <==> forall i :: 0 <= i < |models| ==> ModelPrintable(models[i])
    ensures r.Ok? ==> |r.value| == |models| && forall i :: 0 <= i < |models| ==> r.value[i] == PrintModel(models[i], provider).value
    ensures r.Err? ==> r.error == InvalidValueMessage(OBJECT_TEXT)
    decreases |models|
  {
    if |models| == 0 then Ok([])
    else
      var first :- PrintModel(models[0], provider);
      var rest :- ModelTexts(models[1..], provider);
      assert forall i :: 1 <= i < |models| ==> models[i] == models[1..][i - 1];
      Ok([first] + rest)
  }

  function GeneratorTexts(generators: seq<Generator>): (r: seq<string>)
    ensures |r| == |generators| && forall i :: 0 <= i < |generators| ==> r[i] == PrintGenerator(generators[i])
  {
    seq(|generators|, i requires 0 <= i < |generators| => PrintGenerator(generators[i]))
  }

  function EnumTexts(enums: seq<Types.Enum>): (r: seq<string>)
    ensures |r| == |enums| && forall i :: 0 <= i < |enums| ==> r[i] == Printer.PrintEnum(enums[i])
  {
    seq(|enums|, i requires 0 <= i < |enums| => Printer.PrintEnum(enums[i]))
  }

  /** The printed data source block, when there is one. */
  function DataSourceTexts(schema: Schema): seq<string> {
    if schema.dataSource.Some? then [PrintDataSource(schema.dataSource.value)] else []
  }

  /** The printed blocks of `print`: the data source, the generators, the
      models only when there is a data source (printed for its provider),
      then the enums; or the first model's error. */
  function Statements(schema: Schema): (r: Result<seq<string>, string>)
    ensures r.Err? <==> schema.dataSource.Some? && exists i :: 0 <= i < |schema.models| && !ModelPrintable(schema.models[i])
  {
    var models :- if schema.dataSource.Some? then ModelTexts(schema.models, schema.dataSource.value.provider) else Ok([]);
    Ok(DataSourceTexts(schema) + GeneratorTexts(schema.generators) + models + EnumTexts(schema.enums))
  }

  /** `print` before formatting: the statements joined by newlines. Only a
      model with an unprintable field, printed because there is a data
      source, makes it throw. */
  function Print(schema: Schema): (r: Result<string, string>)
    ensures r.Err? <==> schema.dataSource.Some? && exists i :: 0 <= i < |schema.models| && !ModelPrintable(schema.models[i])
    ensures r.Err? ==> r.error == InvalidValueMessage(OBJECT_TEXT)
  {
    var statements :- Statements(schema);
    Ok(Join(statements, "\n"))
  }

  /** A model whose every field prints as in the current version. */
  predicate ModelPrintsAsCurrent(model: Model, provider: Types.DataSourceProvider) {
    forall j :: 0 <= j < |model.fields| ==> PrintsAsCurrent(model.fields[j], provider)
  }

  /** The current schema `print` treats like a legacy one: the current
      version's nodes, and no models when there is no data source. */
  function CurrentSchema(schema: Schema): Types.Schema {
    var models := if schema.dataSource.Some? then seq(|schema.models|, i requires 0 <= i < |schema.models| => CurrentModel(schema.models[i])) else [];
    var dataSource := if schema.dataSource.Some? then Some(CurrentDataSource(schema.dataSource.value)) else None;
    var generators := seq(|schema.generators|, i requires 0 <= i < |schema.generators| => CurrentGenerator(schema.generators[i]));
    Types.Schema(models, schema.enums, dataSource, generators)
  }

  /** A schema whose printed models print as in the current version prints as
      the current version prints it, except that without a data source its
      models are dropped. */
  lemma PrintAsCurrent(schema: Schema)
    requires schema.dataSource.Some? ==>
      forall i :: 0 <= i < |schema.models| ==> ModelPrintsAsCurrent(schema.models[i], schema.dataSource.value.provider)
    ensures Print(schema) == Ok(Printer.Print(CurrentSchema(schema)))
  {
    StatementsAsCurrent(schema);
  }

  lemma StatementsAsCurrent(schema: Schema)
    requires schema.dataSource.Some? ==>
      forall i :: 0 <= i < |schema.models| ==> ModelPrintsAsCurrent(schema.models[i], schema.dataSource.value.provider)
    ensures Statements(schema) == Ok(Printer.Statements(CurrentSchema(schema)))
  {
    var current := CurrentSchema(schema);
    var provider := Printer.ProviderOf(current);
    var models := if schema.dataSource.Some? then ModelTexts(schema.models, provider).value else [];
    assert models == CurrentModelTexts(current.models, provider) by {
      ModelTextsAsCurrent(schema);
    }
    assert GeneratorTexts(schema.generators) == CurrentGeneratorTexts(current.generators);
    assert Statements(schema) == Ok(DataSourceTexts(schema) + GeneratorTexts(schema.generators) + models + EnumTexts(schema.enums));
    CurrentStatements(current);
  }

  /** The printed models of a schema with a data source are the current
      version's printed models. */
  lemma ModelTextsAsCurrent(schema: Schema)
    requires schema.dataSource.Some? ==>
      forall i :: 0 <= i < |schema.models| ==> ModelPrintsAsCurrent(schema.models[i], schema.dataSource.value.provider)
    ensures var current := CurrentSchema(schema);
      schema.dataSource.Some? ==>
        ModelTexts(schema.models, schema.dataSource.value.provider)
          == Ok(CurrentModelTexts(current.models, Printer.ProviderOf(current)))
  {
    if schema.dataSource.Some? {
      var provider := schema.dataSource.value.provider;
      var current := CurrentSchema(schema);
      forall i | 0 <= i < |schema.models| ensures ModelPrintable(schema.models[i]) {
        assert ModelPrintsAsCurrent(schema.models[i], provider);
      }
      var mine := ModelTexts(schema.models, provider).value;
      var theirs := CurrentModelTexts(current.models, Printer.ProviderOf(current));
      assert Printer.ProviderOf(current) == provider;
      forall i | 0 <= i < |schema.models| ensures mine[i] == theirs[i] {
        assert current.models[i] == CurrentModel(schema.models[i]);
        ModelAsCurrent(schema.models[i], provider);
      }
      assert mine == theirs;
    }
  }

  function CurrentGeneratorTexts(generators: seq<Types.Generator>): (r: seq<string>)
    ensures |r| == |generators| && forall i :: 0 <= i < |generators| ==> r[i] == Printer.PrintGenerator(generators[i])
  {
    seq(|generators|, i requires 0 <= i < |generators| => Printer.PrintGenerator(generators[i]))
  }

  function CurrentModelTexts(models: seq<Types.Model>, provider: Types.DataSourceProvider): (r: seq<string>)
    ensures |r| == |models| && forall i :: 0 <= i < |models| ==> r[i] == Printer.PrintModel(models[i], provider)
  {
    seq(|models|, i requires 0 <= i < |models| => Printer.PrintModel(models[i], provider))
  }

  /** The current version's statements, block kind by block kind. */
  lemma CurrentStatements(schema: Types.Schema)
    ensures Printer.Statements(schema) == CurrentBlocks(schema)
  {
    var provider := Printer.ProviderOf(schema);
    var a := if schema.dataSource.Some? then [Printer.DataSourceBlock(schema.dataSource.value)] else [];
    var b, c, d := Printer.GeneratorBlocks(schema.generators), Printer.ModelBlocks(schema.models), Printer.EnumBlocks(schema.enums);
    Printer.BlockTextsConcat(a, b, provider);
    Printer.BlockTextsConcat(a + b, c, provider);
    Printer.BlockTextsConcat(a + b + c, d, provider);
    assert Printer.BlockTexts(a, provider) == if schema.dataSource.Some? then [Printer.PrintDataSource(schema.dataSource.value)] else [];
    assert Printer.BlockTexts(b, provider) == CurrentGeneratorTexts(schema.generators);
    assert Printer.BlockTexts(c, provider) == CurrentModelTexts(schema.models, provider) by {
      forall i | 0 <= i < |c| ensures c[i].Text(provider) == Printer.PrintModel(schema.models[i], provider) {
        assert c[i] == Printer.ModelBlock(schema.models[i]);
      }
    }
    assert Printer.BlockTexts(d, provider) == EnumTexts(schema.enums);
  }

  function CurrentBlocks(schema: Types.Schema): seq<string> {
    (if schema.dataSource.Some? then [Printer.PrintDataSource(schema.dataSource.value)] else [])
    + CurrentGeneratorTexts(schema.generators) + CurrentModelTexts(schema.models, Printer.ProviderOf(schema))
    + EnumTexts(schema.enums)
  }
}

=== FILE: legacy_types.dfy ===
/** The schema AST of the legacy version. Its url environment references and
    call expressions are class instances, which the printer recognises with
    `instanceof`; a plain record of the same shape satisfies the declared
    type but is a different value, so both forms are kept apart here. The
    provider, referential action and enum types are those of the current
    version. */
module LegacyTypes {
  import opened Wrappers
  import Types

  /** `string | DataSourceURLEnv`: a literal, an instance of the class, or a
      plain `{ name }` record of the same shape. */
  datatype Url = UrlLiteral(value: string) | UrlEnvInstance(name: string) | UrlEnvRecord(name: string)

  /** A data source has no relation mode in this version. */
  datatype DataSource = DataSource(name: string, provider: Types.DataSourceProvider, url: Url)

  /** A generator has no preview features in this version; `output` is
      nullable and `binaryTargets` mandatory. */
  datatype Generator = Generator(name: string, provider: string, output: Option<string>, binaryTargets: seq<string>)

  /** `ScalarFieldDefault`: null | boolean | CallExpression | number | string.
      A call is an instance of `CallExpression` or a plain `{ callee }` record;
      numbers are modelled as integers. */
  datatype Default =
    | NullDefault
    | BoolDefault(b: bool)
    | CallDefault(callee: string, isInstance: bool)
    | NumberDefault(n: int)
    | StringDefault(s: string)

  /** The builders' structural test: the value carries a `callee`. */
  predicate IsCallExpression(v: Default) {
    v.CallDefault?
  }

  /** The printer's test: the value is an instance of `CallExpression`. */
  predicate IsCallInstance(v: Default) {
    v.CallDefault? && v.isInstance
  }

  /** JavaScript truthiness of a default; every call, instance or record, is an object and truthy. */
  predicate DefaultIsTruthy(v: Default) {
    match v
    case NullDefault => false
    case BoolDefault(b) => b
    case CallDefault(_, _) => true
    case NumberDefault(n) => n != 0
    case StringDefault(s) => s != ""
  }

  /** The current version's default that prints like `v` when `v` is not a
      plain call record: a call keeps its callee. */
  function CurrentDefault(v: Default): (r: Types.ScalarDefault)
    ensures r.CallDefault? <==> v.CallDefault?
    ensures Types.DefaultIsTruthy(r) <==> DefaultIsTruthy(v)
  {
    match v
    case NullDefault => Types.NullDefault
    case BoolDefault(b) => Types.BoolDefault(b)
    case CallDefault(callee, _) => Types.CallDefault(callee)
    case NumberDefault(n) => Types.NumberDefault(n)
    case StringDefault(s) => Types.StringDefault(s)
  }

  /** A field as the legacy builders return it. The builders also store a
      foreign-key flag, an update action and the prepared raw attributes;
      the legacy printer reads none of them. */
  datatype Field =
    | ScalarField(
        name: string,
        isList: bool,
        isRequired: bool,
        documentation: Option<string>,
        fieldType: string,
        isId: bool,
        isUnique: bool,
        isUpdatedAt: bool,
        defaultValue: Default,
        isForeignKey: bool,
        attributes: Option<seq<string>>)
    | ObjectField(
        name: string,
        isList: bool,
        isRequired: bool,
        documentation: Option<string>,
        fieldType: string,
        relationName: Option<string>,
        relationToFields: seq<string>,
        relationToReferences: seq<string>,
        relationOnDelete: Types.ReferentialAction,
        relationOnUpdate: Types.ReferentialAction,
        attributes: Option<seq<string>>)
  {
    function Kind(): Types.FieldKind {
      if ScalarField? then Types.Scalar else Types.Object
    }
  }

  /** A model as `createModel` returns it; the printer reads its name, fields
      and documentation only. */
  datatype Model = Model(
    name: string,
    fields: seq<Field>,
    documentation: Option<string>,
    mappedName: Option<string>,
    attributes: Option<seq<string>>)

  datatype Schema = Schema(
    models: seq<Model>,
    enums: seq<Types.Enum>,
    dataSource: Option<DataSource>,
    generators: seq<Generator>)
}

=== FILE: printer.dfy ===
/** The printer of the current version: Prisma schema text from a schema AST,
    before the external formatter runs over it. Every printer is a pure
    function of the node (and, for fields and models, of the data source
    provider). */
module Printer {
  import opened Wrappers
  import opened Strings
  import opened Types

  /** A text that fits on one line. */
  predicate OneLine(s: string) {
    '\n' !in s
  }

  // ---------------------------------------------------------------------------
  // documentation
  // ---------------------------------------------------------------------------

  /** `printDocumentation`: a triple-slash comment holding the documentation. */
  function PrintDocumentation(documentation: string): (r: string)
    ensures |r| == |documentation| + 4 && r[..4] == "/// " && r[4..] == documentation
  {
    "/// " + documentation
  }

  /** The comment lines truthy documentation adds in front of a node. */
  function DocLines(documentation: Option<string>): seq<string> {
    if Truthy(documentation) then [PrintDocumentation(documentation.value)] else []
  }

  /** `withDocumentation`: truthy documentation goes on its own line above the
      code; absent or empty documentation leaves the code as it is. */
  function WithDocumentation(documentation: Option<string>, code: string): (r: string)
    ensures Truthy(documentation) ==> r == PrintDocumentation(documentation.value) + "\n" + code
    ensures !Truthy(documentation) ==> r == code
  {
    if Truthy(documentation) then
      JoinPair(PrintDocumentation(documentation.value), code, "\n");
      Join([PrintDocumentation(documentation.value), code], "\n")
    else code
  }

  /** Documentation adds exactly its comment line in front of the code's lines. */
  lemma DocumentedLines(documentation: Option<string>, code: string)
    requires documentation.Some? ==> OneLine(documentation.value)
    ensures Lines(WithDocumentation(documentation, code)) == DocLines(documentation) + Lines(code)
  {
    if Truthy(documentation) {
      LinesAppend(PrintDocumentation(documentation.value), code);
      LinesSingle(PrintDocumentation(documentation.value));
    }
  }

  // ---------------------------------------------------------------------------
  // data source
  // ---------------------------------------------------------------------------

  /** `printDataSourceURL`: `env("NAME")` for an environment reference, the
      quoted literal otherwise (no escaping). */
  function PrintDataSourceUrl(url: DataSourceUrl): (r: string)
    ensures ParseDataSourceUrl(r) == Some(url)
  {
    if IsDataSourceUrlEnv(url) then
      var r := "env(\"" + url.name + "\")";
      assert r[0] == 'e' && r[..5] == "env(\"" && r[5..|r| - 2] == url.name;
      r
    else
      var r := "\"" + url.value + "\"";
      assert r[1..|r| - 1] == url.value;
      r
  }

  /** Reads a printed url back: the env form starts with `e`, a literal with a quote. */
  function ParseDataSourceUrl(text: string): Option<DataSourceUrl> {
    if |text| >= 2 && text[0] == '"' && text[|text| - 1] == '"' then
      Some(UrlLiteral(text[1..|text| - 1]))
    else if |text| >= 7 && text[..5] == "env(\"" && text[|text| - 2..] == "\")" then
      Some(UrlEnv(text[5..|text| - 2]))
    else None
  }

  /** The `relationMode` setting, printed only when truthy and without indentation. */
  function RelationModeText(relationMode: Option<string>): string {
    if Truthy(relationMode) then "\n" + ("relationMode = \"" + relationMode.value + "\"") else ""
  }

  function DataSourceHeader(dataSource: DataSource): string {
    "datasource " + dataSource.name + " {"
  }

  function ProviderSetting(provider: DataSourceProvider): string {
    "  provider = \"" + provider.Text() + "\""
  }

  function UrlSetting(url: DataSourceUrl): string {
    "  url      = " + PrintDataSourceUrl(url)
  }

  /** `printDataSource`: the template with its line breaks written out. */
  function PrintDataSource(dataSource: DataSource): string {
    DataSourceHeader(dataSource) + "\n"
      + (ProviderSetting(dataSource.provider) + "\n" + UrlSetting(dataSource.url) + RelationModeText(dataSource.relationMode))
      + "\n" + "}"
  }

  lemma DataSourceLinesAreSingle(dataSource: DataSource)
    requires OneLine(dataSource.name) && OneLine(PrintDataSourceUrl(dataSource.url))
    requires dataSource.relationMode.Some? ==> OneLine(dataSource.relationMode.value)
    ensures OneLine(DataSourceHeader(dataSource)) && OneLine(ProviderSetting(dataSource.provider))
    ensures OneLine(UrlSetting(dataSource.url))
    ensures Truthy(dataSource.relationMode) ==> OneLine("relationMode = \"" + dataSource.relationMode.value + "\"")
  {
    OneLineAround("datasource ", dataSource.name, " {");
    ProviderTextOneLine(dataSource.provider);
    OneLineAround("  provider = \"", dataSource.provider.Text(), "\"");
    OneLineAround("  url      = ", PrintDataSourceUrl(dataSource.url), "");
    assert UrlSetting(dataSource.url) == "  url      = " + PrintDataSourceUrl(dataSource.url) + "";
    if Truthy(dataSource.relationMode) {
      OneLineAround("relationMode = \"", dataSource.relationMode.value, "\"");
    }
  }

  /** A newline-free text between two newline-free texts stays on one line. */
  lemma OneLineAround(before: string, s: string, after: string)
    requires OneLine(before) && OneLine(s) && OneLine(after)
    ensures OneLine(before + s + after)
  {
  }

  lemma ProviderTextOneLine(provider: DataSourceProvider)
    ensures OneLine(provider.Text())
  {
    match provider
    case PostgreSQL =>
    case MySQL =>
    case SQLite =>
    case MongoDB =>
  }

  /** The lines of a data source block: header, provider, url, the relation
      mode only when it is truthy, and the closing brace. */
  lemma DataSourceLines(dataSource: DataSource)
    requires OneLine(dataSource.name) && OneLine(PrintDataSourceUrl(dataSource.url))
    requires dataSource.relationMode.Some? ==> OneLine(dataSource.relationMode.value)
    ensures Lines(PrintDataSource(dataSource)) ==
      [DataSourceHeader(dataSource), ProviderSetting(dataSource.provider), UrlSetting(dataSource.url)]
      + (if Truthy(dataSource.relationMode) then ["relationMode = \"" + dataSource.relationMode.value + "\""] else [])
      + ["}"]
  {
    var header, provider, url := DataSourceHeader(dataSource), ProviderSetting(dataSource.provider), UrlSetting(dataSource.url);
    var settings := provider + "\n" + url + RelationModeText(dataSource.relationMode);
    var mode := if Truthy(dataSource.relationMode) then ["relationMode = \"" + dataSource.relationMode.value + "\""] else [];
    DataSourceLinesAreSingle(dataSource);
    assert Lines(PrintDataSource(dataSource)) == [header] + Lines(settings) + ["}"] by {
      LinesAround(header, settings, "}");
    }
    assert Lines(settings) == [provider, url] + mode by {
      DataSourceSettingLines(provider, url, dataSource.relationMode);
    }
    RegroupSettings(header, provider, url, mode);
  }

  lemma RegroupSettings(header: string, provider: string, url: string, mode: seq<string>)
    ensures [header] + ([provider, url] + mode) + ["}"] == [header, provider, url] + mode + ["}"]
  {
  }

  /** The provider, url and (when truthy) relation mode settings, one per line. */
  lemma DataSourceSettingLines(provider: string, url: string, relationMode: Option<string>)
    requires OneLine(provider) && OneLine(url)
    requires Truthy(relationMode) ==> OneLine("relationMode = \"" + relationMode.value + "\"")
    ensures Lines(provider + "\n" + url + RelationModeText(relationMode)) ==
      [provider, url] + (if Truthy(relationMode) then ["relationMode = \"" + relationMode.value + "\""] else [])
  {
    if Truthy(relationMode) {
      var m := "relationMode = \"" + relationMode.value + "\"";
      assert RelationModeText(relationMode) == "\n" + m;
      assert provider + "\n" + url + RelationModeText(relationMode) == provider + "\n" + url + "\n" + m;
      LinesAround(provider, url, m);
      LinesSingle(url);
    } else {
      assert provider + "\n" + url + RelationModeText(relationMode) == provider + "\n" + url;
      LinesAppend(provider, url);
      LinesSingle(provider);
      LinesSingle(url);
    }
  }

  // ---------------------------------------------------------------------------
  // generator
  // ---------------------------------------------------------------------------

  /** The string values of the preview features, in order. */
  function FeatureNames(features: seq<PreviewFeature>): (r: seq<string>)
    ensures |r| == |features| && forall i :: 0 <= i < |features| ==> r[i] == features[i].Text()
  {
    seq(|features|, i requires 0 <= i < |features| => features[i].Text())
  }

  /** The settings of a generator block: the provider always, the output when
      truthy, and each list when non-empty, printed as a JSON array. */
  function GeneratorSettings(generator: Generator): (r: seq<string>)
    ensures |r| >= 1 && r[0] == "provider = \"" + generator.provider + "\""
    ensures |r| == 1 + (if Truthy(generator.output) then 1 else 0)
      + (if |generator.binaryTargets| > 0 then 1 else 0) + (if |generator.previewFeatures| > 0 then 1 else 0)
  {
    ["provider = \"" + generator.provider + "\""]
    + (if Truthy(generator.output) then ["output = \"" + generator.output.value + "\""] else [])
    + (if |generator.binaryTargets| > 0 then ["binaryTargets = " + JsonStringArray(generator.binaryTargets)] else [])
    + (if |generator.previewFeatures| > 0
       then ["previewFeatures = " + JsonStringArray(FeatureNames(generator.previewFeatures))] else [])
  }

  /** The place of a setting in a generator block, read from its key:
      provider, output, binaryTargets, previewFeatures. */
  function SettingRank(setting: string): nat {
    if StartsWith(setting, "provider = ") then 0
    else if StartsWith(setting, "output = ") then 1
    else if StartsWith(setting, "binaryTargets = ") then 2
    else if StartsWith(setting, "previewFeatures = ") then 3
    else 4
  }

  /** A text starting with `key` starts with every prefix of `key`. */
  lemma KeyPrefix(key: string, rest: string, prefix: string)
    requires StartsWith(key, prefix)
    ensures StartsWith(key + rest, prefix)
  {
    assert (key + rest)[..|prefix|] == key[..|prefix|];
  }

  /** A text starting with `key` does not start with a prefix that differs
      from `key` at position `k`. */
  lemma KeyMismatch(key: string, rest: string, prefix: string, k: nat)
    requires k < |key| && k < |prefix| && key[k] != prefix[k]
    ensures !StartsWith(key + rest, prefix)
  {
    if |prefix| <= |key + rest| {
      assert (key + rest)[..|prefix|][k] == key[k];
    }
  }

  /** Each setting text has the rank of its key. */
  lemma SettingRanks(generator: Generator)
    ensures SettingRank("provider = \"" + generator.provider + "\"") == 0
    ensures generator.output.Some? ==> SettingRank("output = \"" + generator.output.value + "\"") == 1
    ensures SettingRank("binaryTargets = " + JsonStringArray(generator.binaryTargets)) == 2
    ensures SettingRank("previewFeatures = " + JsonStringArray(FeatureNames(generator.previewFeatures))) == 3
  {
    QuotedSettingRanks(generator.provider, generator.output.GetOr(""));
    ListSettingRanks(JsonStringArray(generator.binaryTargets), JsonStringArray(FeatureNames(generator.previewFeatures)));
  }

  lemma QuotedSettingRanks(provider: string, output: string)
    ensures SettingRank("provider = \"" + provider + "\"") == 0
    ensures SettingRank("output = \"" + output + "\"") == 1
  {
    assert "provider = \"" + provider + "\"" == "provider = \"" + (provider + "\"");
    KeyPrefix("provider = \"", provider + "\"", "provider = ");
    assert "output = \"" + output + "\"" == "output = \"" + (output + "\"");
    KeyMismatch("output = \"", output + "\"", "provider = ", 0);
    KeyPrefix("output = \"", output + "\"", "output = ");
  }

  lemma ListSettingRanks(targets: string, features: string)
    ensures SettingRank("binaryTargets = " + targets) == 2
    ensures SettingRank("previewFeatures = " + features) == 3
  {
    KeyMismatch("binaryTargets = ", targets, "provider = ", 0);
    KeyMismatch("binaryTargets = ", targets, "output = ", 0);
    KeyPrefix("binaryTargets = ", targets, "binaryTargets = ");
    KeyMismatch("previewFeatures = ", features, "provider = ", 2);
    KeyMismatch("previewFeatures = ", features, "output = ", 0);
    KeyMismatch("previewFeatures = ", features, "binaryTargets = ", 0);
    KeyPrefix("previewFeatures = ", features, "previewFeatures = ");
  }

  /** The ranks of a list of settings strictly increase. */
  predicate SettingsRanked(settings: seq<string>) {
    forall i, j :: 0 <= i < j < |settings| ==> SettingRank(settings[i]) < SettingRank(settings[j])
  }

  /** A ranked list below rank `k`, followed by at most one setting of rank
      `k`, is a ranked list below rank `k + 1`. */
  lemma SettingsRankedAppend(a: seq<string>, b: seq<string>, k: nat)
    requires SettingsRanked(a) && forall x :: x in a ==> SettingRank(x) < k
    requires |b| <= 1 && forall y :: y in b ==> SettingRank(y) == k
    ensures SettingsRanked(a + b) && forall x :: x in a + b ==> SettingRank(x) < k + 1
  {
    if |b| == 1 {
      assert b[0] in b;
      forall i, j | 0 <= i < j < |a + b| ensures SettingRank((a + b)[i]) < SettingRank((a + b)[j]) {
        if j == |a| {
          assert (a + b)[i] in a;
        }
      }
    } else {
      assert a + b == a;
    }
  }

  /** The settings of a generator as its four optional parts. */
  lemma SettingParts(generator: Generator)
    ensures GeneratorSettings(generator) ==
      ["provider = \"" + generator.provider + "\""]
      + Optional(Truthy(generator.output), "output = \"" + generator.output.GetOr("") + "\"")
      + Optional(|generator.binaryTargets| > 0, "binaryTargets = " + JsonStringArray(generator.binaryTargets))
      + Optional(|generator.previewFeatures| > 0,
                 "previewFeatures = " + JsonStringArray(FeatureNames(generator.previewFeatures)))
  {
  }

  /** The settings come in the order provider, output, binaryTargets,
      previewFeatures, each at most once. */
  lemma {:induction false} GeneratorSettingsOrdered(generator: Generator)
    ensures SettingsRanked(GeneratorSettings(generator))
    ensures SettingRank(GeneratorSettings(generator)[0]) == 0
  {
    SettingParts(generator);
    var p := ["provider = \"" + generator.provider + "\""];
    var o := Optional(Truthy(generator.output), "output = \"" + generator.output.GetOr("") + "\"");
    var t := Optional(|generator.binaryTargets| > 0, "binaryTargets = " + JsonStringArray(generator.binaryTargets));
    var f := Optional(|generator.previewFeatures| > 0,
                      "previewFeatures = " + JsonStringArray(FeatureNames(generator.previewFeatures)));
    SettingRanks(generator);
    OptionalAtMostOne(Truthy(generator.output), "output = \"" + generator.output.GetOr("") + "\"");
    OptionalAtMostOne(|generator.binaryTargets| > 0, "binaryTargets = " + JsonStringArray(generator.binaryTargets));
    OptionalAtMostOne(|generator.previewFeatures| > 0,
                      "previewFeatures = " + JsonStringArray(FeatureNames(generator.previewFeatures)));
    SettingsRankedAppend([], p, 0);
    assert [] + p == p;
    SettingsRankedAppend(p, o, 1);
    SettingsRankedAppend(p + o, t, 2);
    SettingsRankedAppend(p + o + t, f, 3);
  }

  /** Output is a setting exactly when it is truthy, and each list exactly
      when it is non-empty, each printed after its key; no other setting
      carries one of these keys. */
  lemma {:induction false} GeneratorSettingsPresence(generator: Generator)
    ensures var r := GeneratorSettings(generator);
      && (forall s :: s in r && SettingRank(s) == 1 ==>
            Truthy(generator.output) && s == "output = \"" + generator.output.GetOr("") + "\"")
      && (Truthy(generator.output) ==> "output = \"" + generator.output.GetOr("") + "\"" in r)
      && (forall s :: s in r && SettingRank(s) == 2 ==>
            |generator.binaryTargets| > 0 && s == "binaryTargets = " + JsonStringArray(generator.binaryTargets))
      && (|generator.binaryTargets| > 0 ==> "binaryTargets = " + JsonStringArray(generator.binaryTargets) in r)
      && (forall s :: s in r && SettingRank(s) == 3 ==>
            |generator.previewFeatures| > 0
            && s == "previewFeatures = " + JsonStringArray(FeatureNames(generator.previewFeatures)))
      && (|generator.previewFeatures| > 0 ==>
            "previewFeatures = " + JsonStringArray(FeatureNames(generator.previewFeatures)) in r)
  {
    SettingParts(generator);
    SettingRanks(generator);
    var output := "output = \"" + generator.output.GetOr("") + "\"";
    var targets := "binaryTargets = " + JsonStringArray(generator.binaryTargets);
    var features := "previewFeatures = " + JsonStringArray(FeatureNames(generator.previewFeatures));
    forall s ensures s in GeneratorSettings(generator) <==>
      s == "provider = \"" + generator.provider + "\""
      || (Truthy(generator.output) && s == output)
      || (|generator.binaryTargets| > 0 && s == targets)
      || (|generator.previewFeatures| > 0 && s == features)
    {
      OptionalMember(Truthy(generator.output), output, s);
      OptionalMember(|generator.binaryTargets| > 0, targets, s);
      OptionalMember(|generator.previewFeatures| > 0, features, s);
    }
  }

  function GeneratorHeader(generator: Generator): string {
    "generator " + generator.name + " {"
  }

  /** `printGenerator`: the template with its line breaks written out. */
  function PrintGenerator(generator: Generator): string {
    GeneratorHeader(generator) + "\n" + ("  " + Join(GeneratorSettings(generator), "\n" + "  ")) + "\n" + "}"
  }

  /** The lines of a generator block: header, each setting indented by two
      spaces, closing brace. */
  lemma GeneratorLines(generator: Generator)
    requires OneLine(generator.name) && OneLine(generator.provider)
    requires generator.output.Some? ==> OneLine(generator.output.value)
    ensures Lines(PrintGenerator(generator)) ==
      ["generator " + generator.name + " {"] + Indent(GeneratorSettings(generator), "  ") + ["}"]
  {
    var settings := GeneratorSettings(generator);
    var body := "  " + Join(settings, "\n" + "  ");
    assert Lines(body) == Indent(settings, "  ") by {
      JoinIndented(settings, "  ");
      GeneratorSettingsOneLine(generator);
      LinesOfJoin(Indent(settings, "  "));
    }
    assert OneLine(GeneratorHeader(generator)) by {
      OneLineAround("generator ", generator.name, " {");
    }
    LinesAround(GeneratorHeader(generator), body, "}");
  }

  /** No generator setting, indented, holds a newline. */
  lemma GeneratorSettingsOneLine(generator: Generator)
    requires OneLine(generator.provider)
    requires generator.output.Some? ==> OneLine(generator.output.value)
    ensures forall i :: 0 <= i < |GeneratorSettings(generator)| ==> OneLine(Indent(GeneratorSettings(generator), "  ")[i])
  {
    var settings := GeneratorSettings(generator);
    assert forall i :: 0 <= i < |settings| ==> OneLine(settings[i]) by {
      GeneratorSettingsPiecesOneLine(generator);
    }
    IndentOneLine(settings, "  ");
  }

  lemma SettingKeysOneLine()
    ensures OneLine("provider = \"") && OneLine("output = \"") && OneLine("\"")
    ensures OneLine("binaryTargets = ") && OneLine("previewFeatures = ") && OneLine("")
  {
  }

  lemma GeneratorSettingsPiecesOneLine(generator: Generator)
    requires OneLine(generator.provider)
    requires generator.output.Some? ==> OneLine(generator.output.value)
    ensures forall i :: 0 <= i < |GeneratorSettings(generator)| ==> OneLine(GeneratorSettings(generator)[i])
  {
    var provider := "provider = \"" + generator.provider + "\"";
    var output := if Truthy(generator.output) then ["output = \"" + generator.output.value + "\""] else [];
    var targets := if |generator.binaryTargets| > 0 then ["binaryTargets = " + JsonStringArray(generator.binaryTargets)] else [];
    var features := if |generator.previewFeatures| > 0
      then ["previewFeatures = " + JsonStringArray(FeatureNames(generator.previewFeatures))] else [];
    SettingKeysOneLine();
    assert forall i :: 0 <= i < |output| ==> OneLine(output[i]) by {
      if Truthy(generator.output) {
        OneLineAround("output = \"", generator.output.value, "\"");
      }
    }
    assert forall i :: 0 <= i < |targets| ==> OneLine(targets[i]) by {
      OneLineAround("binaryTargets = ", JsonStringArray(generator.binaryTargets), "");
    }
    assert forall i :: 0 <= i < |features| ==> OneLine(features[i]) by {
      OneLineAround("previewFeatures = ", JsonStringArray(FeatureNames(generator.previewFeatures)), "");
    }
    assert OneLine(provider) by {
      OneLineAround("provider = \"", generator.provider, "\"");
    }
    AllOneLine([provider], output, targets, features);
    assert GeneratorSettings(generator) == [provider] + output + targets + features;
  }

  /** Four lists of newline-free texts concatenate into one. */
  lemma AllOneLine(a: seq<string>, b: seq<string>, c: seq<string>, d: seq<string>)
    requires forall i :: 0 <= i < |a| ==> OneLine(a[i])
    requires forall i :: 0 <= i < |b| ==> OneLine(b[i])
    requires forall i :: 0 <= i < |c| ==> OneLine(c[i])
    requires forall i :: 0 <= i < |d| ==> OneLine(d[i])
    ensures forall i :: 0 <= i < |a + b + c + d| ==> OneLine((a + b + c + d)[i])
  {
  }

  /** Indenting newline-free texts by a newline-free indent keeps them on one line. */
  lemma IndentOneLine(parts: seq<string>, indent: string)
    requires OneLine(indent)
    requires forall i :: 0 <= i < |parts| ==> OneLine(parts[i])
    ensures forall i :: 0 <= i < |parts| ==> OneLine(Indent(parts, indent)[i])
  {
  }

  // ---------------------------------------------------------------------------
  // enum
  // ---------------------------------------------------------------------------

  function EnumHeader(enum: Enum): string {
    "enum " + enum.name + " {"
  }

  /** `printEnum`: the template with its line breaks written out. */
  function PrintEnum(enum: Enum): string {
    WithDocumentation(enum.documentation, EnumHeader(enum) + "\n" + Join(enum.values, "\n") + "\n" + "}")
  }

  /** The lines of an enum block: the documentation comment, the header, one
      value per line (an empty line when there are no values), the closing brace. */
  lemma EnumLines(enum: Enum)
    requires OneLine(enum.name) && forall i :: 0 <= i < |enum.values| ==> OneLine(enum.values[i])
    requires enum.documentation.Some? ==> OneLine(enum.documentation.value)
    ensures Lines(PrintEnum(enum)) ==
      DocLines(enum.documentation) + ["enum " + enum.name + " {"]
      + (if |enum.values| == 0 then [""] else enum.values) + ["}"]
  {
    var body := Join(enum.values, "\n");
    assert Lines(PrintEnum(enum)) == DocLines(enum.documentation) + [EnumHeader(enum)] + Lines(body) + ["}"] by {
      OneLineAround("enum ", enum.name, " {");
      BlockLines(enum.documentation, EnumHeader(enum), body);
    }
    EnumValueLines(enum.values);
  }

  /** The values joined by newlines are one line each, or a single empty line. */
  lemma EnumValueLines(values: seq<string>)
    requires forall i :: 0 <= i < |values| ==> OneLine(values[i])
    ensures Lines(Join(values, "\n")) == if |values| == 0 then [""] else values
  {
    if |values| == 0 {
      LinesSingle("");
    } else {
      LinesOfJoin(values);
    }
  }

  // ---------------------------------------------------------------------------
  // fields
  // ---------------------------------------------------------------------------

  /** `printFieldModifiers`: `[]` for a list, then `?` for an optional field. */
  function PrintFieldModifiers(isList: bool, isRequired: bool): string {
    Join((if isList then ["[]"] else []) + (if !isRequired then ["?"] else []), "")
  }

  /** Reads the modifiers back off the end of a printed type. */
  function ParseTypeText(text: string): (string, bool, bool) {
    var isRequired := !(|text| > 0 && text[|text| - 1] == '?');
    var t := if isRequired then text else text[..|text| - 1];
    var isList := |t| >= 2 && t[|t| - 2..] == "[]";
    (if isList then t[..|t| - 2] else t, isList, isRequired)
  }

  /** A type name that does not itself end like a modifier. */
  predicate PlainTypeName(name: string) {
    && !(|name| > 0 && name[|name| - 1] == '?')
    && !(|name| >= 2 && name[|name| - 2..] == "[]")
  }

  /** The modifiers printed after a plain type name read back as the flags they came from. */
  lemma ModifiersRoundTrip(typeName: string, isList: bool, isRequired: bool)
    requires PlainTypeName(typeName)
    ensures ParseTypeText(typeName + PrintFieldModifiers(isList, isRequired)) == (typeName, isList, isRequired)
  {
    if isList && !isRequired {
      assert PrintFieldModifiers(isList, isRequired) == "[]?" by {
        JoinPair("[]", "?", "");
      }
      ParseOptionalList(typeName);
    } else if isList {
      assert PrintFieldModifiers(isList, isRequired) == "[]";
      ParseList(typeName);
    } else if !isRequired {
      assert PrintFieldModifiers(isList, isRequired) == "?";
      ParseOptional(typeName);
    } else {
      assert typeName + PrintFieldModifiers(isList, isRequired) == typeName;
    }
  }

  lemma ParseOptionalList(typeName: string)
    requires PlainTypeName(typeName)
    ensures ParseTypeText(typeName + "[]?") == (typeName, true, false)
  {
    var text := typeName + "[]?";
    assert text[|text| - 1] == '?';
    var t := text[..|text| - 1];
    assert t == typeName + "[]";
    assert t[|t| - 2..] == "[]";
    assert t[..|t| - 2] == typeName;
  }

  lemma ParseList(typeName: string)
    requires PlainTypeName(typeName)
    ensures ParseTypeText(typeName + "[]") == (typeName, true, true)
  {
    var text := typeName + "[]";
    assert text[|text| - 1] == ']';
    assert text[|text| - 2..] == "[]";
    assert text[..|text| - 2] == typeName;
  }

  lemma ParseOptional(typeName: string)
    requires PlainTypeName(typeName)
    ensures ParseTypeText(typeName + "?") == (typeName, false, false)
  {
    var text := typeName + "?";
    assert text[|text| - 1] == '?';
    assert text[..|text| - 1] == typeName;
  }

  /** The printed type of a field: its type followed by its modifiers. */
  function TypeText(field: Field): string {
    field.fieldType + PrintFieldModifiers(field.isList, field.isRequired)
  }

  /** `printScalarDefault` on a non-null default: a string as it is, a boolean
      or number through `String`, a call expression as `callee()`. A null
      default would make the source read `callee` of null; the field printer
      never passes one. */
  function PrintScalarDefault(value: ScalarDefault): (r: string)
    requires !value.NullDefault?
    ensures value.StringDefault? ==> r == value.s
    ensures value.BoolDefault? ==> r == if value.b then "true" else "false"
    ensures value.NumberDefault? ==> ParseInt(r) == Some(value.n) && CanonicalInt(r) && (r[0] == '-' <==> value.n < 0)
    ensures value.CallDefault? ==> |r| == |value.callee| + 2 && r[..|value.callee|] == value.callee && r[|value.callee|..] == "()"
  {
    match value
    case StringDefault(s) => s
    case BoolDefault(b) => if b then "true" else "false"
    case NumberDefault(n) => IntToString(n)
    case CallDefault(callee) => callee + "()"
  }

  const ID_ATTRIBUTE: string := "@id"
  const MONGO_ID_ATTRIBUTE: string := "@id @map(\"_id\") @mongo.ObjectId"
  const OBJECT_ID_ATTRIBUTE: string := "@mongo.ObjectId"
  const UNIQUE_ATTRIBUTE: string := "@unique"
  const UPDATED_AT_ATTRIBUTE: string := "@updatedAt"
  const AUTO_DEFAULT_ATTRIBUTE: string := "@default(auto())"

  /** The id attribute for a provider: MongoDB maps the id to `_id` as an ObjectId. */
  function IdAttribute(provider: DataSourceProvider): string {
    if provider == MongoDB then MONGO_ID_ATTRIBUTE else ID_ATTRIBUTE
  }

  /** The attributes `printScalarField` can push, in the order it pushes
      them. A truthy default becomes `DefaultAttr`, or `AutoDefaultAttr` on a
      MongoDB id. */
  datatype ScalarAttribute = IdAttr | ObjectIdAttr | UniqueAttr | UpdatedAtAttr | DefaultAttr(value: ScalarDefault) | AutoDefaultAttr
  {
    /** The attribute's place in the printed order; the two defaults share the last one. */
    function Rank(): nat {
      match this
      case IdAttr => 0
      case ObjectIdAttr => 1
      case UniqueAttr => 2
      case UpdatedAtAttr => 3
      case _ => 4
    }

    /** A null default is never printed. */
    predicate Printable() {
      DefaultAttr? ==> !value.NullDefault?
    }

    /** The attribute as printed for `provider`. */
    function Text(provider: DataSourceProvider): (r: string)
      requires Printable()
      ensures r != "" && r[0] == '@'
    {
      match this
      case IdAttr => IdAttribute(provider)
      case ObjectIdAttr => OBJECT_ID_ATTRIBUTE
      case UniqueAttr => UNIQUE_ATTRIBUTE
      case UpdatedAtAttr => UPDATED_AT_ATTRIBUTE
      case DefaultAttr(v) => "@default(" + PrintScalarDefault(v) + ")"
      case AutoDefaultAttr => AUTO_DEFAULT_ATTRIBUTE
    }
  }

  /** `[x]` when `present`, nothing otherwise. */
  function Optional<T>(present: bool, x: T): seq<T> {
    if present then [x] else []
  }

  /** The attributes of a scalar field, in the printed order. */
  function ScalarAttributeList(field: Field, provider: DataSourceProvider): (r: seq<ScalarAttribute>)
    requires field.ScalarField?
    ensures forall i :: 0 <= i < |r| ==> r[i].Printable()
  {
    var mongo := provider == MongoDB;
    Optional(field.isId, IdAttr)
    + Optional(mongo && field.isForeignKey, ObjectIdAttr)
    + Optional(field.isUnique, UniqueAttr)
    + Optional(field.isUpdatedAt, UpdatedAtAttr)
    + DefaultAttributes(field, provider)
  }

  /** The printed attributes, one text per attribute, in the same order. */
  function AttributeTexts(attributes: seq<ScalarAttribute>, provider: DataSourceProvider): (r: seq<string>)
    requires forall i :: 0 <= i < |attributes| ==> attributes[i].Printable()
    ensures |r| == |attributes|
    ensures forall i :: 0 <= i < |r| ==> r[i] == attributes[i].Text(provider) && r[i] != ""
  {
    seq(|attributes|, i requires 0 <= i < |attributes| => attributes[i].Text(provider))
  }

  /** The attribute texts of a scalar field. */
  function ScalarAttributes(field: Field, provider: DataSourceProvider): (r: seq<string>)
    requires field.ScalarField?
    ensures forall i :: 0 <= i < |r| ==> r[i] != ""
  {
    AttributeTexts(ScalarAttributeList(field, provider), provider)
  }

  /** The default attributes of a field: none for a falsy default, else the
      default itself or, on a MongoDB id, `auto()`. */
  function DefaultAttributes(field: Field, provider: DataSourceProvider): seq<ScalarAttribute>
    requires field.ScalarField?
  {
    var mongo := provider == MongoDB;
    if DefaultIsTruthy(field.defaultValue) then
      Optional(!mongo || !field.isId, DefaultAttr(field.defaultValue)) + Optional(mongo && field.isId, AutoDefaultAttr)
    else []
  }

  /** The attribute list is its five optional parts in order. */
  lemma AttributeParts(field: Field, provider: DataSourceProvider)
    requires field.ScalarField?
    ensures ScalarAttributeList(field, provider) ==
      Optional(field.isId, IdAttr) + Optional(provider == MongoDB && field.isForeignKey, ObjectIdAttr)
      + Optional(field.isUnique, UniqueAttr) + Optional(field.isUpdatedAt, UpdatedAtAttr)
      + DefaultAttributes(field, provider)
  {
  }

  lemma OptionalMember<T>(present: bool, x: T, y: T)
    ensures y in Optional(present, x) <==> present && y == x
  {
  }

  /** Each attribute is printed exactly when its flag is set: the id, the
      ObjectId marker for a MongoDB foreign key, unique, updatedAt, and one
      default for a truthy default, which is `auto()` for a MongoDB id. */
  lemma ScalarAttributesPresence(field: Field, provider: DataSourceProvider)
    requires field.ScalarField?
    ensures var l := ScalarAttributeList(field, provider);
      && (IdAttr in l <==> field.isId)
      && (ObjectIdAttr in l <==> provider == MongoDB && field.isForeignKey)
      && (UniqueAttr in l <==> field.isUnique)
      && (UpdatedAtAttr in l <==> field.isUpdatedAt)
      && (DefaultAttr(field.defaultValue) in l <==> DefaultIsTruthy(field.defaultValue) && !(provider == MongoDB && field.isId))
      && (AutoDefaultAttr in l <==> DefaultIsTruthy(field.defaultValue) && provider == MongoDB && field.isId)
      && (forall a :: a in l && a.DefaultAttr? ==> a == DefaultAttr(field.defaultValue))
  {
    AttributeParts(field, provider);
    var mongo := provider == MongoDB;
    var d := DefaultAttributes(field, provider);
    forall a ensures a in d <==> (DefaultIsTruthy(field.defaultValue) &&
      ((a == DefaultAttr(field.defaultValue) && !(mongo && field.isId)) || (a == AutoDefaultAttr && mongo && field.isId)))
    {
      OptionalMember(!mongo || !field.isId, DefaultAttr(field.defaultValue), a);
      OptionalMember(mongo && field.isId, AutoDefaultAttr, a);
    }
    forall a ensures a in ScalarAttributeList(field, provider) <==>
      (field.isId && a == IdAttr) || (mongo && field.isForeignKey && a == ObjectIdAttr)
      || (field.isUnique && a == UniqueAttr) || (field.isUpdatedAt && a == UpdatedAtAttr) || a in d
    {
      OptionalMember(field.isId, IdAttr, a);
      OptionalMember(mongo && field.isForeignKey, ObjectIdAttr, a);
      OptionalMember(field.isUnique, UniqueAttr, a);
      OptionalMember(field.isUpdatedAt, UpdatedAtAttr, a);
    }
  }

  /** The ranks of a list of attributes strictly increase. */
  predicate Ranked(attributes: seq<ScalarAttribute>) {
    forall i, j :: 0 <= i < j < |attributes| ==> attributes[i].Rank() < attributes[j].Rank()
  }

  /** A ranked list below rank `k`, followed by at most one attribute of rank
      `k`, is a ranked list below rank `k + 1`. */
  lemma RankedAppend(a: seq<ScalarAttribute>, b: seq<ScalarAttribute>, k: nat)
    requires Ranked(a) && forall x :: x in a ==> x.Rank() < k
    requires |b| <= 1 && forall y :: y in b ==> y.Rank() == k
    ensures Ranked(a + b) && forall x :: x in a + b ==> x.Rank() < k + 1
  {
    if |b| == 1 {
      assert b[0] in b;
      forall i, j | 0 <= i < j < |a + b| ensures (a + b)[i].Rank() < (a + b)[j].Rank() {
        if j == |a| {
          assert (a + b)[i] in a;
        }
      }
    } else {
      assert a + b == a;
    }
  }

  /** The attributes come in the fixed order id, ObjectId, unique, updatedAt,
      default, each at most once. */
  lemma {:induction false} ScalarAttributesOrdered(field: Field, provider: DataSourceProvider)
    requires field.ScalarField?
    ensures Ranked(ScalarAttributeList(field, provider))
  {
    AttributeParts(field, provider);
    var a0 := Optional(field.isId, IdAttr);
    var a1 := Optional(provider == MongoDB && field.isForeignKey, ObjectIdAttr);
    var a2 := Optional(field.isUnique, UniqueAttr);
    var a3 := Optional(field.isUpdatedAt, UpdatedAtAttr);
    var a4 := DefaultAttributes(field, provider);
    OptionalAtMostOne(field.isId, IdAttr);
    OptionalAtMostOne(provider == MongoDB && field.isForeignKey, ObjectIdAttr);
    OptionalAtMostOne(field.isUnique, UniqueAttr);
    OptionalAtMostOne(field.isUpdatedAt, UpdatedAtAttr);
    DefaultAttributesRank(field, provider);
    RankedAppend([], a0, 0);
    assert [] + a0 == a0;
    RankedAppend(a0, a1, 1);
    RankedAppend(a0 + a1, a2, 2);
    RankedAppend(a0 + a1 + a2, a3, 3);
    RankedAppend(a0 + a1 + a2 + a3, a4, 4);
  }

  lemma OptionalAtMostOne<T>(present: bool, x: T)
    ensures |Optional(present, x)| <= 1 && forall y :: y in Optional(present, x) ==> y == x
  {
  }

  /** A field has at most one default attribute, of the default's rank. */
  lemma DefaultAttributesRank(field: Field, provider: DataSourceProvider)
    requires field.ScalarField?
    ensures var d := DefaultAttributes(field, provider);
      |d| <= 1 && forall y :: y in d ==> y.Rank() == 4
  {
    var mongo := provider == MongoDB;
    if DefaultIsTruthy(field.defaultValue) {
      var d := DefaultAttributes(field, provider);
      if mongo && field.isId {
        assert d == [AutoDefaultAttr];
      } else {
        assert d == [DefaultAttr(field.defaultValue)];
      }
    }
  }

  /** A field line: name, printed type and attributes, the empty ones left
      out, separated by single spaces. */
  function FieldLine(name: string, typeText: string, attributes: seq<string>): string {
    JoinNonEmpty([name, typeText, Join(attributes, " ")], " ")
  }

  /** `printScalarField`. */
  function PrintScalarField(field: Field, provider: DataSourceProvider): string
    requires field.ScalarField?
  {
    FieldLine(field.name, TypeText(field), ScalarAttributes(field, provider))
  }

  /** The relation of an object field is printed when it has a truthy name or
      a non-empty column list. */
  predicate HasRelation(field: Field)
    requires field.ObjectField?
  {
    Truthy(field.relationName) || |field.relationToFields| > 0 || |field.relationToReferences| > 0
  }

  /** A referential action argument; only `NONE` is left out, and an absent
      action prints as `undefined`. */
  function ActionArgument(keyword: string, action: Option<ReferentialAction>): string {
    if action == Some(NONE) then ""
    else keyword + ": " + (if action.Some? then action.value.Text() else "undefined")
  }

  function NameArgument(name: string): string {
    "name: \"" + name + "\""
  }

  /** A column list argument: the names joined by commas without spaces. */
  function ColumnsArgument(keyword: string, columns: seq<string>): string {
    keyword + ": [" + Join(columns, ",") + "]"
  }

  /** The arguments of `@relation(...)`: name, fields, references, onDelete,
      onUpdate, each only when present. */
  function RelationArguments(field: Field): (r: seq<string>)
    requires field.ObjectField?
    ensures r ==
      (if Truthy(field.relationName) then [NameArgument(field.relationName.value)] else [])
      + (if |field.relationToFields| > 0 then [ColumnsArgument("fields", field.relationToFields)] else [])
      + (if |field.relationToReferences| > 0 then [ColumnsArgument("references", field.relationToReferences)] else [])
      + (if field.relationOnDelete != Some(NONE) then [ActionArgument("onDelete", field.relationOnDelete)] else [])
      + (if field.relationOnUpdate != Some(NONE) then [ActionArgument("onUpdate", field.relationOnUpdate)] else [])
  {
    var parts := [
      if Truthy(field.relationName) then NameArgument(field.relationName.value) else "",
      if |field.relationToFields| > 0 then ColumnsArgument("fields", field.relationToFields) else "",
      if |field.relationToReferences| > 0 then ColumnsArgument("references", field.relationToReferences) else "",
      ActionArgument("onDelete", field.relationOnDelete),
      ActionArgument("onUpdate", field.relationOnUpdate)];
    NonEmptyFive(parts);
    NonEmpty(parts)
  }

  /** `filter(Boolean)` on five parts keeps exactly the non-empty ones, in order. */
  lemma NonEmptyFive(parts: seq<string>)
    requires |parts| == 5
    ensures NonEmpty(parts) ==
      (if parts[0] != "" then [parts[0]] else []) + (if parts[1] != "" then [parts[1]] else [])
      + (if parts[2] != "" then [parts[2]] else []) + (if parts[3] != "" then [parts[3]] else [])
      + (if parts[4] != "" then [parts[4]] else [])
  {
    var k0 := if parts[0] != "" then [parts[0]] else [];
    var k1 := if parts[1] != "" then [parts[1]] else [];
    var k2 := if parts[2] != "" then [parts[2]] else [];
    var k3 := if parts[3] != "" then [parts[3]] else [];
    var k4 := if parts[4] != "" then [parts[4]] else [];
    assert NonEmpty(parts[2..]) == k2 + (k3 + k4) by {
      NonEmptyLastThree(parts);
    }
    assert NonEmpty(parts[1..]) == k1 + (k2 + (k3 + k4)) by {
      assert parts[1..] == [parts[1]] + parts[2..];
      NonEmptyCons(parts[1], parts[2..]);
    }
    assert NonEmpty(parts) == k0 + (k1 + (k2 + (k3 + k4))) by {
      assert parts == [parts[0]] + parts[1..];
      NonEmptyCons(parts[0], parts[1..]);
    }
    ConcatFive(k0, k1, k2, k3, k4);
  }

  lemma NonEmptyLastThree(parts: seq<string>)
    requires |parts| == 5
    ensures NonEmpty(parts[2..]) ==
      (if parts[2] != "" then [parts[2]] else []) + ((if parts[3] != "" then [parts[3]] else [])
      + (if parts[4] != "" then [parts[4]] else []))
  {
    var k4 := if parts[4] != "" then [parts[4]] else [];
    assert NonEmpty(parts[4..]) == k4 by {
      assert parts[4..] == [parts[4]] + [];
      NonEmptyCons(parts[4], []);
    }
    assert NonEmpty(parts[3..]) == (if parts[3] != "" then [parts[3]] else []) + k4 by {
      assert parts[3..] == [parts[3]] + parts[4..];
      NonEmptyCons(parts[3], parts[4..]);
    }
    assert parts[2..] == [parts[2]] + parts[3..];
    NonEmptyCons(parts[2], parts[3..]);
  }

  lemma ConcatFive(a: seq<string>, b: seq<string>, c: seq<string>, d: seq<string>, e: seq<string>)
    ensures a + (b + (c + (d + e))) == a + b + c + d + e
  {
  }

  /** `printRelation`. */
  function PrintRelation(field: Field): string
    requires field.ObjectField?
  {
    "@relation(" + Join(RelationArguments(field), ", ") + ")"
  }

  /** The attributes of an object field: its relation, when it has one. */
  function ObjectAttributes(field: Field): (r: seq<string>)
    requires field.ObjectField?
    ensures |r| <= 1
    ensures |r| == 1 <==>
      Truthy(field.relationName) || |field.relationToFields| > 0 || |field.relationToReferences| > 0
    ensures |r| == 1 ==> StartsWith(r[0], "@relation(") && r[0][|r[0]| - 1] == ')'
  {
    if HasRelation(field) then [PrintRelation(field)] else []
  }

  /** `printObjectField`. */
  function PrintObjectField(field: Field): string
    requires field.ObjectField?
  {
    FieldLine(field.name, TypeText(field), ObjectAttributes(field))
  }

  /** The attributes printed after a field's type. */
  function FieldAttributes(field: Field, provider: DataSourceProvider): seq<string> {
    if field.ScalarField? then ScalarAttributes(field, provider) else ObjectAttributes(field)
  }

  /** `printField`: the documentation line, then the field line. */
  function PrintField(field: Field, provider: DataSourceProvider): string {
    WithDocumentation(field.documentation,
      if field.ScalarField? then PrintScalarField(field, provider) else PrintObjectField(field))
  }

  /** The words of a field line are the name, the printed type and the words
      of the attributes: no attributes leaves no trailing space. */
  lemma FieldLineWords(name: string, typeText: string, attributes: seq<string>)
    requires name != "" && typeText != "" && ' ' !in name && ' ' !in typeText
    requires forall i :: 0 <= i < |attributes| ==> attributes[i] != ""
    ensures Split(FieldLine(name, typeText, attributes), " ") == [name, typeText] + SplitAll(attributes, " ")
  {
    if |attributes| == 0 {
      assert SplitAll(attributes, " ") == [];
      FieldLineWordsBare(name, typeText);
    } else {
      FieldLineWordsAttributed(name, typeText, attributes);
    }
  }

  lemma FieldLineWordsBare(name: string, typeText: string)
    requires name != "" && typeText != "" && ' ' !in name && ' ' !in typeText
    ensures Split(FieldLine(name, typeText, []), " ") == [name, typeText]
  {
    assert FieldLine(name, typeText, []) == Join([name, typeText], " ") by {
      assert [name, typeText, Join([], " ")] == [name, typeText, ""];
      NonEmptyThree(name, typeText, "");
    }
    WordsOfTwo(name, typeText);
  }

  lemma FieldLineWordsAttributed(name: string, typeText: string, attributes: seq<string>)
    requires name != "" && typeText != "" && ' ' !in name && ' ' !in typeText
    requires |attributes| > 0 && forall i :: 0 <= i < |attributes| ==> attributes[i] != ""
    ensures Split(FieldLine(name, typeText, attributes), " ") == [name, typeText] + SplitAll(attributes, " ")
  {
    var attrs := Join(attributes, " ");
    assert attrs != "" by {
      JoinOfNonEmptyParts(attributes, " ");
    }
    assert FieldLine(name, typeText, attributes) == Join([name, typeText, attrs], " ") by {
      NonEmptyThree(name, typeText, attrs);
    }
    assert Split(Join([name, typeText, attrs], " "), " ") == [name, typeText] + Split(attrs, " ") by {
      WordsOfThree(name, typeText, attrs);
    }
    SplitJoin(attributes, " ");
  }

  lemma NonEmptyThree(a: string, b: string, c: string)
    requires a != "" && b != ""
    ensures c == "" ==> NonEmpty([a, b, c]) == [a, b]
    ensures c != "" ==> NonEmpty([a, b, c]) == [a, b, c]
  {
    NonEmptyCons(c, []);
    NonEmptyCons(b, [c]);
    NonEmptyCons(a, [b, c]);
    assert [a, b, c] == [a] + [b, c];
    assert [b, c] == [b] + [c];
  }

  lemma WordsOfTwo(a: string, b: string)
    requires ' ' !in a && ' ' !in b
    ensures Split(Join([a, b], " "), " ") == [a, b]
  {
    JoinPair(a, b, " ");
    SplitConcat(a, b, " ");
    SplitNoSeparator(a, " ");
    SplitNoSeparator(b, " ");
  }

  lemma WordsOfThree(a: string, b: string, c: string)
    requires ' ' !in a && ' ' !in b
    ensures Split(Join([a, b, c], " "), " ") == [a, b] + Split(c, " ")
  {
    assert [a, b, c][1..] == [b, c];
    JoinPair(b, c, " ");
    assert Join([a, b, c], " ") == a + " " + (b + " " + c);
    SplitConcat(a, b + " " + c, " ");
    SplitConcat(b, c, " ");
    SplitNoSeparator(a, " ");
    SplitNoSeparator(b, " ");
  }

  /** The words of a printed field (without documentation): name, type with
      modifiers, then the attribute words. */
  lemma FieldWords(field: Field, provider: DataSourceProvider)
    requires field.name != "" && field.fieldType != "" && ' ' !in field.name && ' ' !in field.fieldType
    ensures field.ScalarField? ==>
      Split(PrintScalarField(field, provider), " ") == [field.name, TypeText(field)] + SplitAll(ScalarAttributes(field, provider), " ")
    ensures field.ObjectField? ==>
      Split(PrintObjectField(field), " ") == [field.name, TypeText(field)] + SplitAll(ObjectAttributes(field), " ")
  {
    var mods := PrintFieldModifiers(field.isList, field.isRequired);
    assert ' ' !in mods by {
      JoinAvoids((if field.isList then ["[]"] else []) + (if !field.isRequired then ["?"] else []), "", ' ');
    }
    if field.ScalarField? {
      FieldLineWords(field.name, TypeText(field), ScalarAttributes(field, provider));
    } else {
      FieldLineWords(field.name, TypeText(field), ObjectAttributes(field));
    }
  }

  // ---------------------------------------------------------------------------
  // model
  // ---------------------------------------------------------------------------

  /** `safeMergeArguments`: the truthy arguments joined by `, `. */
  function SafeMergeArguments(arguments: seq<string>): string {
    JoinNonEmpty(arguments, ", ")
  }

  /** What a sort order adds after an index field's name. */
  function SortSuffix(sort: Option<SortOrder>): string {
    match sort
    case None => ""
    case Some(Asc) => "(sort: Asc)"
    case Some(Desc) => "(sort: Desc)"
  }

  /** An index field: its name, then the sort order with its first letter
      upper-cased as the only argument, when there is one. */
  function IndexFieldText(field: IndexField): (r: string)
    ensures r == field.name + SortSuffix(field.sort)
  {
    var argument := if field.sort.Some? then "sort: " + CapitalizeAscii(field.sort.value.Text()) else "";
    NonEmptyCons(argument, []);
    var arguments := SafeMergeArguments([argument]);
    field.name + (if arguments != "" then "(" + arguments + ")" else "")
  }

  /** `@@index(...)` for one index: the fields joined by commas without spaces. */
  function IndexAttribute(index: Index): string {
    "@@index(fields: [" + Join(seq(|index.fields|, i requires 0 <= i < |index.fields| => IndexFieldText(index.fields[i])), ",") + "])"
  }

  /** `@@fulltext(...)` for one full-text index: the fields joined by comma and space. */
  function FullTextAttribute(index: FullTextIndex): (r: string)
    ensures r == "@@fulltext(fields: [" + Join(index.fields, ", ") + "])"
  {
    var fields := "fields: [" + Join(index.fields, ", ") + "]";
    NonEmptyCons(fields, []);
    "@@fulltext(" + SafeMergeArguments([fields]) + ")"
  }

  function IndexAttributes(indexes: seq<Index>): (r: seq<string>)
    ensures |r| == |indexes| && forall i :: 0 <= i < |indexes| ==> r[i] == IndexAttribute(indexes[i])
  {
    seq(|indexes|, i requires 0 <= i < |indexes| => IndexAttribute(indexes[i]))
  }

  function FullTextAttributes(indexes: seq<FullTextIndex>): (r: seq<string>)
    ensures |r| == |indexes| && forall i :: 0 <= i < |indexes| ==> r[i] == FullTextAttribute(indexes[i])
  {
    seq(|indexes|, i requires 0 <= i < |indexes| => FullTextAttribute(indexes[i]))
  }

  /** The prefix a model attribute gets when `prependNewLines` is set. */
  function NewLinesPrefix(prependNewLines: bool): string {
    if prependNewLines then "\n\n" else ""
  }

  /** `printModelMap`. */
  function PrintModelMap(name: string, prependNewLines: bool := false): string {
    NewLinesPrefix(prependNewLines) + "@@map(\"" + name + "\")"
  }

  /** `printModelIndexes`: each index prefixed, then joined by newlines. */
  function PrintModelIndexes(indexes: seq<Index>, prependNewLines: bool := false): string {
    Join(Indent(IndexAttributes(indexes), NewLinesPrefix(prependNewLines)), "\n")
  }

  /** `printModelFullTextIndexes`: each full-text index prefixed, then joined by newlines. */
  function PrintModelFullTextIndexes(indexes: seq<FullTextIndex>, prependNewLines: bool := false): string {
    Join(Indent(FullTextAttributes(indexes), NewLinesPrefix(prependNewLines)), "\n")
  }

  function ModelHeader(model: Model): string {
    "model " + model.name + " {"
  }

  /** The printed fields of a model, in order. */
  function FieldTexts(fields: seq<Field>, provider: DataSourceProvider): (r: seq<string>)
    ensures |r| == |fields| && forall i :: 0 <= i < |fields| ==> r[i] == PrintField(fields[i], provider)
  {
    seq(|fields|, i requires 0 <= i < |fields| => PrintField(fields[i], provider))
  }

  /** The `@@map` attribute a truthy mapped name adds. */
  function MapAttributes(model: Model): seq<string> {
    if Truthy(model.mappedName) then ["@@map(\"" + model.mappedName.value + "\")"] else []
  }

  /** `printModel`: header, fields, then the map, index and full-text
      attributes, each prefixed by a blank line, then the closing brace. The
      provider defaults to PostgreSQL. */
  function PrintModel(model: Model, provider: DataSourceProvider := PostgreSQL): string {
    WithDocumentation(model.documentation, ModelHeader(model) + "\n" + ModelBody(model, provider) + "\n" + "}")
  }

  /** What a model prints between its header and its closing brace: the
      fields joined by newlines, then the map, index and full-text sections. */
  function ModelBody(model: Model, provider: DataSourceProvider): string {
    var fieldTexts := Join(FieldTexts(model.fields, provider), "\n");
    var mapText := if Truthy(model.mappedName) then PrintModelMap(model.mappedName.value, true) else "";
    var indexes := if model.indexes.Some? then PrintModelIndexes(model.indexes.value, true) else "";
    var fullTextIndexes := if model.fullTextIndexes.Some? then PrintModelFullTextIndexes(model.fullTextIndexes.value, true) else "";
    fieldTexts + mapText + indexes + fullTextIndexes
  }

  /** Blank lines around attributes: two before each. */
  function BlankLinesBefore(attributes: seq<string>): seq<string> {
    if |attributes| == 0 then [] else ["", "", attributes[0]] + BlankLinesBefore(attributes[1..])
  }

  /** The lines a section of `\n\n`-prefixed attributes adds after the line
      it follows: one blank line before its first attribute, two before every
      later one. */
  function SectionLines(attributes: seq<string>): seq<string> {
    if |attributes| == 0 then [] else ["", attributes[0]] + BlankLinesBefore(attributes[1..])
  }

  /** The printed section of a list of attributes prefixed by two newlines. */
  function Section(attributes: seq<string>): string {
    Join(Indent(attributes, "\n\n"), "\n")
  }

  lemma {:induction false} SectionPieces(attributes: seq<string>)
    requires forall i :: 0 <= i < |attributes| ==> OneLine(attributes[i])
    ensures SplitAll(Indent(attributes, "\n\n"), "\n") == BlankLinesBefore(attributes)
    decreases |attributes|
  {
    if |attributes| > 0 {
      var a := attributes[0];
      assert "\n\n" + a == "" + "\n" + ("" + "\n" + a);
      LinesAppend("", "" + "\n" + a);
      LinesAppend("", a);
      LinesSingle("");
      LinesSingle(a);
      assert Indent(attributes, "\n\n")[1..] == Indent(attributes[1..], "\n\n");
      SectionPieces(attributes[1..]);
    }
  }

  /** A section is its first attribute after two newlines, then the rest. */
  lemma SectionCons(attributes: seq<string>)
    requires |attributes| > 0
    ensures |attributes| == 1 ==> Section(attributes) == "\n\n" + attributes[0]
    ensures |attributes| > 1 ==> Section(attributes) == "\n\n" + attributes[0] + "\n" + Section(attributes[1..])
  {
    assert Indent(attributes, "\n\n")[1..] == Indent(attributes[1..], "\n\n");
  }

  /** A section appended to a text: the text's lines, then the section's. */
  lemma SectionAfter(text: string, attributes: seq<string>)
    requires forall i :: 0 <= i < |attributes| ==> OneLine(attributes[i])
    ensures Lines(text + Section(attributes)) == Lines(text) + SectionLines(attributes)
  {
    if |attributes| == 0 {
      assert text + Section(attributes) == text;
    } else if |attributes| == 1 {
      SectionOfOneAfter(text, attributes[0]);
      assert attributes == [attributes[0]];
    } else {
      SectionOfManyAfter(text, attributes);
    }
  }

  lemma SectionOfOneAfter(text: string, attribute: string)
    requires OneLine(attribute)
    ensures Lines(text + Section([attribute])) == Lines(text) + SectionLines([attribute])
  {
    SectionCons([attribute]);
    assert text + Section([attribute]) == text + "\n\n" + attribute;
    LinesAfterBlank(text, attribute);
    LinesSingle(attribute);
    assert [attribute][1..] == [];
    assert SectionLines([attribute]) == ["", attribute];
  }

  lemma SectionOfManyAfter(text: string, attributes: seq<string>)
    requires |attributes| > 1
    requires forall i :: 0 <= i < |attributes| ==> OneLine(attributes[i])
    ensures Lines(text + Section(attributes)) == Lines(text) + SectionLines(attributes)
  {
    var a, rest := attributes[0], attributes[1..];
    var tail := Section(rest);
    assert text + Section(attributes) == text + "\n\n" + (a + "\n" + tail) by {
      SectionCons(attributes);
    }
    assert Lines(text + "\n\n" + (a + "\n" + tail)) == Lines(text) + [""] + Lines(a + "\n" + tail) by {
      LinesAfterBlank(text, a + "\n" + tail);
    }
    assert Lines(a + "\n" + tail) == [a] + BlankLinesBefore(rest) by {
      LinesAppend(a, tail);
      LinesSingle(a);
      SectionTailLines(rest);
    }
    LinesRegroup(Lines(text), a, BlankLinesBefore(rest));
  }

  /** The lines of a non-empty section without its leading line break. */
  lemma SectionTailLines(attributes: seq<string>)
    requires |attributes| > 0
    requires forall i :: 0 <= i < |attributes| ==> OneLine(attributes[i])
    ensures Lines(Section(attributes)) == BlankLinesBefore(attributes)
  {
    SplitJoin(Indent(attributes, "\n\n"), "\n");
    SectionPieces(attributes);
  }

  lemma LinesRegroup(before: seq<string>, a: string, after: seq<string>)
    ensures before + [""] + ([a] + after) == before + (["", a] + after)
  {
  }

  /** Two newlines open a blank line between a text and what follows. */
  lemma LinesAfterBlank(text: string, rest: string)
    ensures Lines(text + "\n\n" + rest) == Lines(text) + [""] + Lines(rest)
  {
    assert text + "\n\n" + rest == text + "\n" + ("" + "\n" + rest);
    LinesAppend(text, "" + "\n" + rest);
    LinesAppend("", rest);
    LinesSingle("");
  }

  /** The `@@index` attributes of a model, none when it has no index list. */
  function IndexAttributesOf(model: Model): seq<string> {
    if model.indexes.Some? then IndexAttributes(model.indexes.value) else []
  }

  /** The `@@fulltext` attributes of a model, none when it has no full-text index list. */
  function FullTextAttributesOf(model: Model): seq<string> {
    if model.fullTextIndexes.Some? then FullTextAttributes(model.fullTextIndexes.value) else []
  }

  /** The names a model prints inside its attribute lines hold no newline. */
  predicate ModelNamesOneLine(model: Model) {
    && OneLine(model.name)
    && (model.documentation.Some? ==> OneLine(model.documentation.value))
    && (model.mappedName.Some? ==> OneLine(model.mappedName.value))
    && (model.indexes.Some? ==> forall i :: 0 <= i < |model.indexes.value| ==> IndexOneLine(model.indexes.value[i]))
    && (model.fullTextIndexes.Some? ==>
          forall i :: 0 <= i < |model.fullTextIndexes.value| ==> FullTextOneLine(model.fullTextIndexes.value[i]))
  }

  predicate IndexOneLine(index: Index) {
    forall j :: 0 <= j < |index.fields| ==> OneLine(index.fields[j].name)
  }

  predicate FullTextOneLine(index: FullTextIndex) {
    forall j :: 0 <= j < |index.fields| ==> OneLine(index.fields[j])
  }

  /** The lines of a model's fields: one empty line when there is none. */
  function FieldLines(fieldTexts: seq<string>): seq<string> {
    if |fieldTexts| == 0 then [""] else SplitAll(fieldTexts, "\n")
  }

  lemma IndexAttributeOneLine(index: Index)
    requires IndexOneLine(index)
    ensures OneLine(IndexAttribute(index))
  {
    var texts := seq(|index.fields|, i requires 0 <= i < |index.fields| => IndexFieldText(index.fields[i]));
    forall i | 0 <= i < |texts| ensures '\n' !in texts[i] {
      var f := index.fields[i];
      assert '\n' !in SortSuffix(f.sort) by {
        match f.sort
        case None =>
        case Some(Asc) => assert SortSuffix(f.sort) == "(sort: Asc)";
        case Some(Desc) => assert SortSuffix(f.sort) == "(sort: Desc)";
      }
    }
    JoinAvoids(texts, ",", '\n');
  }

  lemma FullTextAttributeOneLine(index: FullTextIndex)
    requires FullTextOneLine(index)
    ensures OneLine(FullTextAttribute(index))
  {
    JoinAvoids(index.fields, ", ", '\n');
  }

  /** Every attribute line after a model's fields is a single line. */
  lemma ModelAttributesOneLine(model: Model)
    requires ModelNamesOneLine(model)
    ensures forall i :: 0 <= i < |MapAttributes(model)| ==> OneLine(MapAttributes(model)[i])
    ensures forall i :: 0 <= i < |IndexAttributesOf(model)| ==> OneLine(IndexAttributesOf(model)[i])
    ensures forall i :: 0 <= i < |FullTextAttributesOf(model)| ==> OneLine(FullTextAttributesOf(model)[i])
  {
    if model.indexes.Some? {
      forall i | 0 <= i < |model.indexes.value| ensures OneLine(IndexAttributesOf(model)[i]) {
        IndexAttributeOneLine(model.indexes.value[i]);
      }
    }
    if model.fullTextIndexes.Some? {
      forall i | 0 <= i < |model.fullTextIndexes.value| ensures OneLine(FullTextAttributesOf(model)[i]) {
        FullTextAttributeOneLine(model.fullTextIndexes.value[i]);
      }
    }
  }

  /** The text a model prints after its fields is its three attribute sections. */
  lemma ModelBodySections(model: Model, provider: DataSourceProvider)
    ensures ModelBody(model, provider) == Join(FieldTexts(model.fields, provider), "\n")
      + Section(MapAttributes(model)) + Section(IndexAttributesOf(model)) + Section(FullTextAttributesOf(model))
  {
    ModelSections(model);
  }

  lemma ModelSections(model: Model)
    ensures (if Truthy(model.mappedName) then PrintModelMap(model.mappedName.value, true) else "")
      == Section(MapAttributes(model))
    ensures (if model.indexes.Some? then PrintModelIndexes(model.indexes.value, true) else "")
      == Section(IndexAttributesOf(model))
    ensures (if model.fullTextIndexes.Some? then PrintModelFullTextIndexes(model.fullTextIndexes.value, true) else "")
      == Section(FullTextAttributesOf(model))
  {
    if Truthy(model.mappedName) {
      SectionCons(MapAttributes(model));
    }
  }

  /** The body of a model: the field lines, then each attribute section. */
  lemma ModelBodyLines(fieldTexts: seq<string>, maps: seq<string>, indexes: seq<string>, fullTexts: seq<string>)
    requires forall i :: 0 <= i < |maps| ==> OneLine(maps[i])
    requires forall i :: 0 <= i < |indexes| ==> OneLine(indexes[i])
    requires forall i :: 0 <= i < |fullTexts| ==> OneLine(fullTexts[i])
    ensures Lines(Join(fieldTexts, "\n") + Section(maps) + Section(indexes) + Section(fullTexts)) ==
      FieldLines(fieldTexts) + SectionLines(maps) + SectionLines(indexes) + SectionLines(fullTexts)
  {
    var fields := Join(fieldTexts, "\n");
    if |fieldTexts| == 0 {
      assert Lines(fields) == [""] by {
        LinesSingle("");
      }
    } else {
      SplitJoin(fieldTexts, "\n");
    }
    SectionAfter(fields, maps);
    SectionAfter(fields + Section(maps), indexes);
    SectionAfter(fields + Section(maps) + Section(indexes), fullTexts);
  }

  /** The lines of a printed model: its documentation line, the header, the
      lines of its fields, a blank line before the map attribute, before the
      first index and before the first full-text index, two blank lines
      between consecutive indexes, and the closing brace. */
  lemma ModelLines(model: Model, provider: DataSourceProvider)
    requires ModelNamesOneLine(model)
    ensures Lines(PrintModel(model, provider)) ==
      DocLines(model.documentation) + [ModelHeader(model)]
      + (FieldLines(FieldTexts(model.fields, provider))
         + SectionLines(MapAttributes(model)) + SectionLines(IndexAttributesOf(model))
         + SectionLines(FullTextAttributesOf(model)))
      + ["}"]
  {
    assert Lines(PrintModel(model, provider)) ==
      DocLines(model.documentation) + [ModelHeader(model)] + Lines(ModelBody(model, provider)) + ["}"] by {
      OneLineAround("model ", model.name, " {");
      BlockLines(model.documentation, ModelHeader(model), ModelBody(model, provider));
    }
    ModelBodyLinesOf(model, provider);
  }

  lemma ModelBodyLinesOf(model: Model, provider: DataSourceProvider)
    requires ModelNamesOneLine(model)
    ensures Lines(ModelBody(model, provider)) ==
      FieldLines(FieldTexts(model.fields, provider))
      + SectionLines(MapAttributes(model)) + SectionLines(IndexAttributesOf(model))
      + SectionLines(FullTextAttributesOf(model))
  {
    ModelBodySections(model, provider);
    ModelAttributesOneLine(model);
    ModelBodyLines(FieldTexts(model.fields, provider), MapAttributes(model), IndexAttributesOf(model),
      FullTextAttributesOf(model));
  }

  /** A documented block: the documentation line, the header, the body's lines, the closing brace. */
  lemma BlockLines(documentation: Option<string>, header: string, body: string)
    requires documentation.Some? ==> OneLine(documentation.value)
    requires OneLine(header)
    ensures Lines(WithDocumentation(documentation, header + "\n" + body + "\n" + "}")) ==
      DocLines(documentation) + [header] + Lines(body) + ["}"]
  {
    LinesAround(header, body, "}");
    DocumentedLines(documentation, header + "\n" + body + "\n" + "}");
  }

  // ---------------------------------------------------------------------------
  // Schema
  // ---------------------------------------------------------------------------

  /** One top-level block of a printed schema. */
  datatype Statement =
    | DataSourceBlock(dataSource: DataSource)
    | GeneratorBlock(generator: Generator)
    | ModelBlock(model: Model)
    | EnumBlock(enum: Enum)
  {
    /** The block printed; models are printed for `provider`. */
    function Text(provider: DataSourceProvider): string {
      match this
      case DataSourceBlock(d) => PrintDataSource(d)
      case GeneratorBlock(g) => PrintGenerator(g)
      case ModelBlock(m) => PrintModel(m, provider)
      case EnumBlock(e) => PrintEnum(e)
    }
  }

  /** Every printed block ends with a closing brace, so none is empty. */
  lemma StatementTextNonEmpty(statement: Statement, provider: DataSourceProvider)
    ensures statement.Text(provider) != ""
  {
    match statement
    case DataSourceBlock(d) =>
      assert |PrintDataSource(d)| > 0;
    case GeneratorBlock(g) =>
      assert |PrintGenerator(g)| > 0;
    case ModelBlock(m) =>
      assert |ModelHeader(m) + "\n" + ModelBody(m, provider) + "\n" + "}"| > 0;
    case EnumBlock(e) =>
      assert |EnumHeader(e) + "\n" + Join(e.values, "\n") + "\n" + "}"| > 0;
  }

  /** The blocks `print` emits, in its order. */
  function StatementList(schema: Schema): seq<Statement> {
    (if schema.dataSource.Some? then [DataSourceBlock(schema.dataSource.value)] else [])
    + GeneratorBlocks(schema.generators) + ModelBlocks(schema.models) + EnumBlocks(schema.enums)
  }

  function GeneratorBlocks(generators: seq<Generator>): (r: seq<Statement>)
    ensures |r| == |generators| && forall i :: 0 <= i < |generators| ==> r[i] == GeneratorBlock(generators[i])
  {
    seq(|generators|, i requires 0 <= i < |generators| => GeneratorBlock(generators[i]))
  }

  function ModelBlocks(models: seq<Model>): (r: seq<Statement>)
    ensures |r| == |models| && forall i :: 0 <= i < |models| ==> r[i] == ModelBlock(models[i])
  {
    seq(|models|, i requires 0 <= i < |models| => ModelBlock(models[i]))
  }

  function EnumBlocks(enums: seq<Enum>): (r: seq<Statement>)
    ensures |r| == |enums| && forall i :: 0 <= i < |enums| ==> r[i] == EnumBlock(enums[i])
  {
    seq(|enums|, i requires 0 <= i < |enums| => EnumBlock(enums[i]))
  }

  /** The blocks in order: the data source when there is one, every
      generator, every model, every enum, and nothing else. */
  lemma StatementsOrder(schema: Schema)
    ensures var r := StatementList(schema);
      var d := if schema.dataSource.Some? then 1 else 0;
      var g := |schema.generators|;
      var m := |schema.models|;
      && |r| == d + g + m + |schema.enums|
      && (schema.dataSource.Some? ==> r[0] == DataSourceBlock(schema.dataSource.value))
      && (forall i :: 0 <= i < g ==> r[d + i] == GeneratorBlock(schema.generators[i]))
      && (forall i :: 0 <= i < m ==> r[d + g + i] == ModelBlock(schema.models[i]))
      && (forall i :: 0 <= i < |schema.enums| ==> r[d + g + m + i] == EnumBlock(schema.enums[i]))
  {
    var r := StatementList(schema);
    var a := if schema.dataSource.Some? then [DataSourceBlock(schema.dataSource.value)] else [];
    var b, c, e := GeneratorBlocks(schema.generators), ModelBlocks(schema.models), EnumBlocks(schema.enums);
    assert r == a + b + c + e;
    var d, g, m := |a|, |b|, |c|;
    assert d == (if schema.dataSource.Some? then 1 else 0);
    assert g == |schema.generators| && m == |schema.models| && |e| == |schema.enums|;
    ConcatIndex(a, b, c, e);
    forall i | 0 <= i < g ensures r[d + i] == GeneratorBlock(schema.generators[i]) {
      assert r[d + i] == b[i];
    }
    forall i | 0 <= i < m ensures r[d + g + i] == ModelBlock(schema.models[i]) {
      assert r[d + g + i] == c[i];
    }
    forall i | 0 <= i < |e| ensures r[d + g + m + i] == EnumBlock(schema.enums[i]) {
      assert r[d + g + m + i] == e[i];
    }
  }

  /** Where the parts of a four-part concatenation sit. */
  lemma ConcatIndex<T>(a: seq<T>, b: seq<T>, c: seq<T>, d: seq<T>)
    ensures var r := a + b + c + d;
      && |r| == |a| + |b| + |c| + |d|
      && (forall i :: 0 <= i < |a| ==> r[i] == a[i])
      && (forall i :: 0 <= i < |b| ==> r[|a| + i] == b[i])
      && (forall i :: 0 <= i < |c| ==> r[|a| + |b| + i] == c[i])
      && (forall i :: 0 <= i < |d| ==> r[|a| + |b| + |c| + i] == d[i])
  {
  }

  /** The provider models are printed for: the data source's, or PostgreSQL
      (the default parameter of `printModel`) when there is none. */
  function ProviderOf(schema: Schema): DataSourceProvider {
    if schema.dataSource.Some? then schema.dataSource.value.provider else PostgreSQL
  }

  /** The printed blocks, models printed for the schema's provider. */
  function Statements(schema: Schema): (r: seq<string>)
    ensures |r| == |StatementList(schema)|
    ensures forall i :: 0 <= i < |r| ==> r[i] == StatementList(schema)[i].Text(ProviderOf(schema))
  {
    BlockTexts(StatementList(schema), ProviderOf(schema))
  }

  /** Each block printed, in order. */
  function BlockTexts(blocks: seq<Statement>, provider: DataSourceProvider): (r: seq<string>)
    ensures |r| == |blocks| && forall i :: 0 <= i < |blocks| ==> r[i] == blocks[i].Text(provider)
  {
    seq(|blocks|, i requires 0 <= i < |blocks| => blocks[i].Text(provider))
  }

  /** Printing blocks one after the other prints each part in turn. */
  lemma BlockTextsConcat(a: seq<Statement>, b: seq<Statement>, provider: DataSourceProvider)
    ensures BlockTexts(a + b, provider) == BlockTexts(a, provider) + BlockTexts(b, provider)
  {
    var l, r := BlockTexts(a + b, provider), BlockTexts(a, provider) + BlockTexts(b, provider);
    forall i | 0 <= i < |a + b| ensures l[i] == r[i] {
      if i < |a| {
        assert (a + b)[i] == a[i];
      } else {
        assert (a + b)[i] == b[i - |a|];
      }
    }
  }

  /** `print` before formatting: the statements joined by newlines. */
  function Print(schema: Schema): string {
    Join(Statements(schema), "\n")
  }

  /** The printed schema is its statements' lines one after the other, and
      is empty exactly when the schema has nothing to print. */
  lemma PrintLines(schema: Schema)
    ensures |Statements(schema)| > 0 ==> Lines(Print(schema)) == SplitAll(Statements(schema), "\n")
    ensures Print(schema) == "" <==>
      schema.dataSource.None? && |schema.generators| == 0 && |schema.models| == 0 && |schema.enums| == 0
  {
    var statements := Statements(schema);
    if |statements| > 0 {
      SplitJoin(statements, "\n");
    }
    StatementsNonEmpty(schema);
    JoinOfNonEmptyParts(statements, "\n");
    assert |statements| == (if schema.dataSource.Some? then 1 else 0)
      + |schema.generators| + |schema.models| + |schema.enums| by {
      StatementsOrder(schema);
    }
  }

  /** Every statement is non-empty: each ends with a closing brace. */
  lemma StatementsNonEmpty(schema: Schema)
    ensures forall i :: 0 <= i < |Statements(schema)| ==> Statements(schema)[i] != ""
  {
    forall i | 0 <= i < |Statements(schema)| ensures Statements(schema)[i] != "" {
      StatementTextNonEmpty(StatementList(schema)[i], ProviderOf(schema));
    }
  }
}

=== FILE: printer_examples.dfy ===
/** The printer on the inputs of the source's own test cases, each expected
    text written as those tests build it: from the same named constants. */
module PrinterExamples {
  import opened Wrappers
  import opened Strings
  import opened Types
  import opened Printer

  const DOCUMENTATION: string := "Example Documentation"
  const ENUM_NAME: string := "ExampleEnumName"
  const ENUM_VALUE: string := "ExampleEnumValue"
  const OTHER_ENUM_VALUE: string := "ExampleOtherEnumValue"
  const FIELD_NAME: string := "exampleFieldName"
  const RELATION_FIELD_NAME: string := "exampleRelationFieldName"
  const RELATION_REFERENCE_FIELD_NAME: string := "exampleRelationReferenceFieldName"
  const OBJECT_NAME: string := "ExampleObjectName"
  const MODEL_NAME: string := "ExampleModelName"
  const GENERATOR_NAME: string := "exampleGeneratorName"
  const GENERATOR_PROVIDER: string := "exampleGeneratorProvider"
  const GENERATOR_OUTPUT: string := "example-generator-output"
  const BINARY_TARGET: string := "example-binary-target"
  const DATA_SOURCE_NAME: string := "exampleDataSource"
  const DATA_SOURCE_URL: string := "mysql://example.com"
  const RELATION_NAME: string := "exampleRelationName"
  const MODEL_MAP: string := "ExampleMappedName"

  /** A required, non-list scalar field with the given type and default. */
  function SimpleScalar(fieldType: string, defaultValue: ScalarDefault): Field {
    ScalarField(FIELD_NAME, false, true, None, fieldType, false, false, false, defaultValue, false)
  }

  /** A required, non-list object field with the given relation. */
  function SimpleObject(relationName: Option<string>, fields: seq<string>, references: seq<string>): Field {
    ObjectField(FIELD_NAME, false, true, None, OBJECT_NAME, relationName, fields, references, Some(NONE), Some(NONE))
  }

  /** The text is the given lines joined by newlines, when its lines are those. */
  lemma TextOfLines(text: string, lines: seq<string>)
    requires Lines(text) == lines
    ensures text == Join(lines, "\n")
  {
    JoinSplit(text, "\n");
  }

  /** A field line whose three parts are all present is the three parts joined by spaces. */
  lemma FullFieldLine(name: string, typeText: string, attribute: string)
    requires name != "" && typeText != "" && attribute != ""
    ensures FieldLine(name, typeText, [attribute]) == Join([name, typeText, attribute], " ")
  {
    assert [name, typeText, Join([attribute], " ")] == [name, typeText, attribute];
    NonEmptyThree(name, typeText, attribute);
  }

  /** A field line without attributes is the name and the type joined by a space. */
  lemma BareFieldLine(name: string, typeText: string)
    requires name != "" && typeText != ""
    ensures FieldLine(name, typeText, []) == Join([name, typeText], " ")
  {
    assert [name, typeText, Join([], " ")] == [name, typeText, ""];
    NonEmptyThree(name, typeText, "");
  }

  /** A field whose one attribute is `a` prints just that attribute's text. */
  lemma SingleAttribute(f: Field, provider: DataSourceProvider, a: ScalarAttribute)
    requires f.ScalarField? && a.Printable()
    requires ScalarAttributeList(f, provider) == [a]
    ensures ScalarAttributes(f, provider) == [a.Text(provider)]
  {
  }

  /** A field without flags and with a truthy default carries that default as its only attribute. */
  lemma OnlyDefault(f: Field, provider: DataSourceProvider)
    requires f.ScalarField? && !f.isId && !f.isUnique && !f.isUpdatedAt && !f.isForeignKey
    requires DefaultIsTruthy(f.defaultValue)
    ensures ScalarAttributeList(f, provider) == [DefaultAttr(f.defaultValue)]
  {
    AttributeParts(f, provider);
    assert DefaultAttributes(f, provider) == [DefaultAttr(f.defaultValue)] + [];
  }

  /** A field without flags and with a falsy default has no attributes. */
  lemma NoAttributes(f: Field, provider: DataSourceProvider)
    requires f.ScalarField? && !f.isId && !f.isUnique && !f.isUpdatedAt && !f.isForeignKey
    requires !DefaultIsTruthy(f.defaultValue)
    ensures ScalarAttributes(f, provider) == []
  {
    AttributeParts(f, provider);
  }

  // ---------------------------------------------------------------------------
  // printEnum
  // ---------------------------------------------------------------------------

  lemma EnumExample()
    ensures PrintEnum(Enum(ENUM_NAME, [ENUM_VALUE, OTHER_ENUM_VALUE], None))
      == Join(["enum " + ENUM_NAME + " {", ENUM_VALUE, OTHER_ENUM_VALUE, "}"], "\n")
  {
    var e := Enum(ENUM_NAME, [ENUM_VALUE, OTHER_ENUM_VALUE], None);
    assert OneLine(ENUM_NAME) && OneLine(ENUM_VALUE) && OneLine(OTHER_ENUM_VALUE);
    var lines := ["enum " + ENUM_NAME + " {", ENUM_VALUE, OTHER_ENUM_VALUE, "}"];
    assert Lines(PrintEnum(e)) == lines by {
      EnumLines(e);
      assert DocLines(None) == [];
    }
    TextOfLines(PrintEnum(e), lines);
  }

  lemma DocumentedEnumExample()
    ensures PrintEnum(Enum(ENUM_NAME, [ENUM_VALUE], Some(DOCUMENTATION)))
      == Join([PrintDocumentation(DOCUMENTATION), "enum " + ENUM_NAME + " {", ENUM_VALUE, "}"], "\n")
  {
    var e := Enum(ENUM_NAME, [ENUM_VALUE], Some(DOCUMENTATION));
    assert OneLine(ENUM_NAME) && OneLine(ENUM_VALUE) && OneLine(DOCUMENTATION);
    assert Truthy(Some(DOCUMENTATION)) by {
      assert DOCUMENTATION[0] == 'E';
    }
    var lines := [PrintDocumentation(DOCUMENTATION), "enum " + ENUM_NAME + " {", ENUM_VALUE, "}"];
    assert Lines(PrintEnum(e)) == lines by {
      EnumLines(e);
      assert DocLines(Some(DOCUMENTATION)) == [PrintDocumentation(DOCUMENTATION)];
    }
    TextOfLines(PrintEnum(e), lines);
  }

  // ---------------------------------------------------------------------------
  // printField
  // ---------------------------------------------------------------------------

  /** An undocumented scalar field without flags and with a falsy default
      prints its name and type only. */
  lemma BareScalarLine(f: Field, provider: DataSourceProvider)
    requires f.ScalarField? && f.documentation.None? && !f.isId && !f.isUnique && !f.isUpdatedAt && !f.isForeignKey
    requires !DefaultIsTruthy(f.defaultValue) && f.name != "" && f.fieldType != ""
    ensures PrintField(f, provider) == Join([f.name, TypeText(f)], " ")
  {
    NoAttributes(f, provider);
    BareFieldLine(f.name, TypeText(f));
  }

  /** An undocumented scalar field without flags and with a truthy default
      prints its name, its type and the default. */
  lemma DefaultOnlyLine(f: Field, provider: DataSourceProvider)
    requires f.ScalarField? && f.documentation.None? && !f.isId && !f.isUnique && !f.isUpdatedAt && !f.isForeignKey
    requires DefaultIsTruthy(f.defaultValue) && f.name != "" && f.fieldType != ""
    ensures PrintField(f, provider) == Join([f.name, TypeText(f), DefaultAttr(f.defaultValue).Text(provider)], " ")
  {
    assert ScalarAttributes(f, provider) == [DefaultAttr(f.defaultValue).Text(provider)] by {
      OnlyDefault(f, provider);
      SingleAttribute(f, provider, DefaultAttr(f.defaultValue));
    }
    FullFieldLine(f.name, TypeText(f), DefaultAttr(f.defaultValue).Text(provider));
  }

  lemma NumberText()
    ensures "@default(" + IntToString(42) + ")" == "@default(42)"
  {
    assert NatToString(4) == "4";
  }

  lemma CallText()
    ensures "@default(" + (AUTO_INCREMENT + "()") + ")" == "@default(autoincrement())"
  {
  }

  lemma NumberDefaultExample()
    ensures PrintField(SimpleScalar("Int", NumberDefault(42)), PostgreSQL) == Join([FIELD_NAME, "Int", "@default(42)"], " ")
  {
    var f := SimpleScalar("Int", NumberDefault(42));
    DefaultOnlyLine(f, PostgreSQL);
    assert TypeText(f) == "Int" by {
      assert PrintFieldModifiers(false, true) == "";
    }
    assert DefaultAttr(NumberDefault(42)).Text(PostgreSQL) == "@default(42)" by {
      NumberText();
    }
  }

  lemma CallDefaultExample()
    ensures PrintField(SimpleScalar("Int", CallDefault(AUTO_INCREMENT)), PostgreSQL)
      == Join([FIELD_NAME, "Int", "@default(autoincrement())"], " ")
  {
    var f := SimpleScalar("Int", CallDefault(AUTO_INCREMENT));
    DefaultOnlyLine(f, PostgreSQL);
    assert TypeText(f) == "Int" by {
      assert PrintFieldModifiers(false, true) == "";
    }
    assert DefaultAttr(CallDefault(AUTO_INCREMENT)).Text(PostgreSQL) == "@default(autoincrement())" by {
      CallText();
    }
  }

  lemma OptionalFieldExample()
    ensures PrintField(ScalarField(FIELD_NAME, false, false, None, "String", false, false, false, NullDefault, false), PostgreSQL)
      == Join([FIELD_NAME, "String?"], " ")
  {
    var f := ScalarField(FIELD_NAME, false, false, None, "String", false, false, false, NullDefault, false);
    BareScalarLine(f, PostgreSQL);
    assert TypeText(f) == "String?" by {
      assert PrintFieldModifiers(false, false) == "?";
    }
  }

  lemma ListFieldExample()
    ensures PrintField(ScalarField(FIELD_NAME, true, true, None, "String", false, false, false, NullDefault, false), PostgreSQL)
      == Join([FIELD_NAME, "String[]"], " ")
  {
    var f := ScalarField(FIELD_NAME, true, true, None, "String", false, false, false, NullDefault, false);
    BareScalarLine(f, PostgreSQL);
    assert TypeText(f) == "String[]" by {
      assert PrintFieldModifiers(true, true) == "[]";
    }
  }

  /** An undocumented, required, non-list object field prints its name and
      model type, then its relation when it has one. */
  lemma ObjectLine(f: Field, provider: DataSourceProvider)
    requires f.ObjectField? && f.documentation.None? && !f.isList && f.isRequired
    requires f.name != "" && f.fieldType != ""
    ensures !HasRelation(f) ==> PrintField(f, provider) == Join([f.name, f.fieldType], " ")
    ensures HasRelation(f) ==> PrintField(f, provider) == Join([f.name, f.fieldType, PrintRelation(f)], " ")
  {
    assert TypeText(f) == f.fieldType by {
      assert PrintFieldModifiers(false, true) == "";
    }
    if HasRelation(f) {
      FullFieldLine(f.name, f.fieldType, PrintRelation(f));
    } else {
      BareFieldLine(f.name, f.fieldType);
    }
  }

  lemma SimpleObjectExample()
    ensures PrintField(SimpleObject(None, [], []), PostgreSQL) == Join([FIELD_NAME, OBJECT_NAME], " ")
  {
    ObjectLine(SimpleObject(None, [], []), PostgreSQL);
  }

  /** The field of the full relation example: a name, one field and one reference. */
  function RelatedField(): Field {
    SimpleObject(Some(RELATION_NAME), [RELATION_FIELD_NAME], [RELATION_REFERENCE_FIELD_NAME])
  }

  /** A relation with a name, one field and one reference, and no actions. */
  lemma NamedRelationArguments(f: Field, column: string, reference: string)
    requires f.ObjectField? && f.relationName.Some? && f.relationName.value != ""
    requires f.relationToFields == [column] && f.relationToReferences == [reference]
    requires f.relationOnDelete == Some(NONE) && f.relationOnUpdate == Some(NONE)
    ensures RelationArguments(f) == ["name: \"" + f.relationName.value + "\"",
      "fields: [" + column + "]", "references: [" + reference + "]"]
  {
    assert ColumnsArgument("fields", [column]) == "fields: [" + column + "]" by {
      assert Join([column], ",") == column;
      assert "fields" + ": [" == "fields: [";
    }
    assert ColumnsArgument("references", [reference]) == "references: [" + reference + "]" by {
      assert Join([reference], ",") == reference;
      assert "references" + ": [" == "references: [";
    }
  }

  lemma FullRelationExample()
    ensures PrintField(RelatedField(), PostgreSQL) == Join([FIELD_NAME, OBJECT_NAME,
      "@relation(" + Join(["name: \"" + RELATION_NAME + "\"", "fields: [" + RELATION_FIELD_NAME + "]",
        "references: [" + RELATION_REFERENCE_FIELD_NAME + "]"], ", ") + ")"], " ")
  {
    var f := RelatedField();
    assert RELATION_NAME != "" by {
      assert RELATION_NAME[0] == 'e';
    }
    ObjectLine(f, PostgreSQL);
    NamedRelationArguments(f, RELATION_FIELD_NAME, RELATION_REFERENCE_FIELD_NAME);
  }

  /** An undocumented MongoDB id with a truthy default prints the id, its
      `_id` mapping and ObjectId marker, and `auto()` in place of the default. */
  lemma MongoIdLine(f: Field)
    requires f.ScalarField? && f.documentation.None? && f.isId && !f.isUnique && !f.isUpdatedAt && !f.isForeignKey
    requires DefaultIsTruthy(f.defaultValue) && f.name != "" && f.fieldType != ""
    ensures PrintField(f, MongoDB) == Join([f.name, TypeText(f), MONGO_ID_ATTRIBUTE + " " + AUTO_DEFAULT_ATTRIBUTE], " ")
  {
    assert ScalarAttributeList(f, MongoDB) == [IdAttr, AutoDefaultAttr] by {
      AttributeParts(f, MongoDB);
      assert DefaultAttributes(f, MongoDB) == [] + [AutoDefaultAttr];
    }
    assert Join(ScalarAttributes(f, MongoDB), " ") == MONGO_ID_ATTRIBUTE + " " + AUTO_DEFAULT_ATTRIBUTE by {
      assert ScalarAttributes(f, MongoDB) == [MONGO_ID_ATTRIBUTE, AUTO_DEFAULT_ATTRIBUTE];
      JoinPair(MONGO_ID_ATTRIBUTE, AUTO_DEFAULT_ATTRIBUTE, " ");
    }
    assert [f.name, TypeText(f), Join(ScalarAttributes(f, MongoDB), " ")]
      == [f.name, TypeText(f), MONGO_ID_ATTRIBUTE + " " + AUTO_DEFAULT_ATTRIBUTE];
    NonEmptyThree(f.name, TypeText(f), MONGO_ID_ATTRIBUTE + " " + AUTO_DEFAULT_ATTRIBUTE);
  }

  lemma MongoIdExample()
    ensures PrintField(ScalarField("id", false, true, None, "String", true, false, false, CallDefault(UUID), false), MongoDB)
      == Join(["id", "String", MONGO_ID_ATTRIBUTE + " " + AUTO_DEFAULT_ATTRIBUTE], " ")
  {
    var f := ScalarField("id", false, true, None, "String", true, false, false, CallDefault(UUID), false);
    MongoIdLine(f);
    assert TypeText(f) == "String" by {
      assert PrintFieldModifiers(false, true) == "";
    }
  }

  // ---------------------------------------------------------------------------
  // printModel
  // ---------------------------------------------------------------------------

  /** The string field the model examples use. */
  function StringField(): Field {
    SimpleScalar("String", NullDefault)
  }

  lemma FieldNameOneLine()
    ensures OneLine(FIELD_NAME)
  {
  }

  lemma StringFieldText()
    ensures PrintField(StringField(), PostgreSQL) == FIELD_NAME + " " + "String"
    ensures OneLine(PrintField(StringField(), PostgreSQL))
  {
    assert PrintField(StringField(), PostgreSQL) == Join([FIELD_NAME, "String"], " ") by {
      BareScalarLine(StringField(), PostgreSQL);
      assert PrintFieldModifiers(false, true) == "";
    }
    JoinPair(FIELD_NAME, "String", " ");
    assert OneLine(FIELD_NAME + " " + "String") by {
      FieldNameOneLine();
      OneLineAround(FIELD_NAME, " ", "String");
    }
  }

  /** A truthy map name is one section: a blank line, then `@@map`. */
  lemma MapSectionLines(model: Model)
    requires Truthy(model.mappedName)
    ensures SectionLines(MapAttributes(model)) == ["", PrintModelMap(model.mappedName.value)]
  {
    var map_ := "@@map(\"" + model.mappedName.value + "\")";
    assert MapAttributes(model) == [map_];
    assert [map_][1..] == [];
    assert PrintModelMap(model.mappedName.value) == map_ by {
      assert NewLinesPrefix(false) == "";
    }
  }

  lemma FiveLines<T>(a: T, b: T, c: T, d: T, e: T)
    ensures [] + [a] + ([b] + [c, d] + [] + []) + [e] == [a, b, c, d, e]
  {
  }

  /** An undocumented model with one one-line field, a map and no indexes
      prints its header, the field, a blank line, the map and the closing brace. */
  lemma MappedModelText(model: Model, provider: DataSourceProvider)
    requires ModelNamesOneLine(model) && !Truthy(model.documentation) && Truthy(model.mappedName)
    requires |model.fields| == 1 && OneLine(PrintField(model.fields[0], provider))
    requires model.indexes.None? && model.fullTextIndexes.None?
    ensures PrintModel(model, provider)
      == Join([ModelHeader(model), PrintField(model.fields[0], provider), "", PrintModelMap(model.mappedName.value), "}"], "\n")
  {
    var field := PrintField(model.fields[0], provider);
    var lines := [ModelHeader(model), field, "", PrintModelMap(model.mappedName.value), "}"];
    assert FieldLines(FieldTexts(model.fields, provider)) == [field] by {
      assert FieldTexts(model.fields, provider) == [field];
      SplitAllNoSeparator([field], "\n");
    }
    var header, map_ := ModelHeader(model), PrintModelMap(model.mappedName.value);
    assert Lines(PrintModel(model, provider)) == [] + [header] + ([field] + ["", map_] + [] + []) + ["}"] by {
      ModelLines(model, provider);
      MapSectionLines(model);
      assert DocLines(model.documentation) == [];
      assert IndexAttributesOf(model) == [] && FullTextAttributesOf(model) == [];
    }
    FiveLines(header, field, "", map_, "}");
    TextOfLines(PrintModel(model, provider), lines);
  }

  /** A model with one field and a map: the map after a blank line; empty
      documentation prints no comment. */
  lemma MappedModelExample()
    ensures PrintModel(Model(MODEL_NAME, [StringField()], Some(MODEL_MAP), Some(""), None, None), PostgreSQL)
      == Join(["model " + MODEL_NAME + " {", PrintField(StringField(), PostgreSQL), "", PrintModelMap(MODEL_MAP), "}"], "\n")
  {
    var m := Model(MODEL_NAME, [StringField()], Some(MODEL_MAP), Some(""), None, None);
    assert ModelNamesOneLine(m) && OneLine(PrintField(m.fields[0], PostgreSQL)) by {
      StringFieldText();
      assert OneLine(MODEL_NAME) && OneLine(MODEL_MAP);
    }
    assert Truthy(Some(MODEL_MAP)) by {
      assert MODEL_MAP[0] == 'E';
    }
    MappedModelText(m, PostgreSQL);
  }

  // ---------------------------------------------------------------------------
  // printGenerator
  // ---------------------------------------------------------------------------

  /** A prefix in front of `key + value + close` merges with the key. */
  lemma Prefixed(prefix: string, key: string, prefixedKey: string, value: string, close: string)
    requires prefix + key == prefixedKey
    ensures prefix + (key + value + close) == prefixedKey + value + close
  {
  }

  lemma Prepend(prefix: string, key: string, value: string)
    ensures prefix + (key + value) == prefix + key + value
  {
  }

  lemma FourLines<T>(first: T, second: T, third: T, last: T)
    ensures [first] + [second, third] + [last] == [first, second, third, last]
  {
  }

  /** `JSON.stringify` of one plain string: the string quoted inside brackets. */
  lemma JsonArrayOfOne(s: string)
    requires forall c :: c in s ==> ' ' <= c && c != '"' && c != '\\'
    ensures JsonStringArray([s]) == "[" + "\"" + s + "\"" + "]"
  {
    forall i | 0 <= i < |s|
      ensures ' ' <= s[i] && s[i] != '"' && s[i] != '\\'
    {
      assert s[i] in s;
    }
    JsonEscapePlain(s);
    assert Join([JsonQuote(s)], ",") == "\"" + s + "\"";
  }

  /** A generator's text, when its settings indented are the given lines. */
  lemma GeneratorText(g: Generator, settingLines: seq<string>)
    requires OneLine(g.name) && OneLine(g.provider)
    requires g.output.Some? ==> OneLine(g.output.value)
    requires Indent(GeneratorSettings(g), "  ") == settingLines
    ensures PrintGenerator(g) == Join(["generator " + g.name + " {"] + settingLines + ["}"], "\n")
  {
    var lines := ["generator " + g.name + " {"] + settingLines + ["}"];
    assert Lines(PrintGenerator(g)) == lines by {
      GeneratorLines(g);
    }
    TextOfLines(PrintGenerator(g), lines);
  }

  lemma ProviderLine(provider: string)
    ensures "  " + ("provider = \"" + provider + "\"") == "  provider = \"" + provider + "\""
  {
    Prefixed("  ", "provider = \"", "  provider = \"", provider, "\"");
  }

  /** The settings of a generator with an output and nothing else optional. */
  lemma OutputSettings(g: Generator)
    requires Truthy(g.output) && |g.binaryTargets| == 0 && |g.previewFeatures| == 0
    ensures Indent(GeneratorSettings(g), "  ")
      == ["  provider = \"" + g.provider + "\"", "  output = \"" + g.output.value + "\""]
  {
    assert GeneratorSettings(g) == ["provider = \"" + g.provider + "\"", "output = \"" + g.output.value + "\""];
    ProviderLine(g.provider);
    Prefixed("  ", "output = \"", "  output = \"", g.output.value, "\"");
  }

  /** The settings of a generator with one plain binary target and nothing else optional. */
  lemma TargetSettings(g: Generator, target: string)
    requires !Truthy(g.output) && g.binaryTargets == [target] && |g.previewFeatures| == 0
    requires forall c :: c in target ==> ' ' <= c && c != '"' && c != '\\'
    ensures Indent(GeneratorSettings(g), "  ")
      == ["  provider = \"" + g.provider + "\"", "  " + "binaryTargets = " + ("[" + "\"" + target + "\"" + "]")]
  {
    assert GeneratorSettings(g) == ["provider = \"" + g.provider + "\"", "binaryTargets = " + JsonStringArray([target])];
    ProviderLine(g.provider);
    JsonArrayOfOne(target);
    Prepend("  ", "binaryTargets = ", JsonStringArray([target]));
  }

  lemma GeneratorNamesOneLine()
    ensures OneLine(GENERATOR_NAME) && OneLine(GENERATOR_PROVIDER)
  {
  }

  lemma GeneratorExample()
    ensures PrintGenerator(Generator(GENERATOR_NAME, GENERATOR_PROVIDER, Some(GENERATOR_OUTPUT), [], []))
      == Join(["generator " + GENERATOR_NAME + " {", "  provider = \"" + GENERATOR_PROVIDER + "\"",
        "  output = \"" + GENERATOR_OUTPUT + "\"", "}"], "\n")
  {
    var g := Generator(GENERATOR_NAME, GENERATOR_PROVIDER, Some(GENERATOR_OUTPUT), [], []);
    var provider := "  provider = \"" + GENERATOR_PROVIDER + "\"";
    var output := "  output = \"" + GENERATOR_OUTPUT + "\"";
    assert Truthy(g.output) && OneLine(GENERATOR_OUTPUT) by {
      assert GENERATOR_OUTPUT[0] == 'e';
    }
    OutputSettings(g);
    GeneratorNamesOneLine();
    GeneratorText(g, [provider, output]);
    FourLines("generator " + GENERATOR_NAME + " {", provider, output, "}");
  }

  lemma BinaryTargetPlain()
    ensures forall c :: c in BINARY_TARGET ==> ' ' <= c && c != '"' && c != '\\'
  {
  }

  lemma BinaryTargetsExample()
    ensures PrintGenerator(Generator(GENERATOR_NAME, GENERATOR_PROVIDER, None, [BINARY_TARGET], []))
      == Join(["generator " + GENERATOR_NAME + " {", "  provider = \"" + GENERATOR_PROVIDER + "\"",
        "  " + "binaryTargets = " + ("[" + "\"" + BINARY_TARGET + "\"" + "]"), "}"], "\n")
  {
    var g := Generator(GENERATOR_NAME, GENERATOR_PROVIDER, None, [BINARY_TARGET], []);
    var provider := "  provider = \"" + GENERATOR_PROVIDER + "\"";
    var targets := "  " + "binaryTargets = " + ("[" + "\"" + BINARY_TARGET + "\"" + "]");
    BinaryTargetPlain();
    TargetSettings(g, BINARY_TARGET);
    GeneratorNamesOneLine();
    GeneratorText(g, [provider, targets]);
    FourLines("generator " + GENERATOR_NAME + " {", provider, targets, "}");
  }

  // ---------------------------------------------------------------------------
  // printDataSource
  // ---------------------------------------------------------------------------

  /** A data source with a literal url and no relation mode prints its
      header, provider, quoted url and closing brace. */
  lemma LiteralDataSourceText(ds: DataSource)
    requires ds.url.UrlLiteral? && ds.relationMode.None? && OneLine(ds.name) && OneLine(ds.url.value)
    ensures PrintDataSource(ds) == Join(["datasource " + ds.name + " {", "  provider = \"" + ds.provider.Text() + "\"",
      "  url      = \"" + ds.url.value + "\"", "}"], "\n")
  {
    var url := "  url      = \"" + ds.url.value + "\"";
    var lines := [DataSourceHeader(ds), ProviderSetting(ds.provider), url, "}"];
    assert PrintDataSourceUrl(ds.url) == "\"" + ds.url.value + "\"";
    assert Lines(PrintDataSource(ds)) == lines by {
      OneLineAround("\"", ds.url.value, "\"");
      DataSourceLines(ds);
      assert UrlSetting(ds.url) == url by {
        Prefixed("  url      = ", "\"", "  url      = \"", ds.url.value, "\"");
      }
    }
    TextOfLines(PrintDataSource(ds), lines);
  }

  lemma DataSourceExample()
    ensures PrintDataSource(DataSource(DATA_SOURCE_NAME, MySQL, UrlLiteral(DATA_SOURCE_URL), None))
      == Join(["datasource " + DATA_SOURCE_NAME + " {", "  provider = \"" + MySQL.Text() + "\"",
        "  url      = \"" + DATA_SOURCE_URL + "\"", "}"], "\n")
  {
    assert OneLine(DATA_SOURCE_NAME) && OneLine(DATA_SOURCE_URL);
    LiteralDataSourceText(DataSource(DATA_SOURCE_NAME, MySQL, UrlLiteral(DATA_SOURCE_URL), None));
  }
}

=== FILE: strings.dfy ===
/** The JavaScript string operations the builders and printers rely on:
    `Array.prototype.join`, `filter(Boolean)`, `String.prototype.split`,
    `trim`, `startsWith`, `String(n)` for integers and `JSON.stringify`
    for arrays of strings. */
module Strings {
  import opened Wrappers

  // ---------------------------------------------------------------------------
  // join / filter(Boolean)
  // ---------------------------------------------------------------------------

  /** `parts.join(sep)`: the parts in order with `sep` between neighbours. */
  function Join(parts: seq<string>, sep: string): string {
    if |parts| == 0 then ""
    else if |parts| == 1 then parts[0]
    else parts[0] + sep + Join(parts[1..], sep)
  }

  /** `parts.filter(Boolean)` on strings: drops the empty ones, keeps the order. */
  function NonEmpty(parts: seq<string>): (r: seq<string>)
    ensures forall s :: s in r <==> s in parts && s != ""
    ensures |r| <= |parts|
  {
    if |parts| == 0 then []
    else (if parts[0] == "" then [] else [parts[0]]) + NonEmpty(parts[1..])
  }

  /** Filtering a part in front of the rest. */
  lemma NonEmptyCons(x: string, rest: seq<string>)
    ensures NonEmpty([x] + rest) == (if x == "" then [] else [x]) + NonEmpty(rest)
  {
    assert ([x] + rest)[1..] == rest;
  }

  /** `parts.filter(Boolean).join(sep)`. */
  function JoinNonEmpty(parts: seq<string>, sep: string): string {
    Join(NonEmpty(parts), sep)
  }

  /** Two parts joined: the first, the separator, the second. */
  lemma JoinPair(a: string, b: string, sep: string)
    ensures Join([a, b], sep) == a + sep + b
  {
    assert [a, b][1..] == [b];
  }

  /** A join of non-empty parts is empty only when there are no parts. */
  lemma JoinOfNonEmptyParts(parts: seq<string>, sep: string)
    requires forall i :: 0 <= i < |parts| ==> parts[i] != ""
    ensures Join(parts, sep) == "" <==> |parts| == 0
  {
    if |parts| > 1 {
      assert |Join(parts, sep)| >= |parts[0]|;
    }
  }

  /** A separator-free join never produces a character absent from the parts and the separator. */
  lemma {:induction false} JoinAvoids(parts: seq<string>, sep: string, c: char)
    requires c !in sep
    requires forall i :: 0 <= i < |parts| ==> c !in parts[i]
    ensures c !in Join(parts, sep)
    decreases |parts|
  {
    if |parts| > 1 {
      JoinAvoids(parts[1..], sep, c);
    }
  }

  // ---------------------------------------------------------------------------
  // split
  // ---------------------------------------------------------------------------

  /** `pat` occurs in `s` at offset `k`. */
  predicate OccursAt(s: string, pat: string, k: nat) {
    k + |pat| <= |s| && s[k..k + |pat|] == pat
  }

  ghost predicate Contains(s: string, pat: string) {
    exists k: nat :: OccursAt(s, pat, k)
  }

  lemma OccursAtTail(s: string, pat: string, k: nat)
    requires |s| > 0
    ensures OccursAt(s, pat, k + 1) <==> OccursAt(s[1..], pat, k)
  {
    if k + 1 + |pat| <= |s| {
      assert s[1..][k..k + |pat|] == s[k + 1..k + 1 + |pat|];
    }
  }

  /** `s.indexOf(pat)`: the leftmost offset at which `pat` occurs. */
  function Find(s: string, pat: string): (r: Option<nat>)
    requires |pat| > 0
    ensures r.Some? ==> OccursAt(s, pat, r.value)
    ensures r.Some? ==> forall k: nat :: k < r.value ==> !OccursAt(s, pat, k)
    ensures r.None? ==> forall k: nat :: !OccursAt(s, pat, k)
    decreases |s|
  {
    if |s| < |pat| then None
    else if s[..|pat|] == pat then Some(0)
    else
      var tail := Find(s[1..], pat);
      assert forall k: nat :: k >= 1 ==> (OccursAt(s, pat, k) <==> OccursAt(s[1..], pat, k - 1)) by {
        forall k: nat | k >= 1 ensures OccursAt(s, pat, k) <==> OccursAt(s[1..], pat, k - 1) {
          OccursAtTail(s, pat, k - 1);
        }
      }
      assert !OccursAt(s, pat, 0);
      match tail
      case None => None
      case Some(i) => Some(i + 1)
  }

  lemma NoOccurrenceInPrefix(s: string, pat: string, i: nat)
    requires |pat| > 0 && i <= |s|
    requires forall k: nat :: k < i ==> !OccursAt(s, pat, k)
    ensures !Contains(s[..i], pat)
  {
    forall k: nat | OccursAt(s[..i], pat, k)
      ensures false
    {
      assert s[..i][k..k + |pat|] == s[k..k + |pat|];
      assert OccursAt(s, pat, k);
    }
  }

  /** `s.split(sep)` for a non-empty separator string: the pieces between the
      leftmost non-overlapping occurrences of `sep`. */
  function Split(s: string, sep: string): (r: seq<string>)
    requires |sep| > 0
    ensures |r| >= 1
    decreases |s|
  {
    match Find(s, sep)
    case None => [s]
    case Some(i) => [s[..i]] + Split(s[i + |sep|..], sep)
  }

  /** Joining the pieces of a split with the separator gives back the text. */
  lemma {:induction false} JoinSplit(s: string, sep: string)
    requires |sep| > 0
    ensures Join(Split(s, sep), sep) == s
    decreases |s|
  {
    match Find(s, sep)
    case None =>
    case Some(i) =>
      var rest := Split(s[i + |sep|..], sep);
      JoinSplit(s[i + |sep|..], sep);
      assert s[..i] + sep + s[i + |sep|..] == s by {
        assert s[i..i + |sep|] == sep;
        assert s == s[..i] + s[i..i + |sep|] + s[i + |sep|..];
      }
      assert ([s[..i]] + rest)[1..] == rest;
  }

  /** No piece of a split contains the separator. */
  lemma {:induction false} SplitPiecesAvoidSeparator(s: string, sep: string)
    requires |sep| > 0
    ensures forall i :: 0 <= i < |Split(s, sep)| ==> !Contains(Split(s, sep)[i], sep)
    decreases |s|
  {
    match Find(s, sep)
    case None =>
      assert !Contains(s, sep);
    case Some(i) =>
      SplitPiecesAvoidSeparator(s[i + |sep|..], sep);
      NoOccurrenceInPrefix(s, sep, i);
  }

  /** The lines of a text: `s.split("\n")`. */
  function Lines(s: string): seq<string> {
    Split(s, "\n")
  }

  /** The pieces of every part, in order. */
  function SplitAll(parts: seq<string>, sep: string): seq<string>
    requires |sep| > 0
  {
    if |parts| == 0 then [] else Split(parts[0], sep) + SplitAll(parts[1..], sep)
  }

  lemma {:induction false} FindFirstSeparator(a: string, b: string, sep: string)
    requires |sep| == 1
    requires !Contains(a, sep)
    ensures Find(a + sep + b, sep) == Some(|a|)
  {
    var s := a + sep + b;
    assert s[|a|..|a| + 1] == sep;
    forall k: nat | k < |a|
      ensures !OccursAt(s, sep, k)
    {
      assert a[k..k + 1] == s[k..k + 1];
      assert !OccursAt(a, sep, k);
    }
    var v := Find(s, sep);
    assert OccursAt(s, sep, |a|);
    assert v.Some?;
    assert !(v.value < |a|);
  }

  lemma SplitUnfold(s: string, sep: string)
    requires |sep| > 0
    ensures Find(s, sep).None? ==> Split(s, sep) == [s]
    ensures Find(s, sep).Some? ==>
      var i := Find(s, sep).value;
      Split(s, sep) == [s[..i]] + Split(s[i + |sep|..], sep)
  {
  }

  /** A text holding the separator is the separator-free piece before its
      first occurrence, the separator, and the rest. */
  lemma FirstPiece(a: string, sep: string) returns (p: string, q: string)
    requires |sep| == 1 && Find(a, sep).Some?
    ensures a == p + sep + q && Find(p, sep).None? && |q| < |a|
  {
    var i := Find(a, sep).value;
    p, q := a[..i], a[i + 1..];
    assert a == p + a[i..i + 1] + q;
    NoOccurrenceInPrefix(a, sep, i);
  }

  lemma SplitConcatNoSeparator(a: string, b: string, sep: string)
    requires |sep| == 1
    requires Find(a, sep).None?
    ensures Split(a + sep + b, sep) == [a] + Split(b, sep)
  {
    var s := a + sep + b;
    FindFirstSeparator(a, b, sep);
    SplitUnfold(s, sep);
    assert s[..|a|] == a;
    assert s[|a| + 1..] == b;
  }

  /** Splitting on a one-character separator distributes over a separator-joined concatenation. */
  lemma {:induction false} SplitConcat(a: string, b: string, sep: string)
    requires |sep| == 1
    ensures Split(a + sep + b, sep) == Split(a, sep) + Split(b, sep)
    decreases |a|, 1
  {
    if Find(a, sep).None? {
      assert Split(a, sep) == [a] by {
        SplitUnfold(a, sep);
      }
      SplitConcatNoSeparator(a, b, sep);
    } else {
      var p, q := FirstPiece(a, sep);
      SplitConcatAfterFirst(p, q, b, sep);
    }
  }

  /** `SplitConcat` when `a` is `p + sep + q` with `p` free of the separator:
      `p` comes off as a piece and the rest is split by induction. */
  lemma {:induction false} SplitConcatAfterFirst(p: string, q: string, b: string, sep: string)
    requires |sep| == 1 && Find(p, sep).None?
    ensures Split(p + sep + q + sep + b, sep) == Split(p + sep + q, sep) + Split(b, sep)
    decreases |p + sep + q|, 0
  {
    assert Split(p + sep + q, sep) == [p] + Split(q, sep) by {
      SplitConcatNoSeparator(p, q, sep);
    }
    assert Split(p + sep + q + sep + b, sep) == [p] + Split(q + sep + b, sep) by {
      assert p + sep + q + sep + b == p + sep + (q + sep + b);
      SplitConcatNoSeparator(p, q + sep + b, sep);
    }
    assert Split(q + sep + b, sep) == Split(q, sep) + Split(b, sep) by {
      SplitConcat(q, b, sep);
    }
    PieceAssoc(p, Split(q, sep), Split(b, sep));
  }

  lemma PieceAssoc(p: string, x: seq<string>, y: seq<string>)
    ensures [p] + (x + y) == ([p] + x) + y
  {
  }

  /** Splitting a one-character-separator join gives back the pieces of every part. */
  lemma {:induction false} SplitJoin(parts: seq<string>, sep: string)
    requires |sep| == 1
    requires |parts| > 0
    ensures Split(Join(parts, sep), sep) == SplitAll(parts, sep)
    decreases |parts|
  {
    if |parts| == 1 {
      assert SplitAll(parts, sep) == Split(parts[0], sep) + SplitAll([], sep);
    } else {
      SplitConcat(parts[0], Join(parts[1..], sep), sep);
      SplitJoin(parts[1..], sep);
    }
  }

  /** A text without the separator is a single piece. */
  lemma SplitNoSeparator(s: string, sep: string)
    requires |sep| == 1
    requires sep[0] !in s
    ensures Split(s, sep) == [s]
  {
  }

  /** Parts free of the separator are their own pieces. */
  lemma {:induction false} SplitAllNoSeparator(parts: seq<string>, sep: string)
    requires |sep| == 1
    requires forall i :: 0 <= i < |parts| ==> sep[0] !in parts[i]
    ensures SplitAll(parts, sep) == parts
    decreases |parts|
  {
    if |parts| > 0 {
      SplitNoSeparator(parts[0], sep);
      SplitAllNoSeparator(parts[1..], sep);
      assert SplitAll(parts, sep) == [parts[0]] + parts[1..];
      assert parts == [parts[0]] + parts[1..];
    }
  }

  // ---------------------------------------------------------------------------
  // lines
  // ---------------------------------------------------------------------------

  /** Lines of two texts joined by a newline: the lines of each, in order. */
  lemma LinesAppend(a: string, b: string)
    ensures Lines(a + "\n" + b) == Lines(a) + Lines(b)
  {
    SplitConcat(a, b, "\n");
  }

  /** A text without a newline is one line. */
  lemma LinesSingle(s: string)
    requires '\n' !in s
    ensures Lines(s) == [s]
  {
    SplitNoSeparator(s, "\n");
  }

  /** A block whose first and last lines hold no newline: those lines around
      the lines of the middle. */
  lemma LinesAround(first: string, middle: string, last: string)
    requires '\n' !in first && '\n' !in last
    ensures Lines(first + "\n" + middle + "\n" + last) == [first] + Lines(middle) + [last]
  {
    assert first + "\n" + middle + "\n" + last == first + "\n" + (middle + "\n" + last);
    LinesAppend(first, middle + "\n" + last);
    LinesAppend(middle, last);
    LinesSingle(first);
    LinesSingle(last);
  }

  /** Newline-free lines joined by newlines split back into themselves. */
  lemma LinesOfJoin(ls: seq<string>)
    requires |ls| > 0
    requires forall i :: 0 <= i < |ls| ==> '\n' !in ls[i]
    ensures Lines(Join(ls, "\n")) == ls
  {
    SplitJoin(ls, "\n");
    SplitAllNoSeparator(ls, "\n");
  }

  /** Every part with `indent` in front of it. */
  function Indent(parts: seq<string>, indent: string): (r: seq<string>)
    ensures |r| == |parts|
    ensures forall i :: 0 <= i < |parts| ==> r[i] == indent + parts[i]
  {
    seq(|parts|, i requires 0 <= i < |parts| => indent + parts[i])
  }

  /** Joining with newline-and-indent after a leading indent is joining the
      indented parts with newlines. */
  lemma {:induction false} JoinIndented(parts: seq<string>, indent: string)
    requires |parts| > 0
    ensures indent + Join(parts, "\n" + indent) == Join(Indent(parts, indent), "\n")
    decreases |parts|
  {
    if |parts| > 1 {
      JoinIndented(parts[1..], indent);
      assert Indent(parts, indent)[1..] == Indent(parts[1..], indent);
      var rest := Join(parts[1..], "\n" + indent);
      assert indent + (parts[0] + ("\n" + indent) + rest) == (indent + parts[0]) + "\n" + (indent + rest);
    }
  }

  // ---------------------------------------------------------------------------
  // trim / startsWith / replace
  // ---------------------------------------------------------------------------

  /** The characters `String.prototype.trim` removes: white space and line terminators. */
  predicate IsJsWhitespace(c: char) {
    || c == ' ' || c == '\t' || c == '\n' || c == '\r' || c == '\U{B}' || c == '\U{C}'
    || c == '\U{A0}' || c == '\U{1680}' || ('\U{2000}' <= c <= '\U{200A}')
    || c == '\U{2028}' || c == '\U{2029}' || c == '\U{202F}' || c == '\U{205F}'
    || c == '\U{3000}' || c == '\U{FEFF}'
  }

  ghost predicate AllWhitespace(s: string) {
    forall k :: 0 <= k < |s| ==> IsJsWhitespace(s[k])
  }

  /** `s.trimStart()`: a suffix of `s`, all whitespace removed in front. */
  function TrimStart(s: string): (r: string)
    ensures |r| <= |s| && r == s[|s| - |r|..]
    ensures AllWhitespace(s[..|s| - |r|])
    ensures |r| > 0 ==> !IsJsWhitespace(r[0])
    decreases |s|
  {
    if |s| > 0 && IsJsWhitespace(s[0]) then
      var r := TrimStart(s[1..]);
      assert s[..|s| - |r|] == [s[0]] + s[1..][..|s| - 1 - |r|];
      r
    else s
  }

  /** `s.trimEnd()`: a prefix of `s`, all whitespace removed behind. */
  function TrimEnd(s: string): (r: string)
    ensures |r| <= |s| && r == s[..|r|]
    ensures AllWhitespace(s[|r|..])
    ensures |r| > 0 ==> !IsJsWhitespace(r[|r| - 1])
    decreases |s|
  {
    if |s| > 0 && IsJsWhitespace(s[|s| - 1]) then
      var r := TrimEnd(s[..|s| - 1]);
      assert s[|r|..] == s[..|s| - 1][|r|..] + [s[|s| - 1]];
      r
    else s
  }

  /** `s.trim()`: the text between the leading and the trailing whitespace;
      empty exactly when `s` is all whitespace. */
  function Trim(s: string): (r: string)
    ensures |r| <= |s|
    ensures |r| > 0 ==> !IsJsWhitespace(r[0]) && !IsJsWhitespace(r[|r| - 1])
    ensures r == "" <==> AllWhitespace(s)
  {
    var front := TrimStart(s);
    var r := TrimEnd(front);
    assert r == "" ==> AllWhitespace(s) by {
      if r == "" {
        assert s == s[..|s| - |front|] + front;
      }
    }
    r
  }

  /** The trim of `s` is the middle of `s`: what is left after dropping an
      all-whitespace prefix of length `k`, the part `trimStart` drops, and an
      all-whitespace suffix. */
  lemma TrimIsMiddle(s: string) returns (k: nat)
    ensures k + |Trim(s)| <= |s| && Trim(s) == s[k..k + |Trim(s)|]
    ensures AllWhitespace(s[..k]) && AllWhitespace(s[k + |Trim(s)|..])
    ensures TrimStart(s) == s[k..]
  {
    var front := TrimStart(s);
    k := |s| - |front|;
    MiddleOf(s, k, front, TrimEnd(front));
  }

  /** A prefix `r` of the suffix `front` of `s` starting at `k` sits at `k` in `s`. */
  lemma MiddleOf(s: string, k: nat, front: string, r: string)
    requires k <= |s| && front == s[k..] && AllWhitespace(s[..k])
    requires |r| <= |front| && r == front[..|r|] && AllWhitespace(front[|r|..])
    ensures k + |r| <= |s| && r == s[k..k + |r|]
    ensures AllWhitespace(s[..k]) && AllWhitespace(s[k + |r|..])
  {
    assert s[k + |r|..] == front[|r|..];
  }

  /** `s.startsWith(p)`. */
  predicate StartsWith(s: string, p: string) {
    |p| <= |s| && s[..|p|] == p
  }

  /** `s.replace(/\n/g, " ")`. */
  function NewlinesToSpaces(s: string): (r: string)
    ensures |r| == |s| && '\n' !in r
    ensures forall i :: 0 <= i < |s| ==> r[i] == if s[i] == '\n' then ' ' else s[i]
  {
    seq(|s|, i requires 0 <= i < |s| => if s[i] == '\n' then ' ' else s[i])
  }

  /** A text that neither starts nor ends with whitespace is its own trim. */
  lemma TrimFixed(s: string)
    requires |s| > 0 ==> !IsJsWhitespace(s[0]) && !IsJsWhitespace(s[|s| - 1])
    ensures Trim(s) == s
  {
    assert TrimStart(s) == s;
    assert TrimEnd(s) == s;
  }

  /** Trimming twice is trimming once. */
  lemma TrimIdempotent(s: string)
    ensures Trim(Trim(s)) == Trim(s)
  {
    TrimFixed(Trim(s));
  }

  /** A text without newlines is unchanged by replacing them. */
  lemma NewlinesToSpacesFixed(s: string)
    requires '\n' !in s
    ensures NewlinesToSpaces(s) == s
  {
  }

  /** A character absent from a text is absent from every piece of its split. */
  lemma {:induction false} SplitAvoids(s: string, sep: string, c: char)
    requires |sep| > 0 && c !in s
    ensures forall i :: 0 <= i < |Split(s, sep)| ==> c !in Split(s, sep)[i]
    decreases |s|
  {
    match Find(s, sep)
    case None =>
    case Some(i) =>
      assert c !in s[..i] && c !in s[i + |sep|..] by {
        assert forall x :: x in s[..i] ==> x in s;
        assert forall x :: x in s[i + |sep|..] ==> x in s;
      }
      SplitAvoids(s[i + |sep|..], sep, c);
  }

  /** A text without the separator's first character is a single piece. */
  lemma SplitWithoutSeparator(s: string, sep: string)
    requires |sep| > 0 && sep[0] !in s
    ensures Split(s, sep) == [s]
  {
    forall k: nat ensures !OccursAt(s, sep, k) {
      if k + |sep| <= |s| {
        assert s[k..k + |sep|][0] == s[k];
        assert s[k] in s;
      }
    }
  }

  /** `s.charAt(0).toUpperCase() + s.slice(1)` for ASCII text. */
  function CapitalizeAscii(s: string): string {
    if |s| == 0 then ""
    else if 'a' <= s[0] <= 'z' then [(s[0] as int - 32) as char] + s[1..]
    else s
  }

  // ---------------------------------------------------------------------------
  // String(n) for integers
  // ---------------------------------------------------------------------------

  predicate IsDigit(c: char) {
    '0' <= c <= '9'
  }

  predicate AllDigits(s: string) {
    forall i :: 0 <= i < |s| ==> IsDigit(s[i])
  }

  function DigitChar(d: nat): (c: char)
    requires d < 10
    ensures IsDigit(c) && c as int - '0' as int == d
  {
    ('0' as int + d) as char
  }

  /** The value of a string of decimal digits. */
  function DigitsValue(s: string): nat
    requires AllDigits(s)
    decreases |s|
  {
    if |s| == 0 then 0
    else DigitsValue(s[..|s| - 1]) * 10 + (s[|s| - 1] as int - '0' as int)
  }

  /** Decimal digits of `n`, without leading zeros; their value is `n`. */
  function NatToString(n: nat): (r: string)
    ensures |r| >= 1 && AllDigits(r)
    ensures r[0] == '0' ==> r == "0"
    ensures DigitsValue(r) == n
    decreases n
  {
    if n < 10 then [DigitChar(n)]
    else
      var front := NatToString(n / 10);
      var r := front + [DigitChar(n % 10)];
      assert r[..|r| - 1] == front;
      r
  }

  /** Decimal digits without a leading zero, the only zero being "0". */
  predicate CanonicalDigits(s: string) {
    |s| >= 1 && AllDigits(s) && (s[0] == '0' ==> s == "0")
  }

  /** The text `String(n)` gives an integer: a minus sign exactly for a
      negative value, then canonical digits; "-0" is never printed. */
  predicate CanonicalInt(s: string) {
    if |s| > 0 && s[0] == '-' then CanonicalDigits(s[1..]) && s[1..] != "0"
    else CanonicalDigits(s)
  }

  /** `String(n)` for an integer `n`: an optional minus sign and the decimal digits. */
  function IntToString(n: int): (r: string)
    ensures ParseInt(r) == Some(n)
    ensures CanonicalInt(r)
    ensures |r| >= 1 && (r[0] == '-' <==> n < 0)
  {
    if n < 0 then
      var digits := NatToString(-n);
      assert ("-" + digits)[1..] == digits;
      "-" + digits
    else NatToString(n)
  }

  /** A canonical integer text is the only one for its value: any canonical
      text that reads back as `n` is `String(n)`. */
  lemma CanonicalIntUnique(s: string, n: int)
    requires CanonicalInt(s) && ParseInt(s) == Some(n)
    ensures s == IntToString(n)
  {
    if |s| > 0 && s[0] == '-' {
      var d := s[1..];
      DigitsUnique(d, NatToString(-n));
      assert s == "-" + d;
    } else {
      DigitsUnique(s, NatToString(n));
    }
  }

  /** A digit string that starts with a non-zero digit has a positive value. */
  lemma {:induction false} LeadingDigitPositive(s: string)
    requires |s| >= 1 && AllDigits(s) && s[0] != '0'
    ensures DigitsValue(s) >= 1
    decreases |s|
  {
    if |s| > 1 {
      var front := s[..|s| - 1];
      assert front[0] == s[0];
      LeadingDigitPositive(front);
    }
  }

  /** The last digit and the value of the rest determine a digit string's value. */
  lemma LastDigit(v: nat, x: int, w: nat, y: int)
    requires 0 <= x < 10 && 0 <= y < 10 && v * 10 + x == w * 10 + y
    ensures x == y && v == w
  {
  }

  /** Canonical digit strings with the same value are equal. */
  lemma {:induction false} DigitsUnique(a: string, b: string)
    requires CanonicalDigits(a) && CanonicalDigits(b) && DigitsValue(a) == DigitsValue(b)
    ensures a == b
    decreases |a|
  {
    if |a| == 1 && |b| == 1 {
    } else if |a| == 1 {
      LeadingDigitPositive(b[..|b| - 1]);
    } else if |b| == 1 {
      LeadingDigitPositive(a[..|a| - 1]);
    } else {
      var fa, fb := a[..|a| - 1], b[..|b| - 1];
      LastDigit(DigitsValue(fa), a[|a| - 1] as int - '0' as int, DigitsValue(fb), b[|b| - 1] as int - '0' as int);
      assert fa[0] == a[0] && fb[0] == b[0];
      DigitsUnique(fa, fb);
      assert a == fa + [a[|a| - 1]] && b == fb + [b[|b| - 1]];
    }
  }

  /** Reads back an optional minus sign followed by decimal digits. */
  function ParseInt(s: string): Option<int> {
    if |s| > 1 && s[0] == '-' && AllDigits(s[1..]) then Some(-(DigitsValue(s[1..]) as int))
    else if |s| > 0 && AllDigits(s) then Some(DigitsValue(s))
    else None
  }

  // ---------------------------------------------------------------------------
  // JSON.stringify on an array of strings (section 7 of RFC 8259)
  // ---------------------------------------------------------------------------

  function HexDigit(d: nat): char
    requires d < 16
  {
    "0123456789abcdef"[d]
  }

  function HexValue(c: char): Option<nat> {
    if '0' <= c <= '9' then Some(c as int - '0' as int)
    else if 'a' <= c <= 'f' then Some(c as int - 'a' as int + 10)
    else if 'A' <= c <= 'F' then Some(c as int - 'A' as int + 10)
    else None
  }

  /** How `JSON.stringify` writes one character inside a string literal. */
  function JsonEscapeChar(c: char): (r: string)
    ensures |r| > 0 && forall i :: 0 <= i < |r| ==> ' ' <= r[i]
  {
    if c == '"' then "\\\""
    else if c == '\\' then "\\\\"
    else if c == '\U{8}' then "\\b"
    else if c == '\U{C}' then "\\f"
    else if c == '\n' then "\\n"
    else if c == '\r' then "\\r"
    else if c == '\t' then "\\t"
    else if c < ' ' then "\\u00" + [HexDigit(c as int / 16), HexDigit(c as int % 16)]
    else [c]
  }

  /** The body of a JSON string literal: no raw control character, quote or unescaped backslash. */
  function JsonEscape(s: string): (r: string)
    ensures forall i :: 0 <= i < |r| ==> ' ' <= r[i]
    decreases |s|
  {
    if |s| == 0 then "" else JsonEscapeChar(s[0]) + JsonEscape(s[1..])
  }

  /** Text without control characters, quotes or backslashes is written as it is. */
  lemma {:induction false} JsonEscapePlain(s: string)
    requires forall i :: 0 <= i < |s| ==> ' ' <= s[i] && s[i] != '"' && s[i] != '\\'
    ensures JsonEscape(s) == s
    decreases |s|
  {
    if |s| > 0 {
      JsonEscapePlain(s[1..]);
      assert s == [s[0]] + s[1..];
    }
  }

  /** `JSON.stringify(s)` for a string `s`. */
  function JsonQuote(s: string): string {
    "\"" + JsonEscape(s) + "\""
  }

  /** `JSON.stringify(xs)` for an array of strings: no spaces, comma separated. */
  function JsonStringArray(xs: seq<string>): (r: string)
    ensures '\n' !in r
  {
    var quoted := seq(|xs|, i requires 0 <= i < |xs| => JsonQuote(xs[i]));
    JoinAvoids(quoted, ",", '\n');
    "[" + Join(quoted, ",") + "]"
  }

  /** Reads the body of a JSON string literal back (the escapes of section 7 of
      RFC 8259, with `\u` limited to code points outside the surrogate range). */
  function JsonUnescape(s: string): Option<string>
    decreases |s|
  {
    if |s| == 0 then Some("")
    else if s[0] == '"' || s[0] < ' ' then None
    else if s[0] != '\\' then
      var rest :- JsonUnescape(s[1..]);
      Some([s[0]] + rest)
    else if |s| < 2 then None
    else
      var c := s[1];
      if c == 'u' then
        if |s| < 6 then None
        else
          var h0 :- HexValue(s[2]);
          var h1 :- HexValue(s[3]);
          var h2 :- HexValue(s[4]);
          var h3 :- HexValue(s[5]);
          var code := ((h0 * 16 + h1) * 16 + h2) * 16 + h3;
          if 0xD800 <= code < 0xE000 then None
          else
            var rest :- JsonUnescape(s[6..]);
            Some([code as char] + rest)
      else
        var decoded :=
          if c == '"' then Some('"')
          else if c == '\\' then Some('\\')
          else if c == '/' then Some('/')
          else if c == 'b' then Some('\U{8}')
          else if c == 'f' then Some('\U{C}')
          else if c == 'n' then Some('\n')
          else if c == 'r' then Some('\r')
          else if c == 't' then Some('\t')
          else None;
        var d :- decoded;
        var rest :- JsonUnescape(s[2..]);
        Some([d] + rest)
  }

  lemma JsonUnescapeChar(c: char, t: string)
    ensures JsonUnescape(JsonEscapeChar(c) + t) ==
      (match JsonUnescape(t) case None => None case Some(u) => Some([c] + u))
  {
    if c == '"' || c == '\\' || c == '\U{8}' || c == '\U{C}' || c == '\n' || c == '\r' || c == '\t' {
      JsonUnescapeShortEscape(c, t);
    } else if c < ' ' {
      JsonUnescapeUnicodeEscape(c, t);
    } else {
      assert (JsonEscapeChar(c) + t)[1..] == t;
    }
  }

  lemma JsonUnescapeShortEscape(c: char, t: string)
    requires c == '"' || c == '\\' || c == '\U{8}' || c == '\U{C}' || c == '\n' || c == '\r' || c == '\t'
    ensures JsonUnescape(JsonEscapeChar(c) + t) ==
      (match JsonUnescape(t) case None => None case Some(u) => Some([c] + u))
  {
    var s := JsonEscapeChar(c) + t;
    assert s[0] == '\\' && s[2..] == t;
  }

  lemma JsonUnescapeUnicodeEscape(c: char, t: string)
    requires c < ' ' && c != '\U{8}' && c != '\U{C}' && c != '\n' && c != '\r' && c != '\t'
    ensures JsonUnescape(JsonEscapeChar(c) + t) ==
      (match JsonUnescape(t) case None => None case Some(u) => Some([c] + u))
  {
    var e := JsonEscapeChar(c);
    assert e == "\\u00" + [HexDigit(c as int / 16), HexDigit(c as int % 16)];
    var s := e + t;
    assert s[0] == '\\' && s[1] == 'u' && s[6..] == t;
    assert s[2] == '0' && s[3] == '0';
    assert s[4] == HexDigit(c as int / 16) && s[5] == HexDigit(c as int % 16);
  }

  /** Reading back an escaped body yields the original string. */
  lemma {:induction false} JsonEscapeRoundTrip(s: string)
    ensures JsonUnescape(JsonEscape(s)) == Some(s)
    decreases |s|
  {
    if |s| > 0 {
      JsonEscapeRoundTrip(s[1..]);
      JsonUnescapeChar(s[0], JsonEscape(s[1..]));
      assert [s[0]] + s[1..] == s;
    }
  }
}

=== FILE: types.dfy ===
/** The schema AST of the current version: data sources, generators, enums,
    models and their fields, as immutable values. */
module Types {
  import opened Wrappers

  /** JavaScript truthiness of an optional string: present and non-empty. */
  predicate Truthy(s: Option<string>) {
    s.Some? && s.value != ""
  }

  datatype DataSourceProvider = PostgreSQL | MySQL | SQLite | MongoDB {
    /** The enum's string value, as written into `provider = "..."`. */
    function Text(): string {
      match this
      case PostgreSQL => "postgresql"
      case MySQL => "mysql"
      case SQLite => "sqlite"
      case MongoDB => "mongodb"
    }
  }

  /** A data source url: a literal string, or a reference `{ name }` to an environment variable. */
  datatype DataSourceUrl = UrlLiteral(value: string) | UrlEnv(name: string)

  /** `isDataSourceURLEnv`: the url carries a `name`. */
  predicate IsDataSourceUrlEnv(url: DataSourceUrl) {
    url.UrlEnv?
  }

  datatype DataSource = DataSource(
    name: string,
    provider: DataSourceProvider,
    url: DataSourceUrl,
    relationMode: Option<string>)

  datatype PreviewFeature =
    | FullTextSearch | FullTextIndex | Metrics | OrderByNulls | Tracing
    | FilteredRelationCount | FieldReference | MultiSchema | PostgresqlExtensions
    | Deno | ExtendedWhereUnique | ClientExtensions | Views
  {
    function Text(): string {
      match this
      case FullTextSearch => "fullTextSearch"
      case FullTextIndex => "fullTextIndex"
      case Metrics => "metrics"
      case OrderByNulls => "orderByNulls"
      case Tracing => "tracing"
      case FilteredRelationCount => "filteredRelationCount"
      case FieldReference => "fieldReference"
      case MultiSchema => "multiSchema"
      case PostgresqlExtensions => "postgresqlExtensions"
      case Deno => "deno"
      case ExtendedWhereUnique => "extendedWhereUnique"
      case ClientExtensions => "clientExtensions"
      case Views => "views"
    }
  }

  /** A generator. An absent `binaryTargets`/`previewFeatures` prints like an
      empty list, so both are plain sequences here. */
  datatype Generator = Generator(
    name: string,
    provider: string,
    output: Option<string>,
    binaryTargets: seq<string>,
    previewFeatures: seq<PreviewFeature>)

  datatype ScalarType = String | Boolean | Int | Float | DateTime | Json {
    /** The enum's string value, which is also the type name printed in a field. */
    function Name(): string {
      match this
      case String => "String"
      case Boolean => "Boolean"
      case Int => "Int"
      case Float => "Float"
      case DateTime => "DateTime"
      case Json => "Json"
    }
  }

  /** The scalar type whose string value is `tag`, if any. */
  function ScalarTypeFromName(tag: string): (r: Option<ScalarType>)
    ensures r.Some? ==> r.value.Name() == tag
    ensures r.None? ==> forall t: ScalarType :: t.Name() != tag
  {
    if tag == "String" then Some(String)
    else if tag == "Boolean" then Some(Boolean)
    else if tag == "Int" then Some(Int)
    else if tag == "Float" then Some(Float)
    else if tag == "DateTime" then Some(DateTime)
    else if tag == "Json" then Some(Json)
    else None
  }

  /** The six scalar types have six distinct names, each read back to its type. */
  lemma ScalarTypeNamesRoundTrip(t: ScalarType)
    ensures ScalarTypeFromName(t.Name()) == Some(t)
  {
  }

  datatype ReferentialAction = NONE | Cascade | Restrict | NoAction | SetNull | SetDefault {
    function Text(): string {
      match this
      case NONE => "NONE"
      case Cascade => "Cascade"
      case Restrict => "Restrict"
      case NoAction => "NoAction"
      case SetNull => "SetNull"
      case SetDefault => "SetDefault"
    }
  }

  const AUTO_INCREMENT: string := "autoincrement"
  const NOW: string := "now"
  const CUID: string := "cuid"
  const UUID: string := "uuid"
  const DB_GENERATED: string := "dbgenerated"

  /** `ScalarFieldDefault`: null | boolean | CallExpression | number | string.
      Numbers are modelled as integers. */
  datatype ScalarDefault =
    | NullDefault
    | BoolDefault(b: bool)
    | CallDefault(callee: string)
    | NumberDefault(n: int)
    | StringDefault(s: string)

  /** `isCallExpression`: the value carries a `callee`. */
  predicate IsCallExpression(v: ScalarDefault) {
    v.CallDefault?
  }

  /** JavaScript truthiness of a default: `false`, `0`, `""` and `null` are falsy. */
  predicate DefaultIsTruthy(v: ScalarDefault) {
    match v
    case NullDefault => false
    case BoolDefault(b) => b
    case CallDefault(_) => true
    case NumberDefault(n) => n != 0
    case StringDefault(s) => s != ""
  }

  datatype FieldKind = Scalar | Object {
    function Text(): string {
      match this
      case Scalar => "scalar"
      case Object => "object"
    }
  }

  /** A model field. `fieldType` of a scalar field is the `ScalarType` string
      value it was built with; of an object field, the referenced model's name.
      The referential actions of an object field are optional properties. */
  datatype Field =
    | ScalarField(
        name: string,
        isList: bool,
        isRequired: bool,
        documentation: Option<string>,
        fieldType: string,
        isId: bool,
        isUnique: bool,
        isUpdatedAt: bool,
        defaultValue: ScalarDefault,
        isForeignKey: bool)
    | ObjectField(
        name: string,
        isList: bool,
        isRequired: bool,
        documentation: Option<string>,
        fieldType: string,
        relationName: Option<string>,
        relationToFields: seq<string>,
        relationToReferences: seq<string>,
        relationOnDelete: Option<ReferentialAction>,
        relationOnUpdate: Option<ReferentialAction>)
  {
    function Kind(): FieldKind {
      if ScalarField? then Scalar else Object
    }
  }

  datatype SortOrder = Asc | Desc {
    function Text(): string {
      match this
      case Asc => "asc"
      case Desc => "desc"
    }
  }

  datatype IndexField = IndexField(name: string, sort: Option<SortOrder>)

  datatype Index = Index(fields: seq<IndexField>)

  /** A full-text index; its fields carry a name only. */
  datatype FullTextIndex = FullTextIndex(fields: seq<string>)

  datatype Model = Model(
    name: string,
    fields: seq<Field>,
    mappedName: Option<string>,
    documentation: Option<string>,
    indexes: Option<seq<Index>>,
    fullTextIndexes: Option<seq<FullTextIndex>>)

  datatype Enum = Enum(name: string, values: seq<string>, documentation: Option<string>)

  datatype Schema = Schema(
    models: seq<Model>,
    enums: seq<Enum>,
    dataSource: Option<DataSource>,
    generators: seq<Generator>)
}

=== FILE: validation.dfy ===
/** The checks both builder versions share: the name check, the optional-list
    prohibition and the errors a builder can throw, with their exact messages. */
module Validation {
  import opened Wrappers

  predicate IsAsciiLetter(c: char) {
    'A' <= c <= 'Z' || 'a' <= c <= 'z'
  }

  /** A character of the class `[A-Za-z0-9_]`. */
  predicate IsWordChar(c: char) {
    IsAsciiLetter(c) || '0' <= c <= '9' || c == '_'
  }

  /** `name[i..j]` is matched by `[A-Za-z][A-Za-z0-9_]*`. */
  ghost predicate PatternMatchesAt(name: string, i: int, j: int) {
    && 0 <= i < j <= |name|
    && IsAsciiLetter(name[i])
    && forall k :: i < k < j ==> IsWordChar(name[k])
  }

  // `name.match(NAME_REGEXP)` is truthy. The regular expression is not
  // anchored, so a match of the pattern anywhere in the name is enough.
  ghost predicate NamePatternMatches(name: string) {
    exists i, j :: PatternMatchesAt(name, i, j)
  }

  /** The executable form of the name check: some character is an ASCII letter. */
  predicate ContainsAsciiLetter(name: string) {
    exists i :: 0 <= i < |name| && IsAsciiLetter(name[i])
  }

  /** An unanchored match of the name pattern exists exactly when the name holds an ASCII letter. */
  lemma NamePatternIffLetter(name: string)
    ensures NamePatternMatches(name) <==> ContainsAsciiLetter(name)
  {
    if ContainsAsciiLetter(name) {
      var i :| 0 <= i < |name| && IsAsciiLetter(name[i]);
      assert PatternMatchesAt(name, i, i + 1);
    }
  }

  const OPTIONAL_LIST_ERROR_MESSAGE: string :=
    "Invalid modifiers: You cannot combine isRequired: false and isList: true - optional lists are not supported."

  /** What a builder throws. */
  datatype BuildError =
    | InvalidName(name: string)
    | OptionalList
    | InvalidDefault(reason: string)
    | UnknownType(tag: string)
    | InvalidModelAttributes(modelName: string)
    | InvalidFieldAttributes(fieldName: string)
  {
    /** The message of the thrown `Error`. */
    function Message(): string {
      match this
      case InvalidName(name) =>
        "Invalid name: \"" + name + "\". Name must start with a letter and can contain only letters, numbers and underscores"
      case OptionalList => OPTIONAL_LIST_ERROR_MESSAGE
      case InvalidDefault(reason) => reason
      case UnknownType(tag) => "Unknown type " + tag
      case InvalidModelAttributes(modelName) =>
        "Invalid model " + modelName + " attribute: all model attributes must start with @@."
      case InvalidFieldAttributes(fieldName) =>
        "Invalid field " + fieldName + " attribute: all field attributes must start with @."
    }
  }

  /** The message thrown when a non-null default does not suit the scalar type
      named `tag`; BigInt shares Int's and Decimal shares Float's. */
  function DefaultMismatchReason(tag: string): string {
    if tag == "String" then "Default must be a string or a call expression to uuid() or cuid()"
    else if tag == "Boolean" then "Default must be a boolean"
    else if tag == "Int" || tag == "BigInt" then "Default must be a number or call expression to autoincrement()"
    else if tag == "Float" || tag == "Decimal" then "Default must be a number"
    else if tag == "DateTime" then "Default must be a date-time string or a call expression to now()"
    else "Default must a JSON string"
  }

  /** `validateName`: rejects a name only when no part of it matches the name pattern. */
  function ValidateName(name: string): (r: Outcome<BuildError>)
    ensures r == Pass <==> NamePatternMatches(name)
    ensures r.Fail? ==> r.error == InvalidName(name)
  {
    NamePatternIffLetter(name);
    if ContainsAsciiLetter(name) then Pass else Fail(InvalidName(name))
  }

  /** `validateModifiers`: an optional list is the one rejected combination. */
  function ValidateModifiers(isRequired: bool, isList: bool): (r: Outcome<BuildError>)
    ensures r.Fail? <==> !isRequired && isList
    ensures r.Fail? ==> r.error.Message() == OPTIONAL_LIST_ERROR_MESSAGE
  {
    if !isRequired && isList then Fail(OptionalList) else Pass
  }

  /** Names from the source's tests and their verdicts: only a name without any
      ASCII letter is rejected. */
  lemma NameExamples()
    ensures ValidateName("1a") == Pass && ValidateName("a-b") == Pass
    ensures ValidateName("ExampleModelName") == Pass
    ensures ValidateName("") == Fail(InvalidName("")) && ValidateName("123") == Fail(InvalidName("123"))
  {
    assert IsAsciiLetter("1a"[1]);
    assert IsAsciiLetter("a-b"[0]);
    assert IsAsciiLetter("ExampleModelName"[0]);
    assert !ContainsAsciiLetter("123") by {
      forall i | 0 <= i < 3 ensures !IsAsciiLetter("123"[i]) {
      }
    }
  }
}

=== FILE: wrappers.dfy ===
/** Failure-compatible wrappers used in place of JavaScript's `undefined`/`null`
    and of thrown exceptions. */
module Wrappers {

  /** An optional value: `None` stands for an absent (`undefined` or `null`) property. */
  datatype Option<+T> = None | Some(value: T) {

    predicate IsFailure() {
      None?
    }

    function PropagateFailure<U>(): Option<U>
      requires None?
    {
      None
    }

    function Extract(): T
      requires Some?
    {
      value
    }

    function GetOr(default: T): T {
      match this
      case Some(v) => v
      case None() => default
    }
  }

  /** Either a value or the error a builder or printer would have thrown. */
  datatype Result<+R, +E> = Ok(value: R) | Err(error: E) {

    predicate IsFailure() {
      Err?
    }

    function PropagateFailure<U>(): Result<U, E>
      requires Err?
    {
      Err(error)
    }

    function Extract(): R
      requires Ok?
    {
      value
    }
  }

  /** The outcome of a check that returns nothing on success and throws on failure. */
  datatype Outcome<+E> = Pass | Fail(error: E)
}
